=== FILE: README.md ===
# BhTomoPy core logic, modelled in Dafny

This project models the core logic of BhTomoPy, a borehole radar tomography
tool, and proves properties of that model. Three pieces are covered:

- **Borehole geometry** (`borehole.py`):
  - the validating property setters of a `Borehole` (`name`, the nine numeric attributes, `fdata`);
  - `Borehole.project`. It builds the cumulative along-hole depth table of the trajectory, brackets each measurement depth between two vertices (ValueError when no bracket exists) and interpolates the point from the upper vertex.
- **MOG conditioning** (`mog_ui.py`). A MOG is a multi-offset gather. The logic is taken out of the Qt callbacks, and widget values become parameters:
  - the prune engine `update_prune`: elevation band, station skip, ray angle, and their combination into `in_vect`;
  - its statistics `update_prune_info`;
  - the vertical-borehole branch of `updateCoords`;
  - the row selection of `export_tt`;
  - the zero-offset selection of `plot_zop`;
  - the name and data-directory part of `load_file_MOG`;
  - the air-shot search, recording and classification of `airBefore`/`airAfter`;
  - both copies of the compatibility test `getcompat`;
  - the merge `doMerge`;
  - the unpicked-time warning of `DeltaTMOG.done`.
- **Database bookkeeping** (`database.py`):
  - `model_boreholes`, an order-preserving deduplication;
  - the used/unused selection of `airshots_cleanup`;
  - the session effect of `delete` and its `modified` flag.

Modules:
- `Wrappers`: Option, Result and the Python exceptions raised.
- `Masks`: the numpy idioms `np.where`, `sum`, `np.unique` and `v[::step]`, each defined once.
- `Paths`: `split('/')`, `'/'.join`, `lower()`, `in` and `s[:-k]` on strings.
- `BoreholeModel`: `borehole.py`.
- `Mogs`: the record classes `MogData`, `Mog`, `AirShots` and the window state `MogUI`.
- `Prune` and `PruneStats`: `update_prune` and `update_prune_info`.
- `Coords`: `updateCoords`.
- `Selection`: `export_tt` and `plot_zop`.
- `Combine`: `getcompat`, `doMerge` and `done`.
- `MogFiles`: `load_file_MOG`, `airBefore` and `airAfter`.
- `Database`: `database.py`.

Numbers are Dafny `real`. The results of `sqrt` and `arctan2` are inputs:
- `seglen[k]`, the length of trajectory segment k;
- `theta[i]`, the ray angle of trace i.

A numpy float64 result of a division by zero is modelled as a non-finite value. Objects the source updates in place (`Borehole`, `Mog`, `MogData`, `AirShots`, the window's lists, the database session) are classes whose methods state their whole new state.

Throughout, operations model the code as written. Where that differs from what is evidently intended, the intended definition stands beside the as-written one, with its property proved (see "## Findings").

## Model

| member | source | states |
|---|---|---|
| BoreholeModel.Borehole.constructor | borehole.py:34-35 | The object before the setters run: named `name`, with the signature's defaults, every numeric attribute 0.0 and `fdata` the 2x3 zero trajectory. |
| BoreholeModel.Construction | borehole.py:47-59 | The call succeeds iff the name is a str, every numeric argument a float, and `fdata` an `[n, 3]` array. A refused name or numeric argument raises TypeError. |
| BoreholeModel.DefaultsRefused | borehole.py:34-71 | `Borehole()` raises TypeError, because the default name is None, and so does `Borehole("b", X=3)`. `Borehole("b", X=3.0)` succeeds. |
| BoreholeModel.NewBorehole | borehole.py:34-60 | `Borehole(name, **kw, fdata=...)` raises the error `Construction` gives. Otherwise it returns a fresh borehole holding the name, each numeric argument or its default 0.0, and the rows of `fdata`. |
| BoreholeModel.Borehole.SetName | borehole.py:66-71 | A str is stored. Anything else raises TypeError and leaves the name unchanged. No other attribute changes. |
| BoreholeModel.Borehole.SetNumeric | borehole.py:77-170 | A float is stored in exactly the attribute set. Anything else, a Python int included, raises TypeError with the attribute unchanged. The other attributes, the name and `fdata` are untouched. |
| BoreholeModel.Borehole.SetFdata | borehole.py:180-192 | A 2-D array with exactly 3 columns is stored as its rows, any row count. Another array raises TypeError. A value without `.shape` raises AttributeError. Nothing else changes. |
| BoreholeModel.IntCoordinateRefused | borehole.py:79-82 | The as-written test refuses the int 3, which the intended test accepts as 3.0. |
| BoreholeModel.IntendedExtendsAsWritten | borehole.py:79-82 | The intended test accepts everything the as-written test accepts, with the same value. |
| BoreholeModel.Borehole.SetNumericIntended | borehole.py:77-82 | The intended setter: a float or an int is stored as a float in exactly the attribute set; anything else raises TypeError with everything unchanged. |
| BoreholeModel.DepthTableRunningSum | borehole.py:227 | `depthBH[k+1] = depthBH[k] + seglen[k]`. The table starts at 0 and has one more entry than there are segments. |
| BoreholeModel.DepthTableNonDecreasing | borehole.py:227 | Non-negative lengths give a non-decreasing table. |
| BoreholeModel.DepthTableIncreasing | borehole.py:227 | Positive lengths give a strictly increasing table. |
| BoreholeModel.LastAtOrBelowIsLast | borehole.py:238-245 | `i1` is the last entry `<= d`. It is missing exactly when every entry is above `d`. |
| BoreholeModel.FirstAboveIsFirst | borehole.py:247-254 | `i2` is the first entry `> d`. It is missing exactly when no entry is above `d`. |
| BoreholeModel.BracketsExist | borehole.py:238-254 | The lower bracket is missing iff `d < 0`. The upper bracket is missing iff `d >= ` total length, the bottom vertex included. |
| BoreholeModel.BracketAdjacent | borehole.py:238-256 | In a non-decreasing table with both brackets present, `i2 = i1 + 1`. |
| BoreholeModel.BracketMonotone | borehole.py:227-256 | Monotonic arc length: for depths `0 <= d1 <= d2` both lower brackets exist, and the segment index `i1` of `d1` is at most that of `d2`. |
| BoreholeModel.DepthBracketAdjacent | borehole.py:227-256 | The brackets of a depth in the trajectory's table are adjacent vertices. |
| BoreholeModel.SummedDivisor | borehole.py:258 | The divisor is non-negative and equals plus or minus the sum of the three coordinate differences. |
| BoreholeModel.InterpolateAtVertex | borehole.py:258-266 | At `d2 = 0` the point is the upper vertex, unless the divisor is zero. |
| BoreholeModel.ProjectDepthFails | borehole.py:236-254 | A depth is projected iff it lies in `[0, total)`. Otherwise ValueError. |
| BoreholeModel.BracketBounds | borehole.py:238-262 | Inside the hole: `i2 = i1 + 1`, that segment is non-empty, and `0 <= d2 < seglen[i1]`. |
| BoreholeModel.ProjectAtVertex | borehole.py:238-266 | A depth equal to `depthBH[k]`, above the bottom, projects to the interpolation from `fdata[k]` at distance 0: `fdata[k]` itself unless the summed divisor of segment k vanishes (e.g. (0,0,0)-(1,-1,0)), where numpy gives NaN (`InterpolateAtVertex`). |
| BoreholeModel.ProjectOne | borehole.py:237-267 | One loop pass equals the per-depth specification `ProjectDepth`. It succeeds iff the depth is inside `[0, total)`. |
| BoreholeModel.Project | borehole.py:197-271 | Succeeds iff every depth is in `[0, total)`, otherwise ValueError. On success x, y, z and c have `npts` rows, row n is `ProjectDepth` of `ldepth[n]`, and every row of c is (1, 1, 1). |
| BoreholeModel.StepAlongSegment | borehole.py:259-266 | Stepping `d2` along the unit direction of a segment stays on it, at distance `d2` from its start. |
| BoreholeModel.IntendedIsStep | borehole.py:258-266 | The intended point is `fdata[i1]` plus `d2` along the unit direction of segment `i1`. |
| BoreholeModel.IntendedStaysOnTrajectory | borehole.py:258-266 | With the segment length as divisor, each point lies on its bracketing segment, at distance `depth - depthBH[i1]` from `fdata[i1]`. |
| BoreholeModel.SingleSegment | borehole.py:227-266 | On a one-segment hole, both projections interpolate from the top vertex. |
| BoreholeModel.SummedDivisorMisplacesPoint | borehole.py:258-266 | On the segment (0,0,0)-(3,4,0), depth 2.5 lands at (15/14, 10/7, 0). |
| BoreholeModel.MisplacedPointDistances | borehole.py:258-266 | That segment has length 5, and the misplaced point is only 25/14 from its top. |
| Masks.Where | mog_ui.py:565-566 | `np.where(mask)[0]`: exactly the indices where the mask holds, ascending. |
| Masks.Unique | mog_ui.py:619-625 | `np.unique`: strictly increasing, exactly the values of the input. |
| Masks.UniqueIgnoresOrder | mog_ui.py:620 | `np.unique(np.sort(v)) == np.unique(v)`: the result depends on the values only. |
| Masks.StrideKeepsUnique | mog_ui.py:646-653 | For sorted distinct values, index i survives `[::step]` iff the slice keeps index i, for either sign of step. |
| Masks.StrideLength | mog_ui.py:646-647 | `[::step]` of n values keeps `ceil(n / step)` of them. |
| Prune.SumMinusOne | mog_ui.py:632-633 | The idiom `(a + b - 1).astype(bool)` holds iff `a == b`, not iff `a && b`. |
| Prune.ElevationMaskBand | mog_ui.py:619-633 | With `lo <= hi`, entry j is true iff `lo <= -u[j] <= hi`. With `lo > hi`, it is true iff `-u[j]` lies strictly between them. |
| Prune.PadEntries | mog_ui.py:636-637 | Positions from the unique count up to `ntrace` are padded true. |
| Prune.SkipClearsExactly | mog_ui.py:642-663 | The skip stage clears exactly the unique-station positions that the slice `[::skip+1]` drops, and nothing beyond them. |
| Prune.NoSkipClearsNothing | mog_ui.py:646-663 | A skip of 0 clears nothing. |
| Prune.AngleOutsideBand | mog_ui.py:672-675 | With `angMin <= angMax`, a trace is outside iff `theta < angMin` or `theta > angMax`. |
| Prune.AngleClearsExactly | mog_ui.py:672-683 | The angle stage clears exactly the traces whose angle is outside. It never sets an entry. |
| Prune.TxSelectionEntries | mog_ui.py:619-663 | When the band's lower bound is at most its upper one (`newMin <= newMax`), the final `in_Tx_vect[i]` is true iff the station is in the elevation band and kept by the skip, or i lies past the unique count. |
| Prune.RxSelectionEntries | mog_ui.py:619-683 | When `newMin <= newMax` and `angMin <= angMax`, the final `in_Rx_vect[i]` is true iff the station passes the band (upper bound + 1e-10) and the skip, and the ray angle passes the angle band. |
| Prune.UpdatePrune | mog_ui.py:586-689 | The selection vectors are reset, then rebuilt from the inputs only. Only the three selection fields change. Errors, each leaving the vectors as far as the previous stages got: ValueError for more unique depths than traces; ValueError for skip -1 (step 0); IndexError for a trace beyond the vectors whose angle is outside. On success `in_vect` is the idiom on the two final vectors. |
| Prune.PruneElevation | mog_ui.py:600-637 | The elevation stage with padding. ValueError for more unique depths than traces. |
| Prune.PruneSkip | mog_ui.py:642-663 | The skip stage gives `TxSelection` / `RxSkipped`. ValueError on a step of 0. |
| Prune.PruneAngle | mog_ui.py:666-683 | The angle stage gives `RxSelection`. IndexError exactly when a trace past the vector is outside. |
| Prune.PruneSelect | mog_ui.py:642-689 | Skip and angle stages, then the combination into `in_vect`. |
| Prune.ClearSkipped | mog_ui.py:651-663 | The list-then-clear loops equal clearing the skipped stations. |
| Prune.SkippedIndices | mog_ui.py:651-653 | The loop lists exactly the unique-station positions the slice drops. |
| Prune.ClearEach | mog_ui.py:655-656 | `v[value] = False` for each listed position. |
| Prune.OutsideTracesPast | mog_ui.py:678-683 | The loop stops at the first listed trace past the vector, which is the IndexError case, and all entries inside were already cleared. |
| Prune.OutsideTracesInside | mog_ui.py:678-683 | When every listed trace is inside the vectors, there is no IndexError. |
| Prune.CombineIsAndOnlyWithoutDoubleDrop | mog_ui.py:689 | `in_vect` equals the AND of the two vectors iff no trace is dropped by both. |
| Prune.DoublyDroppedTraceKept | mog_ui.py:689 | A trace dropped by both vectors is kept by `in_vect`. |
| Prune.IntendedInVect | mog_ui.py:689 | The intended `in_vect`: entry i is `rx[i] && tx[i]`, and it keeps no more traces than either vector. |
| PruneStats.SumOf | mog_ui.py:718-722 | `sum(v)` counts the true entries. It is a numpy integer iff v is non-empty. |
| PruneStats.Percent | mog_ui.py:720-723 | `num / den * 100`: ZeroDivisionError iff `den == 0` with Python ints only; non-finite for a numpy zero division; otherwise `p * den == 100 * num`. |
| PruneStats.UpdatePruneInfo | mog_ui.py:714-729 | ZeroDivisionError exactly when `ntrace == 0` and either both the Tx and Rx vectors are empty (both their sums are the Python int 0) or `in_vect` is empty. The station counts are the unique depth counts. |
| PruneStats.PruneInfoBounds | mog_ui.py:714-729 | For `ntrace > 0`: removed share in [0, 200], 0 iff both vectors keep every trace; kept share in [0, 100], 100 iff every trace is kept; the angle share is 0 for a 180-degree range. |
| PruneStats.PercentBounds | mog_ui.py:720-723 | A share of `0 <= num <= k*den` lies in [0, 100k], at its ends exactly at the ends. |
| Selection.BroadcastLen | mog_ui.py:565 | Element-wise numpy operations broadcast length 1 and refuse any other mismatch. |
| Selection.ExportMask | mog_ui.py:565-566 | ValueError on a length mismatch. Otherwise entry i is `tt[i] != -1 && in_vect[i]`. |
| Selection.ExportTT | mog_ui.py:565-569 | The rows are `(i, tt[i], et[i])` in strictly ascending i. ValueError on a mask mismatch. |
| Selection.ExportTTSelectsExactly | mog_ui.py:565-569 | Success iff `et` covers every selected trace, else IndexError. On success the rows list exactly the picked and selected traces. |
| Selection.ZeroOffsetMask | mog_ui.py:1713-1714 | ValueError on a length mismatch. Otherwise entry i is `abs(Tx_z[i] - Rx_z[i]) <= tol`. |
| Selection.ZeroOffsetTraces | mog_ui.py:1713-1717 | Only ValueError can be raised, and never for vectors of one length. |
| Selection.ZeroOffsetExactly | mog_ui.py:1713-1717 | `zop_ind` lists exactly the zero-offset traces. `zop_picked_ind` lists exactly those with `tt != -1`, a subset of `zop_ind`. |
| Coords.Depths | mog_ui.py:408 | `Z - Offset - z_orig`: each depth plus offset plus original depth is the collar elevation. |
| Coords.Reposition | mog_ui.py:395-417 | x and y have `ntrace` entries. Crosshole along a vertical borehole: constant `fdata[0]` x/y, cosines (0,0,1). Otherwise x = y = 1 and z and the cosines are kept. |
| Coords.RepositionOnHole | mog_ui.py:404-417 | On a vertical borehole each station is within 1e-5 of both vertices in x and y, and `zOrig[k] + offset` below the collar. |
| Coords.RepositionIdempotent | mog_ui.py:395-417 | Applying the placement twice gives what applying it once gives. |
| Coords.SurveyMode | mog_ui.py:400-423 | The Crosshole and VSP/VRP survey-mode lines. Any other type keeps `csurvmod`. |
| Coords.UpdateCoords | mog_ui.py:391-423 | A combo index outside the borehole list raises IndexError with nothing changed. Otherwise Tx/Rx are set and each side is `Reposition` of its old stations. `csurvmod` follows the type. Only the boreholes, the station coordinates, the cosines and `csurvmod` may change. |
| Coords.PlaceTx | mog_ui.py:395-409 | The Tx side becomes `Reposition` of the old Tx side. Only the Tx coordinates and cosines may change. |
| Coords.PlaceRx | mog_ui.py:397-417 | The Rx side becomes `Reposition` of the old Rx side. Only the Rx coordinates and cosines may change. |
| Combine.AirLen | mog_ui.py:2297-2300 | `len(av)`: 0 for '', TypeError for an int index. |
| Combine.CellEq | mog_ui.py:2292-2309 | `==` as a condition: ValueError when a merged pair is involved, else equality. |
| Combine.MergeAirTestOnlyWithoutAirShots | mog_ui.py:2297-2304 | The merge window's air test answers iff neither gather has an air shot or pair, and then answers true. An air shot on the reference raises TypeError. |
| Combine.DeltaAirTestIsEquality | mog_ui.py:2480-2487 | The delta-t air test is equality of the references for unmerged gathers. |
| Combine.DeltaTCompatibleIsIntended | mog_ui.py:2476-2491 | For unmerged gathers, the delta-t copy computes the intended test: same boreholes, air shots, offsets and type. |
| Combine.IntendedCompatibleSymmetric | mog_ui.py:2476-2491 | The intended compatibility test is symmetric. |
| Combine.MergeCompatibleAgrees | mog_ui.py:2292-2309 | The merge copy agrees with the intended test wherever it answers, answers for unmerged gathers without air shots, and raises TypeError when the reference has an air shot. |
| Combine.CompatibleSymmetric | mog_ui.py:2292-2309 | Where both directions answer, either copy is symmetric. |
| Combine.CompatPrefixListsExactly | mog_ui.py:2291-2311 | A successful scan lists exactly the non-reference gathers the test accepts, ascending. |
| Combine.AirShotReferenceBreaksMerge | mog_ui.py:2291-2304 | With an air shot on the reference, the merge scan raises TypeError as soon as another gather exists. |
| Combine.CompatPrefixErrorStays | mog_ui.py:2291-2311 | Once the scan raises, later gathers do not change the outcome. |
| Combine.ListCompatible | mog_ui.py:2291-2311 | The loop with `nc` and `ids` equals the scan specification. The listed indices are exactly the accepted gathers. |
| Combine.MergeGetCompat | mog_ui.py:2280-2318 | IndexError for a reference index outside the list. Otherwise the merge scan. |
| Combine.DeltaTGetCompat | mog_ui.py:2464-2505 | No gathers reports that. Otherwise an index outside raises IndexError, one gather reports "only one", and more gathers give the delta-t scan. |
| Combine.HasUnpicked | mog_ui.py:2517-2518 | The scan finds a -1 travel time iff `np.any(tt == -1)`. |
| Combine.DeltaTDone | mog_ui.py:2508-2520 | IndexError for a bad reference index. Otherwise it warns about an empty subtrahend list, an empty name, and, exactly when the reference has a -1 travel time, about unpicked times. |
| Combine.LastNamed | mog_ui.py:2334-2337 | The last gather with that name, or none when no gather has it. |
| Combine.RemoveFirst | mog_ui.py:2387-2388 | `list.remove`: ValueError iff absent, else exactly one occurrence fewer. |
| Combine.MergeSources | mog_ui.py:2322-2339 | AttributeError without a current item, IndexError for a bad reference index, UnboundLocalError when no gather has the name. Otherwise the reference and the merged gather, both from the list. |
| Combine.FindSources | mog_ui.py:2323-2339 | The lookup loop equals `MergeSources`. |
| Combine.EraseBoth | mog_ui.py:2387-2388 | Removing the reference then the merged gather. The second removal raises ValueError iff no copy of it is left. |
| Mogs.Mog.Merged | mog_ui.py:2340-2373 | Every copied field is the pair `[ref.field, merging.field]`, the boreholes and data are the reference's, and the name is new. |
| Combine.DoMerge | mog_ui.py:2320-2399 | Only the gather list may change; lookup errors leave it as it was. A confirmed self-merge raises ValueError after one removal. Otherwise a fresh gather built from both sources, and the list is the `MergedList` for the erase choice. |
| Combine.Attach | mog_ui.py:2375-2399 | Only the gather list may change. Keep appends. A confirmed erase removes both and appends, or raises ValueError. A cancelled erase changes nothing. |
| Combine.KeepAppendsOne | mog_ui.py:2393-2394 | Without erase the list grows by exactly the new gather, at the end. |
| Combine.EraseRemovesBoth | mog_ui.py:2375-2389 | A confirmed erase of two distinct gathers removes both and appends the new one. The list shrinks by one. |
| Combine.EraseSelfMergeRaises | mog_ui.py:2387-2388 | Merging a gather with itself and erasing removes it, then raises ValueError. |
| Paths.SplitJoin | mog_ui.py:55-56 | `'/'.join(s.split('/')) == s`, and a path with a slash has at least two parts. |
| Paths.SplitAppend | mog_ui.py:55-56 | Splitting `d + '/' + t`, for a slash-free t, adds t as the last part. |
| Paths.BaseNameOfPath | mog_ui.py:55-56 | `(dir + '/' + name).split('/')[-1] == name`. |
| MogFiles.MogName | mog_ui.py:55-60 | The gather name never holds a slash. |
| MogFiles.MogNameOfRadarFile | mog_ui.py:55-60 | `dir/stem.ext` with a radar extension, in any case, names the gather `stem`. |
| MogFiles.DirPrefixOfPath | mog_ui.py:70-71 | The directory prefix ends in a slash, and prefix + file name is the path. |
| MogFiles.DataRepAccumulates | mog_ui.py:70-72 | As written, each load appends the new directory to the previous `data_rep`. |
| MogFiles.SecondLoadDoublesDirectory | mog_ui.py:70-72 | Two loads from one directory leave it written twice. |
| MogFiles.DataRepIntendedRoundTrip | mog_ui.py:70-72 | The intended directory, a slash and the file name give back the path. |
| MogFiles.UpdateDataRep | mog_ui.py:70-72 | The loop gives `DataRepAfter` of the old `data_rep`. |
| MogFiles.LoadFileMog | mog_ui.py:54-77 | Without a radar extension nothing changes. Otherwise `data_rep` is updated, and a failed read raises. Else a fresh gather named `MogName(filename)` holding the read data is appended. |
| MogFiles.AirMethodClassifies | mog_ui.py:221-239 | A recorded air shot is fixed-antenna iff it has one distance. A walkaway has one distance per trace or none. |
| MogFiles.FirstAirWith | mog_ui.py:193-198 | The first air shot whose name contains the pattern, or none when no name does. |
| MogFiles.FindAir | mog_ui.py:193-198 | The search loop equals `FirstAirWith`. |
| MogFiles.NewAirShot | mog_ui.py:225-239 | A fresh air shot named by the file name: ntrace, tt/et of -1, tt_done false, the distances, fac_dt 1, the method. |
| MogFiles.SetRef | mog_ui.py:197 | Sets `av` (before) or `ap` (after) to the index. The other side is kept. |
| MogFiles.AirForRow | mog_ui.py:187-240 | A match is reused. Otherwise, when read and accepted, a fresh air shot from the file is appended and referenced. Otherwise the gather halts as the source does. The list only grows, by at most one. |
| MogFiles.RowKeepsShots | mog_ui.py:187-240 | `AirForRow` keeps every air shot recorded earlier in the call, and its `RowOutcome`: the first match is referenced, or the fresh shot at the old length, or nothing changes and the row halts. |
| MogFiles.LastSame | mog_ui.py:187-197 | Of the first `i` rows, the last that holds the same gather as row `k`. No later row among them holds it, so its assignment to `av`/`ap` is the one that stays. |
| MogFiles.RecordStep | mog_ui.py:187-240 | One selected row: when the first search found a match or a shot can be recorded, the gather references its `Target` and the list grows as `Added` says. Otherwise the row ends as the source's first unmatched gather does, and nothing changes. |
| MogFiles.PhaseStep | mog_ui.py:187-240 | One more selected row keeps `Stage`: each handled gather references the `Target` of the last row that held it. |
| MogFiles.AirRows | mog_ui.py:187-290 | The loop over the selected rows ends in `Stage` with every row handled, unless the first row stopped it. Only the selected gathers' references on the chosen side may change. |
| MogFiles.AirShotsFor | mog_ui.py:174-290 | Only the air-shot list and the gathers' `av`/`ap` may change, and a cancelled file dialog changes nothing. The other side's reference of every gather is kept, and gathers not selected keep both. Air shots are only appended, each from the chosen file, and only a read failure raises. When the first search finds air shot `f`, every selected gather references `f` and nothing is added. Otherwise, when a shot can be recorded, one is added at the old length `n` if its name holds the pattern, and all rows reference it. If not, each row adds its own, and a gather references `n + j` for the last row `j` that held it. When nothing can be recorded, the list and every reference are kept, and the result is that of the first row (WrongFileType, InconsistentPositions, ReadError, or completion when the distance dialog is cancelled). |
| MogFiles.ContainsSlash | mog_ui.py:195 | A pattern with a slash occurs only in strings with a slash. |
| MogFiles.SearchMissesRecorded | mog_ui.py:189-198 | As written, the pattern `filename[:-4]` of a path with a directory matches no air shot name, including the one just recorded from that file. |
| MogFiles.IntendedPattern | mog_ui.py:189-191 | The intended pattern, the file name minus its extension, holds no slash. |
| MogFiles.IntendedSearchFindsRecorded | mog_ui.py:189-198 | With the intended pattern, the air shot recorded from a file is found by the next search for it. |
| Database.FirstIndex | database.py:201 | The position of the first occurrence. |
| Database.DedupDistinct | database.py:201-202 | The deduplicated list has no repeats. |
| Database.DedupSameValues | database.py:201-202 | It holds exactly the values of the input. |
| Database.DedupFirstOccurrenceOrder | database.py:198-203 | It lists values in the order of their first occurrences. |
| Database.PresentValues | database.py:200 | The `is not None` filter keeps exactly the present values. |
| Database.TxRxHolds | database.py:198-199 | A borehole is visited iff it is the Tx or Rx of some gather. |
| Database.ModelBoreholes | database.py:191-204 | The loops give `Dedup(Present(TxRx(mogs)))`: no duplicates, exactly the Tx/Rx boreholes of the gathers, in first-occurrence order with Tx before Rx. |
| Database.BoreholesOfModel | database.py:191-204 | That list is distinct and holds exactly the Tx/Rx boreholes. |
| Database.Store.constructor | database.py:40-52 | The fresh session of `create_data_management`: nothing persistent, pending or marked, and `modified` False. |
| Database.Store.Delete | database.py:161-171 | Persistent: marked for deletion. Pending: expunged. Otherwise InvalidRequestError with nothing changed. `modified` is raised exactly on success. The session invariant is kept. |
| Database.AvApHolds | database.py:181-182 | An air shot is visited iff it is the `av` or `ap` of some gather. |
| Database.UsedAirShots | database.py:179-184 | `used_airshots` is distinct, holds no None, and holds exactly the air shots some gather uses. |
| Database.AirShotsInUse | database.py:179-184 | That list is distinct and holds exactly the used air shots. |
| Database.UnusedExactly | database.py:186-188 | An air shot is unused iff it is neither the `av` nor the `ap` of any gather. |
| Database.AirshotsCleanup | database.py:174-188 | Exactly the unused air shots are deleted: persistent ones marked, pending ones expunged. The rest are untouched, and `modified` is raised iff something was deleted. The pending branch stands for a session without autoflush. The session created at database.py:48 autoflushes, so there the queries at :181 and :186 flush every pending object first, and `delete` always marks. |

## Left out

- Qt widgets, dialogs, log signals, list-widget refreshes and matplotlib figures. Widget values, the selected row and dialog answers are parameters. Message boxes that only inform are either left out or reported as values (`DeltaTDone`).
- `sqrt` and `arctan2`: their results are inputs (segment lengths, ray angles).
- Floating-point rounding: numbers are exact reals. Rounding of labels, `round_factor` and plotting are left out.
- `readRAMAC`, the instrument file reader, is not part of this model. Its outcome is a parameter. So is the distance dialog's answer, already parsed by the regex (mog_ui.py:218).
- `compute_SNR` (mog_ui.py:685-687): its result is never used, so `use_snr` has no effect on the selection vectors.
- The "true positions" branch and the deviated-borehole TODO of `updateCoords` (mog_ui.py:369-388, 419). The warning for identical Tx and Rx and the log message (425-430) are also left out.
- Coords.UpdateCoords: handles one selected gather, and requires unmerged original depths (a merged gather's pair-valued `Tx_z_orig` is not modelled).
- The call of `update_prune_info` and `plot_prune` at the end of `update_prune`. `update_prune_info` is modelled on its own as `PruneStats.UpdatePruneInfo`.
- `export_tt`'s file dialog and `np.savetxt`. The model returns the rows that would be written. The empty-list guard and the selected-row lookup are not modelled.
- `plot_zop` past the index selection (`calculate_Vapp` and the plots).
- `load_file_MOG` after the list update (widget refreshes). `airBefore`/`airAfter` setting the air-shot edit text.
- `airAfter` stores its all-true vector in a field misspelled `ing`. The air shot's `in_vect` therefore stays unset (`None`) on that side.
- The air-shot dialog answer and the reader's outcome are one value for the whole call, not one per selected gather.
- `Paths.Lower` lower-cases ASCII letters only.
- SetFdata: stores a copy of the array's rows. The source stores the caller's array object itself (borehole.py:188), so a later in-place write to that array changes the borehole; that aliasing is not modelled.
- Merged gathers (`Cell`'s `Pair` case) assume the numpy of the source's era, where `np.array([a, b])` of two arrays of different lengths builds an object array. Since numpy 1.24 that call raises ValueError at mog_ui.py:2350-2351 (`fw`, `tt`) when the two gathers have different trace counts; the model does not raise it.
- Database: the SQLAlchemy session is abstracted to sets of persistent, pending and marked objects. Flushing, cascades and object identity across sessions are not modelled. `airshots_cleanup` is given the rows its two queries return, each a session object listed once. A gather's `av`/`ap` there are AirShots relationships (`AirLinks`), not the indices the MOG window uses.
- mog.py, which defines `Mog` and `AirShots`, is not part of this model. The defaults of a fresh `Mog` are assumed: id 0, type 1, `fac_dt` 1.0, no air shots, empty picks and masks.
- `Borehole`'s `scont` and `acont` arguments: they have no setter and nothing in the model reads them.
- `doMerge` copies many more numpy fields (`f_et`, `fw`, the amplitude and tau fields, and others). The model keeps the fields the rest of the model reads (air shots, type, `fac_dt`, travel times and their errors and done flags, original depths, selection vectors).

## Findings

| source | as written | input that shows it | evidently intended | confidence | as-written member | corrected member |
|---|---|---|---|---|---|---|
| borehole.py:258 | `d = sqrt(sum(fdata[i2] - fdata[i1]) ** 2)` is the absolute value of the summed coordinate differences | segment (0,0,0)-(3,4,0) of length 5, depth 2.5: the point is (15/14, 10/7, 0), only 25/14 from the top vertex | divide by the segment length, so the point lies `d2` along the segment | not executed | BoreholeModel.SummedDivisorMisplacesPoint | BoreholeModel.IntendedStaysOnTrajectory |
| borehole.py:79 | `isinstance(X, float or int)` tests `float` only | `X = 3` raises TypeError | `isinstance(X, (float, int))` | not executed | BoreholeModel.IntCoordinateRefused | BoreholeModel.Borehole.SetNumericIntended |
| mog_ui.py:2297-2304 | `len(ref_mog.av)` on an air-shot index, which is an int | a reference gather with `av = 0` and any other gather: TypeError | compare the air-shot references | not executed | Combine.AirShotReferenceBreaksMerge | Combine.DeltaTCompatibleIsIntended |
| mog_ui.py:689 | `(in_Rx + in_Tx - 1).astype(bool)` is true when both entries are false | one trace dropped by both vectors is kept in `in_vect` | `in_Rx & in_Tx` | not executed | Prune.DoublyDroppedTraceKept | Prune.IntendedInVect |
| mog_ui.py:70-72 | `data_rep` is extended from its previous value | loading `d/a.rad` twice, starting from `data_rep == ""`, leaves `data_rep == "dd"` | `data_rep` is the directory of the last file | not executed | MogFiles.SecondLoadDoublesDirectory | MogFiles.DataRepIntendedRoundTrip |
| mog_ui.py:189-198, 225 | the search pattern is the whole path minus four characters, while air shots are named by the file name | `airBefore` twice on `dir/air.rd3`: the second call does not find `air.rd3` and records it again | search for the file name minus its extension | not executed | MogFiles.SearchMissesRecorded | MogFiles.IntendedSearchFindsRecorded |

=== FILE: borehole.dfy ===
/**
 * A borehole: its validated attributes and the projection of along-hole
 * measurement depths onto its 3-D trajectory (`Borehole.project`).
 *
 * The square roots the projection takes of the trajectory's segments are
 * inputs: `seglen[k]` is the non-negative number whose square is the squared
 * length of segment k.
 */
module BoreholeModel {
  import opened Wrappers
  import Masks

  datatype Point3 = Point3(x: real, y: real, z: real)

  function Sub(a: Point3, b: Point3): Point3
  {
    Point3(a.x - b.x, a.y - b.y, a.z - b.z)
  }

  function Scale(s: real, p: Point3): Point3
  {
    Point3(s * p.x, s * p.y, s * p.z)
  }

  function Add(a: Point3, b: Point3): Point3
  {
    Point3(a.x + b.x, a.y + b.y, a.z + b.z)
  }

  function SqNorm(p: Point3): real
  {
    p.x * p.x + p.y * p.y + p.z * p.z
  }

  function Abs(v: real): real
  {
    if v < 0.0 then -v else v
  }

  /** A numpy float64: a finite value, or the infinity or NaN a division by zero leaves behind. */
  datatype Float = Finite(v: real) | NonFinite

  /** One projected measurement point: the entries n of the output columns x, y and z. */
  datatype Row = Row(x: Float, y: Float, z: Float)

  /** The values a caller can hand to a property setter. */
  datatype PyValue =
    | PyStr(s: string)
    | PyFloat(f: real)      // a Python float, or a numpy float64 (a subclass of float)
    | PyInt(i: int)
    | PyBool(b: bool)
    | PyNone
    | PyArray(shape: seq<nat>, data: seq<real>)   // a numpy array, entries in row-major order

  function Product(shape: seq<nat>): nat
  {
    if shape == [] then 1 else shape[0] * Product(shape[1..])
  }

  /** A numpy array always holds as many entries as its shape says. */
  predicate WellFormed(v: PyValue)
  {
    v.PyArray? ==> |v.data| == Product(v.shape)
  }

  /** An `[n, 3]` array holds `3 * n` entries. */
  lemma ProductOfRows(shape: seq<nat>)
    requires |shape| == 2 && shape[1] == 3
    ensures Product(shape) == 3 * shape[0]
  {
    assert Product(shape[1..]) == 3 * Product(shape[2..]);
  }

  /** The rows of an `[n, 3]` array, stored row by row in `data`, as points. */
  function Rows(n: nat, data: seq<real>): (r: seq<Point3>)
    requires |data| == 3 * n
    ensures |r| == n
    ensures forall i :: 0 <= i < n ==> r[i] == Point3(data[3 * i], data[3 * i + 1], data[3 * i + 2])
  {
    seq(n, i requires 0 <= i < n => Point3(data[3 * i], data[3 * i + 1], data[3 * i + 2]))
  }

  /** The attributes with a numeric setter. */
  datatype Attr = X | Y | Z | Xmax | Ymax | Zmax | ZSurf | ZWater | Diam

  /**
   * The test `isinstance(v, float or int)` the numeric setters make. The
   * expression `float or int` evaluates to `float`, so a Python int is refused.
   */
  predicate AcceptedAsWritten(v: PyValue)
  {
    v.PyFloat?
  }

  /** The evidently intended test `isinstance(v, (float, int))`; a bool is an int in Python. */
  predicate AcceptedIntended(v: PyValue)
  {
    v.PyFloat? || v.PyInt? || v.PyBool?
  }

  function AsReal(v: PyValue): real
    requires AcceptedIntended(v)
  {
    match v
    case PyFloat(f) => f
    case PyInt(i) => i as real
    case PyBool(b) => if b then 1.0 else 0.0
  }

  /** The numeric setter as written refuses the integer coordinate 3. */
  lemma IntCoordinateRefused()
    ensures !AcceptedAsWritten(PyInt(3))
    ensures AcceptedIntended(PyInt(3)) && AsReal(PyInt(3)) == 3.0
  {
  }

  /** The intended test accepts every value the as-written test accepts, with the same value. */
  lemma IntendedExtendsAsWritten(v: PyValue)
    requires AcceptedAsWritten(v)
    ensures AcceptedIntended(v) && AsReal(v) == v.f
  {
  }

  class Borehole {
    var name: string
    var x: real
    var y: real
    var z: real
    var xmax: real
    var ymax: real
    var zmax: real
    var zSurf: real
    var zWater: real
    var diam: real
    /** The trajectory: one row per vertex, from the top to the bottom of the hole. */
    var fdata: seq<Point3>

    /**
     * The object `NewBorehole` fills in: named `name`, with every other
     * attribute at its default.
     */
    constructor (name: string)
      ensures this.name == name
      ensures x == 0.0 && y == 0.0 && z == 0.0 && xmax == 0.0 && ymax == 0.0 && zmax == 0.0
      ensures zSurf == 0.0 && zWater == 0.0 && diam == 0.0
      ensures fdata == [Point3(0.0, 0.0, 0.0), Point3(0.0, 0.0, 0.0)]
    {
      this.name := name;
      x, y, z := 0.0, 0.0, 0.0;
      xmax, ymax, zmax := 0.0, 0.0, 0.0;
      zSurf, zWater, diam := 0.0, 0.0, 0.0;
      fdata := [Point3(0.0, 0.0, 0.0), Point3(0.0, 0.0, 0.0)];
    }

    function Get(a: Attr): real
      reads this
    {
      match a
      case X => x
      case Y => y
      case Z => z
      case Xmax => xmax
      case Ymax => ymax
      case Zmax => zmax
      case ZSurf => zSurf
      case ZWater => zWater
      case Diam => diam
    }

    /** The `name` setter: only a str is stored; anything else raises TypeError. */
    method SetName(v: PyValue) returns (r: Result<(), PyError>)
      modifies this
      ensures v.PyStr? ==> r == Ok(()) && name == v.s
      ensures !v.PyStr? ==> r == Err(TypeError) && name == old(name)
      ensures fdata == old(fdata) && forall a :: Get(a) == old(Get(a))
    {
      if v.PyStr? {
        name := v.s;
        r := Ok(());
      } else {
        r := Err(TypeError);
      }
    }

    /** The numeric setters of X, Y, Z, Xmax, Ymax, Zmax, Z_surf, Z_water and diam. */
    method SetNumeric(a: Attr, v: PyValue) returns (r: Result<(), PyError>)
      modifies this
      ensures AcceptedAsWritten(v) ==> r == Ok(()) && Get(a) == v.f
      ensures !AcceptedAsWritten(v) ==> r == Err(TypeError) && Get(a) == old(Get(a))
      ensures forall b :: b != a ==> Get(b) == old(Get(b))
      ensures name == old(name) && fdata == old(fdata)
    {
      if !AcceptedAsWritten(v) {
        return Err(TypeError);
      }
      Put(a, v.f);
      r := Ok(());
    }

    /**
     * The evidently intended numeric setter, testing `isinstance(v, (float, int))`:
     * an int is stored as the equal float, as a float is.
     */
    method SetNumericIntended(a: Attr, v: PyValue) returns (r: Result<(), PyError>)
      modifies this
      ensures AcceptedIntended(v) ==> r == Ok(()) && Get(a) == AsReal(v)
      ensures !AcceptedIntended(v) ==> r == Err(TypeError) && Get(a) == old(Get(a))
      ensures forall b :: b != a ==> Get(b) == old(Get(b))
      ensures name == old(name) && fdata == old(fdata)
    {
      if !AcceptedIntended(v) {
        return Err(TypeError);
      }
      Put(a, AsReal(v));
      r := Ok(());
    }

    /** Store `value` in the attribute `a`. */
    method Put(a: Attr, value: real)
      modifies this
      ensures Get(a) == value && forall b :: b != a ==> Get(b) == old(Get(b))
      ensures name == old(name) && fdata == old(fdata)
    {
      match a {
        case X => x := value;
        case Y => y := value;
        case Z => z := value;
        case Xmax => xmax := value;
        case Ymax => ymax := value;
        case Zmax => zmax := value;
        case ZSurf => zSurf := value;
        case ZWater => zWater := value;
        case Diam => diam := value;
      }
    }

    /**
     * The `fdata` setter: a 2-D array with exactly three columns is stored, any
     * number of rows; another array raises TypeError; a value without a
     * `.shape` raises AttributeError.
     */
    method SetFdata(v: PyValue) returns (r: Result<(), PyError>)
      requires WellFormed(v)
      modifies this
      ensures v.PyArray? && |v.shape| == 2 && v.shape[1] == 3 ==>
                r == Ok(()) && |v.data| == 3 * v.shape[0] && fdata == Rows(v.shape[0], v.data)
      ensures v.PyArray? && !(|v.shape| == 2 && v.shape[1] == 3) ==>
                r == Err(TypeError) && fdata == old(fdata)
      ensures !v.PyArray? ==> r == Err(AttributeError) && fdata == old(fdata)
      ensures name == old(name) && forall a :: Get(a) == old(Get(a))
    {
      if !v.PyArray? {
        return Err(AttributeError);
      }
      if |v.shape| == 2 {
        if v.shape[1] == 3 {
          ProductOfRows(v.shape);
          fdata := Rows(v.shape[0], v.data);
          r := Ok(());
        } else {
          r := Err(TypeError);
        }
      } else {
        r := Err(TypeError);
      }
    }
  }

  /** The order in which `__init__` assigns the numeric attributes. */
  const NumericOrder: seq<Attr> := [X, Y, Z, Xmax, Ymax, Zmax, ZSurf, ZWater, Diam]

  lemma NumericOrderComplete(a: Attr)
    ensures a in NumericOrder
  {
  }

  /** The value the keyword arguments `given` pass for `a`; the default is `0.0`. */
  function Given(given: map<Attr, PyValue>, a: Attr): PyValue
  {
    if a in given then given[a] else PyFloat(0.0)
  }

  /** The default `fdata`, the 2x3 zero array. */
  const DefaultFdata: PyValue := PyArray([2, 3], [0.0, 0.0, 0.0, 0.0, 0.0, 0.0])

  /** An array the `fdata` setter stores: two dimensions, the second of size 3. */
  predicate ShapedFdata(v: PyValue)
  {
    v.PyArray? && |v.shape| == 2 && v.shape[1] == 3
  }

  /**
   * The outcome of `Borehole(name, **given, fdata=fdata)`: the setters run in
   * order, the name's, the numeric ones, then the trajectory's, and the first
   * to raise ends the call.
   */
  function Construction(name: PyValue, given: map<Attr, PyValue>, fdata: PyValue): (r: Result<(), PyError>)
    ensures r.Ok? <==>
      name.PyStr? && (forall a :: AcceptedAsWritten(Given(given, a))) && ShapedFdata(fdata)
    ensures r.Err? && (!name.PyStr? || exists a :: !AcceptedAsWritten(Given(given, a))) ==> r.error == TypeError
  {
    if !name.PyStr? then Err(TypeError)
    else if exists a :: !AcceptedAsWritten(Given(given, a)) then Err(TypeError)
    else if !fdata.PyArray? then Err(AttributeError)
    else if !ShapedFdata(fdata) then Err(TypeError)
    else Ok(())
  }

  /**
   * `Borehole()` raises TypeError, as the default name is None, and so does
   * `Borehole("b", X=3)`, since the numeric setters refuse an int.
   */
  lemma DefaultsRefused()
    ensures Construction(PyNone, map[], DefaultFdata) == Err(TypeError)
    ensures Construction(PyStr("b"), map[X := PyInt(3)], DefaultFdata) == Err(TypeError)
    ensures Construction(PyStr("b"), map[X := PyFloat(3.0)], DefaultFdata) == Ok(())
  {
    assert !AcceptedAsWritten(Given(map[X := PyInt(3)], X));
    forall a ensures AcceptedAsWritten(Given(map[X := PyFloat(3.0)], a)) {
    }
  }

  /**
   * `Borehole(name, **given, fdata=fdata)`: `fdata` is `None` when the
   * argument is left at its default. Each argument passes through its
   * setter; the borehole is returned when none of them raises.
   */
  method NewBorehole(name: PyValue, given: map<Attr, PyValue>, fdata: Option<PyValue>) returns (r: Result<Borehole, PyError>)
    requires fdata.Some? ==> WellFormed(fdata.value)
    ensures var f := if fdata.Some? then fdata.value else DefaultFdata;
      match Construction(name, given, f)
      case Err(e) => r == Err(e)
      case Ok(_) =>
        r.Ok? && fresh(r.value) && r.value.name == name.s &&
        (forall a :: r.value.Get(a) == Given(given, a).f) &&
        |f.data| == 3 * f.shape[0] && r.value.fdata == Rows(f.shape[0], f.data)
  {
    var f := if fdata.Some? then fdata.value else DefaultFdata;
    if !name.PyStr? {
      return Err(TypeError);
    }
    var b := new Borehole(name.s);
    var i := 0;
    while i < |NumericOrder|
      invariant 0 <= i <= |NumericOrder|
      invariant fresh(b) && b.name == name.s
      invariant forall k :: 0 <= k < i ==> AcceptedAsWritten(Given(given, NumericOrder[k])) &&
                                           b.Get(NumericOrder[k]) == Given(given, NumericOrder[k]).f
    {
      var a := NumericOrder[i];
      var e := b.SetNumeric(a, Given(given, a));
      if e.Err? {
        return Err(e.error);
      }
      i := i + 1;
    }
    forall a ensures AcceptedAsWritten(Given(given, a)) && b.Get(a) == Given(given, a).f {
      NumericOrderComplete(a);
    }
    var e := b.SetFdata(f);
    if e.Err? {
      return Err(e.error);
    }
    r := Ok(b);
  }

  /** `seglen` holds one length per segment of `fdata`, never negative. */
  ghost predicate OneLengthPerSegment(fdata: seq<Point3>, seglen: seq<real>)
  {
    (if fdata == [] then seglen == [] else |seglen| == |fdata| - 1) && NonNegative(seglen)
  }

  /** `seglen` holds the Euclidean lengths of the segments of `fdata`, as `sqrt` returns them. */
  ghost predicate SegmentLengths(fdata: seq<Point3>, seglen: seq<real>)
  {
    OneLengthPerSegment(fdata, seglen) &&
    forall k :: 0 <= k < |seglen| ==> IsLength(seglen[k], fdata[k], fdata[k + 1])
  }

  /** `len` squared is the squared distance from `a` to `b`. */
  ghost predicate IsLength(len: real, a: Point3, b: Point3)
  {
    len * len == SqNorm(Sub(b, a))
  }

  /** `depthBH`: 0 followed by the running sums of the segment lengths. */
  function DepthTable(seglen: seq<real>): (t: seq<real>)
    ensures |t| == |seglen| + 1
    ensures t[0] == 0.0
  {
    if seglen == [] then [0.0]
    else
      var init := DepthTable(seglen[..|seglen| - 1]);
      init + [init[|init| - 1] + seglen[|seglen| - 1]]
  }

  /** Each entry of `depthBH` adds the length of one more segment to the one before. */
  lemma {:induction false} DepthTableRunningSum(seglen: seq<real>)
    ensures forall k :: 0 <= k < |seglen| ==> DepthTable(seglen)[k + 1] == DepthTable(seglen)[k] + seglen[k]
  {
    if seglen != [] {
      var init := seglen[..|seglen| - 1];
      DepthTableRunningSum(init);
      assert DepthTable(seglen) == DepthTable(init) + [DepthTable(init)[|init|] + seglen[|init|]];
    }
  }

  /** The along-hole length of the whole trajectory: the last entry of the table. */
  function Total(seglen: seq<real>): real
  {
    DepthTable(seglen)[|seglen|]
  }

  ghost predicate NonDecreasing(t: seq<real>)
  {
    forall i, j :: 0 <= i <= j < |t| ==> t[i] <= t[j]
  }

  ghost predicate NonNegative(s: seq<real>)
  {
    forall k :: 0 <= k < |s| ==> s[k] >= 0.0
  }

  /** Lengths are never negative, so the depth table never decreases. */
  lemma {:induction false} DepthTableNonDecreasing(seglen: seq<real>)
    requires NonNegative(seglen)
    ensures NonDecreasing(DepthTable(seglen))
  {
    if seglen != [] {
      var init := seglen[..|seglen| - 1];
      DepthTableNonDecreasing(init);
      var t, u := DepthTable(seglen), DepthTable(init);
      assert t == u + [u[|u| - 1] + seglen[|seglen| - 1]];
      forall i, j | 0 <= i <= j < |t| ensures t[i] <= t[j] {
        if j == |t| - 1 && i < j {
          assert u[i] <= u[|u| - 1];
        }
      }
    }
  }

  /** `depthBH` for positive lengths: strictly increasing. */
  lemma {:induction false} DepthTableIncreasing(seglen: seq<real>)
    requires forall k :: 0 <= k < |seglen| ==> seglen[k] > 0.0
    ensures Masks.StrictlyIncreasing(DepthTable(seglen))
  {
    if seglen != [] {
      var init := seglen[..|seglen| - 1];
      DepthTableIncreasing(init);
      var t, u := DepthTable(seglen), DepthTable(init);
      assert t == u + [u[|u| - 1] + seglen[|seglen| - 1]];
      forall i, j | 0 <= i < j < |t| ensures t[i] < t[j] {
        if j == |t| - 1 && i < j - 1 {
          assert u[i] < u[|u| - 1];
        }
      }
    }
  }

  /**
   * `i1`: the last index of `np.nonzero(d >= depthBH)`, or None when that
   * selection is empty.
   */
  function LastAtOrBelow(t: seq<real>, d: real): (r: Option<nat>)
    ensures r.Some? ==> r.value < |t| && t[r.value] <= d
  {
    if t == [] then None
    else if t[|t| - 1] <= d then Some(|t| - 1)
    else LastAtOrBelow(t[..|t| - 1], d)
  }

  /** `i1` is the last entry at or below `d`; it is missing exactly when every entry is above. */
  lemma {:induction false} LastAtOrBelowIsLast(t: seq<real>, d: real)
    ensures LastAtOrBelow(t, d).Some? ==> forall j :: LastAtOrBelow(t, d).value < j < |t| ==> t[j] > d
    ensures LastAtOrBelow(t, d).None? <==> forall j :: 0 <= j < |t| ==> t[j] > d
  {
    if t != [] && t[|t| - 1] > d {
      var init := t[..|t| - 1];
      LastAtOrBelowIsLast(init, d);
      assert forall j :: 0 <= j < |init| ==> init[j] == t[j];
    }
  }

  /**
   * `i2`: the first index of `np.nonzero(d < depthBH)`, or None when that
   * selection is empty.
   */
  function FirstAbove(t: seq<real>, d: real): (r: Option<nat>)
    ensures r.Some? ==> r.value < |t| && t[r.value] > d
  {
    if t == [] then None
    else if t[0] > d then Some(0)
    else
      match FirstAbove(t[1..], d)
      case None => None
      case Some(i) => Some(i + 1)
  }

  /** `i2` is the first entry above `d`; it is missing exactly when no entry is above. */
  lemma {:induction false} FirstAboveIsFirst(t: seq<real>, d: real)
    ensures FirstAbove(t, d).Some? ==> forall j :: 0 <= j < FirstAbove(t, d).value ==> t[j] <= d
    ensures FirstAbove(t, d).None? <==> forall j :: 0 <= j < |t| ==> t[j] <= d
  {
    if t != [] && t[0] <= d {
      FirstAboveIsFirst(t[1..], d);
      assert forall j :: 1 <= j < |t| ==> t[1..][j - 1] == t[j];
    }
  }

  /**
   * With lengths that are never negative, the lower bracket is missing exactly
   * for a negative depth and the upper one exactly for a depth at or beyond
   * the bottom of the hole (the bottom vertex itself included).
   */
  lemma BracketsExist(seglen: seq<real>, d: real)
    requires NonNegative(seglen)
    ensures LastAtOrBelow(DepthTable(seglen), d).None? <==> d < 0.0
    ensures FirstAbove(DepthTable(seglen), d).None? <==> d >= Total(seglen)
  {
    var t := DepthTable(seglen);
    DepthTableNonDecreasing(seglen);
    LastAtOrBelowIsLast(t, d);
    FirstAboveIsFirst(t, d);
    if d < 0.0 {
      forall j | 0 <= j < |t| ensures t[j] > d {
        assert t[0] <= t[j];
      }
    }
    if d >= Total(seglen) {
      forall j | 0 <= j < |t| ensures t[j] <= d {
        assert t[j] <= t[|t| - 1];
      }
    }
  }

  /** In a table that never decreases, the upper bracket follows the lower one directly. */
  lemma BracketAdjacent(t: seq<real>, d: real)
    requires NonDecreasing(t)
    requires LastAtOrBelow(t, d).Some? && FirstAbove(t, d).Some?
    ensures FirstAbove(t, d).value == LastAtOrBelow(t, d).value + 1
  {
    LastAtOrBelowIsLast(t, d);
    FirstAboveIsFirst(t, d);
    var i1, i2 := LastAtOrBelow(t, d).value, FirstAbove(t, d).value;
    assert t[i1] < t[i2];
    assert t[i1 + 1] > d;
  }

  /** The brackets in the depth table of a trajectory are adjacent vertices. */
  lemma DepthBracketAdjacent(seglen: seq<real>, d: real)
    requires NonNegative(seglen)
    requires LastAtOrBelow(DepthTable(seglen), d).Some? && FirstAbove(DepthTable(seglen), d).Some?
    ensures FirstAbove(DepthTable(seglen), d).value == LastAtOrBelow(DepthTable(seglen), d).value + 1
  {
    DepthTableNonDecreasing(seglen);
    BracketAdjacent(DepthTable(seglen), d);
  }

  /**
   * Arc length is monotonic: of two depths in the hole, the deeper one is
   * projected from the same segment as the shallower one, or from a later one.
   */
  lemma BracketMonotone(seglen: seq<real>, d1: real, d2: real)
    requires NonNegative(seglen) && 0.0 <= d1 <= d2
    ensures LastAtOrBelow(DepthTable(seglen), d1).Some? && LastAtOrBelow(DepthTable(seglen), d2).Some?
    ensures LastAtOrBelow(DepthTable(seglen), d1).value <= LastAtOrBelow(DepthTable(seglen), d2).value
  {
    BracketsExist(seglen, d1);
    BracketsExist(seglen, d2);
    LastAtOrBelowIsLast(DepthTable(seglen), d2);
  }

  /** The divisor of line 258: `sqrt(s ** 2)` for the sum `s` of the three coordinate differences. */
  function SummedDivisor(a: Point3, b: Point3): (d: real)
    ensures d >= 0.0
    ensures d == (b.x - a.x) + (b.y - a.y) + (b.z - a.z) || d == -((b.x - a.x) + (b.y - a.y) + (b.z - a.z))
  {
    Abs((b.x - a.x) + (b.y - a.y) + (b.z - a.z))
  }

  /**
   * Lines 258-266 for the bracketing vertices `a` and `b`: the divisor `d`, the
   * direction `l = (b - a) / d` and the point `a + d2 * l`. Dividing by a zero
   * `d` leaves every coordinate infinite or NaN.
   */
  function Interpolate(a: Point3, b: Point3, d2: real): Row
  {
    var d := SummedDivisor(a, b);
    if d == 0.0 then Row(NonFinite, NonFinite, NonFinite)
    else Row(Finite(Step(a.x, b.x, d2, d)), Finite(Step(a.y, b.y, d2, d)), Finite(Step(a.z, b.z, d2, d)))
  }

  /** One coordinate of `a + d2 * l` with `l = (b - a) / d`. */
  function Step(p: real, q: real, d2: real, d: real): real
    requires d != 0.0
  {
    p + d2 * ((q - p) / d)
  }

  /** At `d2 = 0` the interpolated point is the upper vertex itself, when the divisor is not zero. */
  lemma InterpolateAtVertex(a: Point3, b: Point3)
    ensures Interpolate(a, b, 0.0) ==
      if SummedDivisor(a, b) == 0.0 then Row(NonFinite, NonFinite, NonFinite)
      else Row(Finite(a.x), Finite(a.y), Finite(a.z))
  {
  }

  /**
   * Entry n of `project`'s output, as written: ValueError when a bracket is
   * missing; otherwise `fdata[i1] + d2 * (fdata[i2] - fdata[i1]) / d` with the
   * divisor `d` of line 258, every coordinate non-finite when `d` is zero.
   */
  function ProjectDepth(fdata: seq<Point3>, seglen: seq<real>, depth: real): Result<Row, PyError>
    requires OneLengthPerSegment(fdata, seglen)
  {
    var t := DepthTable(seglen);
    match LastAtOrBelow(t, depth)
    case None => Err(ValueError)
    case Some(i1) =>
      match FirstAbove(t, depth)
      case None => Err(ValueError)
      case Some(i2) =>
        DepthBracketAdjacent(seglen, depth);
        Ok(Interpolate(fdata[i1], fdata[i2], depth - t[i1]))
  }

  /** A depth is projected exactly when it lies in [0, total length); otherwise ValueError. */
  lemma ProjectDepthFails(fdata: seq<Point3>, seglen: seq<real>, depth: real)
    requires OneLengthPerSegment(fdata, seglen)
    ensures ProjectDepth(fdata, seglen, depth).Err? <==> depth < 0.0 || depth >= Total(seglen)
    ensures ProjectDepth(fdata, seglen, depth).Err? ==> ProjectDepth(fdata, seglen, depth).error == ValueError
  {
    BracketsExist(seglen, depth);
  }

  /**
   * For a depth inside the hole the brackets are adjacent vertices i and i + 1,
   * the segment between them is not empty, and `d2` lies in [0, seglen[i]).
   */
  lemma BracketBounds(fdata: seq<Point3>, seglen: seq<real>, depth: real)
    requires OneLengthPerSegment(fdata, seglen)
    requires 0.0 <= depth < Total(seglen)
    ensures LastAtOrBelow(DepthTable(seglen), depth).Some?
    ensures FirstAbove(DepthTable(seglen), depth) == Some(LastAtOrBelow(DepthTable(seglen), depth).value + 1)
    ensures var i := LastAtOrBelow(DepthTable(seglen), depth).value;
            i < |seglen| && 0.0 <= depth - DepthTable(seglen)[i] < seglen[i]
  {
    var t := DepthTable(seglen);
    BracketsExist(seglen, depth);
    DepthTableNonDecreasing(seglen);
    BracketAdjacent(t, depth);
    DepthTableRunningSum(seglen);
  }

  /**
   * When every segment has positive length, a depth at vertex k above the
   * bottom projects onto that vertex itself (d2 is zero), unless the divisor
   * of line 258 vanishes for the segment below it.
   */
  lemma ProjectAtVertex(fdata: seq<Point3>, seglen: seq<real>, k: nat)
    requires OneLengthPerSegment(fdata, seglen)
    requires forall j :: 0 <= j < |seglen| ==> seglen[j] > 0.0
    requires k < |seglen|
    ensures ProjectDepth(fdata, seglen, DepthTable(seglen)[k]) == Ok(Interpolate(fdata[k], fdata[k + 1], 0.0))
  {
    var t := DepthTable(seglen);
    DepthTableIncreasing(seglen);
    LastAtOrBelowIsLast(t, t[k]);
    var i1 := LastAtOrBelow(t, t[k]).value;
    assert i1 <= k by {
      assert t[i1] <= t[k];
    }
    assert i1 >= k by {
      assert !(t[k] > t[k]);
    }
    DepthTableNonDecreasing(seglen);
    FirstAboveIsFirst(t, t[k]);
    assert FirstAbove(t, t[k]).Some? by {
      assert t[k + 1] > t[k];
    }
    BracketAdjacent(t, t[k]);
  }

  datatype Projection = Projection(x: seq<Float>, y: seq<Float>, z: seq<Float>, c: seq<Point3>)

  /**
   * One pass of `project`'s loop (lines 238-267): the bracket search in the
   * depth table, the ValueError when a bracket is missing, and the
   * interpolated point.
   */
  method ProjectOne(fdata: seq<Point3>, seglen: seq<real>, depthBH: seq<real>, depth: real) returns (r: Result<Row, PyError>)
    requires OneLengthPerSegment(fdata, seglen) && depthBH == DepthTable(seglen)
    ensures r == ProjectDepth(fdata, seglen, depth)
    ensures r.Ok? <==> 0.0 <= depth < Total(seglen)
  {
    ProjectDepthFails(fdata, seglen, depth);
    var lower := LastAtOrBelow(depthBH, depth);
    if lower.None? {
      return Err(ValueError);
    }
    var i1 := lower.value;
    var upper := FirstAbove(depthBH, depth);
    if upper.None? {
      return Err(ValueError);
    }
    var i2 := upper.value;
    DepthBracketAdjacent(seglen, depth);
    var d2 := depth - depthBH[i1];
    r := Ok(Interpolate(fdata[i1], fdata[i2], d2));
  }

  /**
   * `Borehole.project(fdata, ldepth)`: fills entry n of the preallocated x, y,
   * z and c for each depth in turn, and raises ValueError at the first depth
   * without a bracket.
   */
  method Project(fdata: seq<Point3>, seglen: seq<real>, ldepth: seq<real>) returns (r: Result<Projection, PyError>)
    requires OneLengthPerSegment(fdata, seglen)
    ensures r.Ok? <==> forall n :: 0 <= n < |ldepth| ==> 0.0 <= ldepth[n] < Total(seglen)
    ensures r.Err? ==> r.error == ValueError
    ensures r.Ok? ==> |r.value.x| == |ldepth| && |r.value.y| == |ldepth| && |r.value.z| == |ldepth| && |r.value.c| == |ldepth|
    ensures r.Ok? ==> forall n :: 0 <= n < |ldepth| ==>
              ProjectDepth(fdata, seglen, ldepth[n]) == Ok(Row(r.value.x[n], r.value.y[n], r.value.z[n]))
    ensures r.Ok? ==> forall n :: 0 <= n < |ldepth| ==> r.value.c[n] == Point3(1.0, 1.0, 1.0)
  {
    var npts := |ldepth|;
    var x := new Float[npts];
    var y := new Float[npts];
    var z := new Float[npts];
    var c := new Point3[npts];
    var depthBH := DepthTable(seglen);
    for n := 0 to npts
      invariant forall m :: 0 <= m < n ==> 0.0 <= ldepth[m] < Total(seglen)
      invariant forall m {:trigger x[m]} :: 0 <= m < n ==> ProjectDepth(fdata, seglen, ldepth[m]) == Ok(Row(x[m], y[m], z[m]))
      invariant forall m :: 0 <= m < n ==> c[m] == Point3(1.0, 1.0, 1.0)
    {
      var row :- ProjectOne(fdata, seglen, depthBH, ldepth[n]);
      x[n], y[n], z[n] := row.x, row.y, row.z;
      c[n] := Point3(1.0, 1.0, 1.0);
    }
    return Ok(Projection(x[..], y[..], z[..], c[..]));
  }

  /**
   * The evidently intended projection: the divisor is the length of the
   * bracketing segment, so `l` is its unit direction.
   */
  function ProjectDepthIntended(fdata: seq<Point3>, seglen: seq<real>, depth: real): Result<Point3, PyError>
    requires OneLengthPerSegment(fdata, seglen)
  {
    if depth < 0.0 || depth >= Total(seglen) then Err(ValueError)
    else
      BracketBounds(fdata, seglen, depth);
      var i1 := LastAtOrBelow(DepthTable(seglen), depth).value;
      var d2 := depth - DepthTable(seglen)[i1];
      Ok(Add(fdata[i1], Scale(d2 / seglen[i1], Sub(fdata[i1 + 1], fdata[i1]))))
  }

  /** `p` lies on the half-open segment from `a` to `b`. */
  ghost predicate OnSegment(p: Point3, a: Point3, b: Point3)
  {
    exists s :: 0.0 <= s < 1.0 && p == Add(a, Scale(s, Sub(b, a)))
  }

  lemma SqNormScale(s: real, p: Point3)
    ensures SqNorm(Scale(s, p)) == s * s * SqNorm(p)
  {
    calc {
      SqNorm(Scale(s, p));
      (s * p.x) * (s * p.x) + (s * p.y) * (s * p.y) + (s * p.z) * (s * p.z);
      s * s * (p.x * p.x) + s * s * (p.y * p.y) + s * s * (p.z * p.z);
    }
  }

  /**
   * Walking `d2` along a segment of length `L` by its unit direction stays on
   * the segment, at straight-line distance `d2` from its start.
   */
  lemma StepAlongSegment(a: Point3, b: Point3, len: real, d2: real)
    requires len > 0.0 && IsLength(len, a, b)
    requires 0.0 <= d2 < len
    ensures IsLength(d2, a, Add(a, Scale(d2 / len, Sub(b, a))))
    ensures OnSegment(Add(a, Scale(d2 / len, Sub(b, a))), a, b)
  {
    var s := d2 / len;
    var dir := Sub(b, a);
    var p := Add(a, Scale(s, dir));
    assert Sub(p, a) == Scale(s, dir);
    SqNormScale(s, dir);
    assert s * len == d2;
    calc {
      s * s * SqNorm(dir);
      s * s * (len * len);
      (s * len) * (s * len);
      d2 * d2;
    }
    assert (1.0 - s) * len == len - d2 > 0.0;
    assert 0.0 <= s < 1.0;
  }

  /** The intended point is `fdata[i]` plus the step `d2` along the unit direction of segment i. */
  lemma IntendedIsStep(fdata: seq<Point3>, seglen: seq<real>, depth: real)
    requires OneLengthPerSegment(fdata, seglen)
    requires 0.0 <= depth < Total(seglen)
    ensures LastAtOrBelow(DepthTable(seglen), depth).Some?
    ensures var i := LastAtOrBelow(DepthTable(seglen), depth).value;
            var d2 := depth - DepthTable(seglen)[i];
            i < |seglen| && i + 1 < |fdata| && 0.0 <= d2 < seglen[i] &&
            ProjectDepthIntended(fdata, seglen, depth) == Ok(Add(fdata[i], Scale(d2 / seglen[i], Sub(fdata[i + 1], fdata[i]))))
  {
    BracketBounds(fdata, seglen, depth);
  }

  /**
   * The intended projection of a depth lies on the bracketing segment
   * `[fdata[i], fdata[i + 1])`, at straight-line distance `depth - depthBH[i]`
   * from `fdata[i]`: the point's along-hole depth is the measured one.
   */
  lemma IntendedStaysOnTrajectory(fdata: seq<Point3>, seglen: seq<real>, depth: real)
    requires SegmentLengths(fdata, seglen)
    requires 0.0 <= depth < Total(seglen)
    ensures LastAtOrBelow(DepthTable(seglen), depth).Some?
    ensures ProjectDepthIntended(fdata, seglen, depth).Ok?
    ensures var i := LastAtOrBelow(DepthTable(seglen), depth).value;
            var p := ProjectDepthIntended(fdata, seglen, depth).value;
            var d2 := depth - DepthTable(seglen)[i];
            i + 1 < |fdata| &&
            IsLength(d2, fdata[i], p) &&
            OnSegment(p, fdata[i], fdata[i + 1])
  {
    IntendedIsStep(fdata, seglen, depth);
    var i := LastAtOrBelow(DepthTable(seglen), depth).value;
    var d2 := depth - DepthTable(seglen)[i];
    var p := ProjectDepthIntended(fdata, seglen, depth).value;
    assert p == Add(fdata[i], Scale(d2 / seglen[i], Sub(fdata[i + 1], fdata[i])));
    assert IsLength(seglen[i], fdata[i], fdata[i + 1]);
    StepAlongSegment(fdata[i], fdata[i + 1], seglen[i], d2);
  }

  /** On a hole of one segment, every depth inside it is interpolated from the top vertex. */
  lemma SingleSegment(fdata: seq<Point3>, seglen: seq<real>, depth: real)
    requires |fdata| == 2 && |seglen| == 1
    requires 0.0 <= depth < seglen[0]
    ensures OneLengthPerSegment(fdata, seglen)
    ensures ProjectDepth(fdata, seglen, depth) == Ok(Interpolate(fdata[0], fdata[1], depth))
    ensures ProjectDepthIntended(fdata, seglen, depth) ==
            Ok(Add(fdata[0], Scale(depth / seglen[0], Sub(fdata[1], fdata[0]))))
  {
    var len := seglen[0];
    assert seglen == [len];
    var t := DepthTable([len]);
    assert [len][..0] == [];
    assert t == [0.0, len];
    assert t[..1] == [0.0];
    assert LastAtOrBelow(t, depth) == Some(0);
    assert t[1..] == [len];
    assert FirstAbove(t, depth) == Some(1);
  }

  /**
   * The divisor of line 258 places a point off its measured depth: the segment
   * from (0, 0, 0) to (3, 4, 0) has length 5, yet depth 2.5 lands at
   * (15/14, 10/7, 0), only 25/14 from the top vertex, since the divisor is
   * 3 + 4 = 7 rather than 5.
   */
  lemma SummedDivisorMisplacesPoint()
    ensures ProjectDepth([Point3(0.0, 0.0, 0.0), Point3(3.0, 4.0, 0.0)], [5.0], 2.5) ==
            Ok(Row(Finite(15.0 / 14.0), Finite(10.0 / 7.0), Finite(0.0)))
  {
    assert Interpolate(Point3(0.0, 0.0, 0.0), Point3(3.0, 4.0, 0.0), 2.5) ==
           Row(Finite(15.0 / 14.0), Finite(10.0 / 7.0), Finite(0.0));
    SingleSegment([Point3(0.0, 0.0, 0.0), Point3(3.0, 4.0, 0.0)], [5.0], 2.5);
  }

  /** The segment of that example has length 5; the misplaced point lies 25/14 from its top. */
  lemma MisplacedPointDistances()
    ensures IsLength(5.0, Point3(0.0, 0.0, 0.0), Point3(3.0, 4.0, 0.0))
    ensures IsLength(25.0 / 14.0, Point3(0.0, 0.0, 0.0), Point3(15.0 / 14.0, 10.0 / 7.0, 0.0))
  {
    assert Sub(Point3(3.0, 4.0, 0.0), Point3(0.0, 0.0, 0.0)) == Point3(3.0, 4.0, 0.0);
    assert Sub(Point3(15.0 / 14.0, 10.0 / 7.0, 0.0), Point3(0.0, 0.0, 0.0)) == Point3(15.0 / 14.0, 10.0 / 7.0, 0.0);
  }
}

=== FILE: combine.dfy ===
/**
 * Combining gathers: the compatibility test of the merge window
 * (`MergeMog.getcompat`) and of the delta-t window (`DeltaTMOG.getcompat`),
 * the merge itself (`MergeMog.doMerge`) and the unpicked-time check of the
 * delta-t window (`DeltaTMOG.done`).
 *
 * A merged gather holds each copied field as the numpy array
 * `[ref.field, merging.field]` (a `Pair` cell). Comparing such an array
 * gives an array of booleans whose truth value raises ValueError.
 */
module Combine {
  import opened Wrappers
  import opened Mogs

  /** `len(av)`: 0 for the empty string, 2 for a merged pair, TypeError for an int index. */
  function AirLen(c: Cell<AirRef>): (r: Result<nat, PyError>)
    ensures r == Err(TypeError) <==> c.One? && c.v.AirShotAt?
    ensures r == Ok(0) <==> c == One(NoAirShot)
  {
    match c
    case One(NoAirShot) => Ok(0)
    case One(AirShotAt(_)) => Err(TypeError)
    case Pair(_, _) => Ok(2)
  }

  /** `a == b` used as a condition: a pair on either side raises ValueError. */
  function CellEq<T(==)>(a: Cell<T>, b: Cell<T>): (r: Result<bool, PyError>)
    ensures r.Ok? <==> a.One? && b.One?
    ensures r.Ok? ==> (r.value <==> a == b)
    ensures r.Err? ==> r.error == ValueError
  {
    if a.One? && b.One? then Ok(a.v == b.v) else Err(ValueError)
  }

  /** `av == ''` used as a condition. */
  function IsNoAirShot(c: Cell<AirRef>): (r: Result<bool, PyError>)
    ensures r.Ok? <==> c.One?
    ensures r.Ok? ==> (r.value <==> c == One(NoAirShot))
    ensures r.Err? ==> r.error == ValueError
  {
    if c.One? then Ok(c.v == NoAirShot) else Err(ValueError)
  }

  /** Lines 2297-2304: the air-shot test of the merge window, through `len`. */
  function MergeAirTest(a: Cell<AirRef>, b: Cell<AirRef>): Result<bool, PyError>
  {
    var la :- AirLen(a);
    if la == 0 then
      var lb :- AirLen(b);
      if lb == 0 then Ok(true) else CellEq(a, b)
    else
      CellEq(a, b)
  }

  /** Lines 2480-2487: the air-shot test of the delta-t window, through `== ''`. */
  function DeltaAirTest(a: Cell<AirRef>, b: Cell<AirRef>): Result<bool, PyError>
  {
    var aEmpty :- IsNoAirShot(a);
    var bothEmpty :- if aEmpty then IsNoAirShot(b) else Ok(false);
    var same :- CellEq(a, b);
    Ok(bothEmpty || same)
  }

  /**
   * The merge window's air-shot test never answers true or false for a gather
   * with an air shot: it answers without an exception exactly when neither
   * side has an air shot or a pair, and then answers true.
   */
  lemma MergeAirTestOnlyWithoutAirShots(a: Cell<AirRef>, b: Cell<AirRef>)
    ensures MergeAirTest(a, b).Ok? <==> a == One(NoAirShot) && b == One(NoAirShot)
    ensures MergeAirTest(a, b).Ok? ==> MergeAirTest(a, b).value
    ensures a.One? && a.v.AirShotAt? ==> MergeAirTest(a, b) == Err(TypeError)
  {
  }

  /** The delta-t window's test is plain equality of the references, for unmerged gathers. */
  lemma DeltaAirTestIsEquality(a: Cell<AirRef>, b: Cell<AirRef>)
    ensures DeltaAirTest(a, b).Ok? <==> a.One? && b.One?
    ensures DeltaAirTest(a, b).Ok? ==> (DeltaAirTest(a, b).value <==> a == b)
  {
  }

  /** Which window's copy of the compatibility test. */
  datatype Window = MergeWindow | DeltaTWindow

  function AirTest(w: Window, a: Cell<AirRef>, b: Cell<AirRef>): Result<bool, PyError>
  {
    match w
    case MergeWindow => MergeAirTest(a, b)
    case DeltaTWindow => DeltaAirTest(a, b)
  }

  /**
   * Lines 2292-2309 and 2476-2491: is `m` compatible with the reference `ref`?
   * Same boreholes (the same objects), air-shot tests, same antenna offsets,
   * same type. The type comparison is used as a condition only when the first
   * four tests all hold.
   */
  function Compatible(w: Window, ref: Mog, m: Mog): Result<bool, PyError>
    reads ref, m, ref.data, m.data
  {
    var test1 := ref.tx == m.tx && ref.rx == m.rx;
    var test2 :- AirTest(w, ref.av, m.av);
    var test3 :- AirTest(w, ref.ap, m.ap);
    var test4 := ref.data.txOffset == m.data.txOffset && ref.data.rxOffset == m.data.rxOffset;
    if test1 && test2 && test3 && test4 then CellEq(ref.kind, m.kind) else Ok(false)
  }

  /**
   * The intended test, stated once: same boreholes, same air shots before and
   * after, same offsets, same type.
   */
  predicate IntendedCompatible(ref: Mog, m: Mog)
    reads ref, m, ref.data, m.data
  {
    ref.tx == m.tx && ref.rx == m.rx && ref.av == m.av && ref.ap == m.ap &&
    ref.data.txOffset == m.data.txOffset && ref.data.rxOffset == m.data.rxOffset &&
    ref.kind == m.kind
  }

  /** No merged (pair) cell in the fields the test compares. */
  predicate Unmerged(m: Mog)
    reads m
  {
    m.av.One? && m.ap.One? && m.kind.One?
  }

  /** The delta-t copy computes the intended test for unmerged gathers. */
  lemma DeltaTCompatibleIsIntended(ref: Mog, m: Mog)
    requires Unmerged(ref) && Unmerged(m)
    ensures Compatible(DeltaTWindow, ref, m) == Ok(IntendedCompatible(ref, m))
  {
    DeltaAirTestIsEquality(ref.av, m.av);
    DeltaAirTestIsEquality(ref.ap, m.ap);
  }

  /** The intended test is symmetric. */
  lemma IntendedCompatibleSymmetric(a: Mog, b: Mog)
    ensures IntendedCompatible(a, b) <==> IntendedCompatible(b, a)
  {
  }

  /**
   * The merge copy agrees with the intended test wherever it answers, answers
   * for unmerged gathers without air shots, and raises TypeError whenever the
   * reference has an air shot before.
   */
  lemma MergeCompatibleAgrees(ref: Mog, m: Mog)
    ensures Compatible(MergeWindow, ref, m).Ok? ==>
      Compatible(MergeWindow, ref, m).value == IntendedCompatible(ref, m)
    ensures Unmerged(ref) && Unmerged(m) && ref.av.v == NoAirShot && m.av.v == NoAirShot &&
            ref.ap.v == NoAirShot && m.ap.v == NoAirShot ==>
      Compatible(MergeWindow, ref, m).Ok?
    ensures ref.av.One? && ref.av.v.AirShotAt? ==> Compatible(MergeWindow, ref, m) == Err(TypeError)
  {
    MergeAirTestOnlyWithoutAirShots(ref.av, m.av);
    MergeAirTestOnlyWithoutAirShots(ref.ap, m.ap);
  }

  /** Where both directions answer, both copies of the test are symmetric. */
  lemma CompatibleSymmetric(w: Window, a: Mog, b: Mog)
    requires Compatible(w, a, b).Ok? && Compatible(w, b, a).Ok?
    ensures Compatible(w, a, b).value == Compatible(w, b, a).value
  {
    match w {
      case MergeWindow =>
        MergeCompatibleAgrees(a, b);
        MergeCompatibleAgrees(b, a);
      case DeltaTWindow =>
        DeltaAirTestIsEquality(a.av, b.av);
        DeltaAirTestIsEquality(a.ap, b.ap);
        DeltaAirTestIsEquality(b.av, a.av);
        DeltaAirTestIsEquality(b.ap, a.ap);
    }
    IntendedCompatibleSymmetric(a, b);
  }

  /**
   * The indices, among the first `k` gathers, of those compatible with `ref`,
   * in list order; the first exception raised stops the scan.
   */
  function CompatPrefix(w: Window, mogs: seq<Mog>, ref: Mog, k: nat): Result<seq<nat>, PyError>
    requires k <= |mogs|
    reads mogs, ref, ref.data, set m | m in mogs :: m.data
  {
    if k == 0 then Ok([])
    else
      var prev :- CompatPrefix(w, mogs, ref, k - 1);
      var m := mogs[k - 1];
      if m == ref then Ok(prev)
      else
        var c :- Compatible(w, ref, m);
        Ok(if c then prev + [k - 1] else prev)
  }

  /**
   * A successful scan lists exactly the gathers, other than the reference,
   * that the test accepts, in ascending order.
   */
  lemma {:induction false} CompatPrefixListsExactly(w: Window, mogs: seq<Mog>, ref: Mog, k: nat)
    requires k <= |mogs| && CompatPrefix(w, mogs, ref, k).Ok?
    ensures var ids := CompatPrefix(w, mogs, ref, k).value;
      (forall i :: 0 <= i < k ==>
        (i in ids <==> mogs[i] != ref && Compatible(w, ref, mogs[i]) == Ok(true))) &&
      (forall j :: 0 <= j < |ids| ==> ids[j] < k) &&
      (forall i, j :: 0 <= i < j < |ids| ==> ids[i] < ids[j])
  {
    if k > 0 {
      CompatPrefixListsExactly(w, mogs, ref, k - 1);
    }
  }

  /**
   * In the merge window, a reference gather with an air shot before makes the
   * scan raise TypeError as soon as there is any other gather.
   */
  lemma {:induction false} AirShotReferenceBreaksMerge(mogs: seq<Mog>, ref: Mog, k: nat)
    requires k <= |mogs| && ref.av.One? && ref.av.v.AirShotAt?
    ensures (exists i :: 0 <= i < k && mogs[i] != ref) ==> CompatPrefix(MergeWindow, mogs, ref, k) == Err(TypeError)
    ensures (forall i :: 0 <= i < k ==> mogs[i] == ref) ==> CompatPrefix(MergeWindow, mogs, ref, k) == Ok([])
  {
    if k > 0 {
      AirShotReferenceBreaksMerge(mogs, ref, k - 1);
      MergeCompatibleAgrees(ref, mogs[k - 1]);
    }
  }

  /** Once the scan has raised, the rest of the list does not change the outcome. */
  lemma {:induction false} CompatPrefixErrorStays(w: Window, mogs: seq<Mog>, ref: Mog, k: nat, j: nat)
    requires k <= j <= |mogs| && CompatPrefix(w, mogs, ref, k).Err?
    ensures CompatPrefix(w, mogs, ref, j) == CompatPrefix(w, mogs, ref, k)
    decreases j - k
  {
    if k < j {
      CompatPrefixErrorStays(w, mogs, ref, k, j - 1);
    }
  }

  /**
   * Lines 2291-2311 and 2474-2497: the loop over the gathers with the
   * counter `nc` and the list of listed gathers.
   */
  method ListCompatible(w: Window, mogs: seq<Mog>, ref: Mog) returns (r: Result<seq<nat>, PyError>)
    ensures r == CompatPrefix(w, mogs, ref, |mogs|)
    ensures r.Ok? ==> forall i :: 0 <= i < |mogs| ==>
      (i in r.value <==> mogs[i] != ref && Compatible(w, ref, mogs[i]) == Ok(true))
  {
    var ids: seq<nat> := [];
    var nc := 0;
    var k := 0;
    while k < |mogs|
      invariant 0 <= k <= |mogs|
      invariant CompatPrefix(w, mogs, ref, k) == Ok(ids)
      invariant nc == |ids|
    {
      var m := mogs[k];
      if m != ref {
        var c := Compatible(w, ref, m);
        if c.Err? {
          CompatPrefixErrorStays(w, mogs, ref, k + 1, |mogs|);
          return Err(c.error);
        }
        if c.value {
          nc := nc + 1;
          ids := ids + [k];
        }
      }
      k := k + 1;
    }
    r := Ok(ids);
    CompatPrefixListsExactly(w, mogs, ref, |mogs|);
  }

  /**
   * `MergeMog.getcompat` with the reference combo index `n`. An index outside
   * the list raises IndexError (the check `n == len(MOGs)` after it is never
   * reached). An empty result is the "No compatible MOG found" case.
   */
  method MergeGetCompat(mogs: seq<Mog>, n: int) returns (r: Result<seq<nat>, PyError>)
    ensures PyIndex(mogs, n).Err? ==> r == Err(IndexError)
    ensures PyIndex(mogs, n).Ok? ==> r == CompatPrefix(MergeWindow, mogs, PyIndex(mogs, n).value, |mogs|)
  {
    var ref :- PyIndex(mogs, n);
    r := ListCompatible(MergeWindow, mogs, ref);
  }

  /** What the delta-t window reports. */
  datatype DeltaTCompat = NoMogs | OnlyOneMog | Listed(ids: seq<nat>)

  /** `DeltaTMOG.getcompat` with the combo index `n`. */
  method DeltaTGetCompat(mogs: seq<Mog>, n: int) returns (r: Result<DeltaTCompat, PyError>)
    ensures mogs == [] ==> r == Ok(NoMogs)
    ensures mogs != [] && PyIndex(mogs, n).Err? ==> r == Err(IndexError)
    ensures |mogs| == 1 && PyIndex(mogs, n).Ok? ==> r == Ok(OnlyOneMog)
    ensures |mogs| > 1 && PyIndex(mogs, n).Ok? ==>
      var c := CompatPrefix(DeltaTWindow, mogs, PyIndex(mogs, n).value, |mogs|);
      (c.Ok? ==> r == Ok(Listed(c.value))) && (c.Err? ==> r == Err(c.error))
  {
    if |mogs| == 0 {
      return Ok(NoMogs);
    }
    var ref :- PyIndex(mogs, n);
    if |mogs| == 1 {
      return Ok(OnlyOneMog);
    }
    var ids :- ListCompatible(DeltaTWindow, mogs, ref);
    r := Ok(Listed(ids));
  }

  // ---------------------------------------------------------------------
  // DeltaTMOG.done

  /** `np.any(tt == -1)`, through the pairs of a merged gather. */
  predicate AnyUnpicked(tt: Cell<seq<real>>)
  {
    match tt
    case One(v) => exists i :: 0 <= i < |v| && v[i] == -1.0
    case Pair(a, b) => AnyUnpicked(a) || AnyUnpicked(b)
  }

  /** The warnings `done` shows. */
  datatype DoneWarnings = DoneWarnings(noCompatible: bool, noName: bool, unpicked: bool)

  /**
   * `DeltaTMOG.done` with the number of entries of the subtrahend combo, the
   * new name and the reference combo index. It warns that travel times were
   * not picked exactly when the reference gather has a `tt` of -1.
   */
  method DeltaTDone(mogs: seq<Mog>, subCount: nat, newName: string, n: int) returns (r: Result<DoneWarnings, PyError>)
    ensures PyIndex(mogs, n).Err? ==> r == Err(IndexError)
    ensures PyIndex(mogs, n).Ok? ==>
      r.Ok? && r.value.noCompatible == (subCount == 0) && r.value.noName == (newName == "") &&
      (r.value.unpicked <==> AnyUnpicked(PyIndex(mogs, n).value.tt))
  {
    var noCompatible := subCount == 0;
    var noName := newName == "";
    var refMog :- PyIndex(mogs, n);
    var unpicked := HasUnpicked(refMog.tt);
    r := Ok(DoneWarnings(noCompatible, noName, unpicked));
  }

  /** The scan behind `np.any(tt == -1)`. */
  method HasUnpicked(tt: Cell<seq<real>>) returns (b: bool)
    ensures b <==> AnyUnpicked(tt)
  {
    match tt {
      case One(v) =>
        b := false;
        var i := 0;
        while i < |v|
          invariant 0 <= i <= |v|
          invariant b <==> exists j :: 0 <= j < i && v[j] == -1.0
        {
          if v[i] == -1.0 {
            b := true;
          }
          i := i + 1;
        }
      case Pair(a, c) =>
        var ba := HasUnpicked(a);
        var bc := HasUnpicked(c);
        b := ba || bc;
    }
  }

  // ---------------------------------------------------------------------
  // MergeMog.doMerge

  /** The index of the last gather named `name`, as the loop at lines 2334-2337 leaves it. */
  function LastNamed(mogs: seq<Mog>, name: string): (r: Option<nat>)
    reads mogs
    ensures r.Some? ==> r.value < |mogs| && mogs[r.value].name == name &&
                        forall j :: r.value < j < |mogs| ==> mogs[j].name != name
    ensures r.None? ==> forall j :: 0 <= j < |mogs| ==> mogs[j].name != name
  {
    if mogs == [] then None
    else if mogs[|mogs| - 1].name == name then Some(|mogs| - 1)
    else LastNamed(mogs[..|mogs| - 1], name)
  }

  /** `list.remove(x)`: drop the first occurrence of `x`; ValueError when there is none. */
  function RemoveFirst(s: seq<Mog>, x: Mog): (r: Result<seq<Mog>, PyError>)
    ensures r.Err? <==> x !in s
    ensures r.Err? ==> r.error == ValueError
    ensures r.Ok? ==> |r.value| == |s| - 1 && multiset(r.value) == multiset(s) - multiset{x}
  {
    if s == [] then Err(ValueError)
    else if s[0] == x then
      assert s == [s[0]] + s[1..];
      Ok(s[1..])
    else
      var rest :- RemoveFirst(s[1..], x);
      assert s == [s[0]] + s[1..];
      Ok([s[0]] + rest)
  }

  /** How the merge ends: the erase box, and the answer to its confirmation dialog. */
  datatype EraseChoice = Keep | EraseConfirmed | EraseCancelled

  /**
   * Lines 2322-2339: the reference gather (combo index `num`) and the gather
   * to merge (the last one named as the current entry `item` of the
   * compatible list). No current entry raises AttributeError, an index outside
   * the list IndexError, and no gather of that name UnboundLocalError.
   */
  function MergeSources(mogs: seq<Mog>, num: int, item: Option<string>): (r: Result<(Mog, Mog), PyError>)
    reads mogs
    ensures item.None? ==> r == Err(AttributeError)
    ensures item.Some? && PyIndex(mogs, num).Err? ==> r == Err(IndexError)
    ensures item.Some? && PyIndex(mogs, num).Ok? ==>
      (r.Err? <==> forall j :: 0 <= j < |mogs| ==> mogs[j].name != item.value)
    ensures r.Err? ==> r.error in {AttributeError, IndexError, UnboundLocalError}
    ensures r.Ok? ==> r.value.0 in mogs && r.value.1 in mogs && r.value.1.name == item.value
  {
    if item.None? then Err(AttributeError)
    else
      var ref :- PyIndex(mogs, num);
      match LastNamed(mogs, item.value)
      case None => Err(UnboundLocalError)
      case Some(j) => Ok((ref, mogs[j]))
  }

  /** Every copied field of `newMog` is the pair of the reference's and the merged gather's. */
  predicate MergedFrom(newMog: Mog, ref: Mog, merging: Mog)
    reads newMog, ref, merging
  {
    newMog.data == ref.data && newMog.tx == ref.tx && newMog.rx == ref.rx &&
    newMog.av == Pair(ref.av, merging.av) && newMog.ap == Pair(ref.ap, merging.ap) &&
    newMog.kind == Pair(ref.kind, merging.kind) && newMog.facDt == Pair(ref.facDt, merging.facDt) &&
    newMog.tt == Pair(ref.tt, merging.tt) && newMog.et == Pair(ref.et, merging.et) &&
    newMog.ttDone == Pair(ref.ttDone, merging.ttDone) &&
    newMog.txZOrig == Pair(ref.txZOrig, merging.txZOrig) && newMog.rxZOrig == Pair(ref.rxZOrig, merging.rxZOrig) &&
    newMog.inVect == Pair(ref.inVect, merging.inVect) &&
    newMog.inTxVect == Pair(ref.inTxVect, merging.inTxVect) &&
    newMog.inRxVect == Pair(ref.inRxVect, merging.inRxVect)
  }

  /** The list after `remove(ref)` then `remove(merging)`, and the exception of the second removal. */
  datatype Erased = Erased(rest: seq<Mog>, raised: Option<PyError>)

  function EraseBoth(mogs: seq<Mog>, ref: Mog, merging: Mog): (r: Erased)
    requires ref in mogs
    ensures r.raised.Some? <==> multiset(mogs)[merging] == (if merging == ref then 1 else 0)
    ensures r.raised.Some? ==> r.raised.value == ValueError && multiset(r.rest) == multiset(mogs) - multiset{ref}
    ensures r.raised.None? ==> multiset(r.rest) == multiset(mogs) - multiset{ref} - multiset{merging}
  {
    var once := RemoveFirst(mogs, ref).value;
    assert merging in once <==> merging in multiset(once);
    match RemoveFirst(once, merging)
    case Err(e) => Erased(once, Some(e))
    case Ok(twice) => Erased(twice, None)
  }

  /** The gather list after the merge, when no exception is raised. */
  function MergedList(mogs: seq<Mog>, ref: Mog, merging: Mog, newMog: Mog, erase: EraseChoice): seq<Mog>
    requires ref in mogs
  {
    match erase
    case Keep => mogs + [newMog]
    case EraseCancelled => mogs
    case EraseConfirmed => EraseBoth(mogs, ref, merging).rest + [newMog]
  }

  /** Lines 2334-2339: the lookups of `doMerge`, with the loop over the gathers. */
  method FindSources(mogs: seq<Mog>, num: int, item: Option<string>) returns (r: Result<(Mog, Mog), PyError>)
    ensures r == MergeSources(mogs, num, item)
  {
    if item.None? {
      return Err(AttributeError);
    }
    var mergeName := item.value;
    var mergeInd: Option<nat> := None;
    var i := 0;
    while i < |mogs|
      invariant 0 <= i <= |mogs|
      invariant mergeInd == LastNamed(mogs[..i], mergeName)
    {
      assert mogs[..i + 1][..i] == mogs[..i];
      if mogs[i].name == mergeName {
        mergeInd := Some(i);
      }
      i := i + 1;
    }
    assert mogs[..i] == mogs;
    var ref :- PyIndex(mogs, num);
    if mergeInd.None? {
      return Err(UnboundLocalError);
    }
    r := Ok((ref, mogs[mergeInd.value]));
  }

  /**
   * `MergeMog.doMerge`: `num` is the reference combo index, `item` the
   * current entry of the compatible list (None when nothing is selected),
   * `erase` the erase box with the answer to its dialog. On success the
   * merged gather is returned; it is in the list unless the erase was
   * cancelled. When the reference is also the gather to merge, a confirmed
   * erase raises ValueError after removing it once.
   */
  method DoMerge(ui: MogUI, num: int, item: Option<string>, newName: string, erase: EraseChoice)
    returns (r: Result<Mog, PyError>)
    modifies ui`mogs
    ensures var src := MergeSources(old(ui.mogs), num, item);
      (src.Err? ==> r == Err(src.error) && ui.mogs == old(ui.mogs)) &&
      (src.Ok? && erase == EraseConfirmed && EraseBoth(old(ui.mogs), src.value.0, src.value.1).raised.Some? ==>
        r == Err(ValueError) && ui.mogs == EraseBoth(old(ui.mogs), src.value.0, src.value.1).rest) &&
      (src.Ok? && !(erase == EraseConfirmed && EraseBoth(old(ui.mogs), src.value.0, src.value.1).raised.Some?) ==>
        r.Ok? && fresh(r.value) && r.value.name == newName && MergedFrom(r.value, src.value.0, src.value.1) &&
        ui.mogs == MergedList(old(ui.mogs), src.value.0, src.value.1, r.value, erase))
  {
    var src := FindSources(ui.mogs, num, item);
    if src.Err? {
      return Err(src.error);
    }
    var (ref, merging) := src.value;
    var newMog := new Mog.Merged(newName, ref, merging);
    var raised := Attach(ui, ref, merging, newMog, erase);
    r := if raised.Some? then Err(raised.value) else Ok(newMog);
  }

  /** Lines 2375-2399: the list update that ends `doMerge`; it returns the exception raised, if any. */
  method Attach(ui: MogUI, ref: Mog, merging: Mog, newMog: Mog, erase: EraseChoice) returns (raised: Option<PyError>)
    requires ref in ui.mogs
    modifies ui`mogs
    ensures raised.Some? <==> erase == EraseConfirmed && EraseBoth(old(ui.mogs), ref, merging).raised.Some?
    ensures raised.Some? ==> raised == Some(ValueError) && ui.mogs == EraseBoth(old(ui.mogs), ref, merging).rest
    ensures raised.None? ==> ui.mogs == MergedList(old(ui.mogs), ref, merging, newMog, erase)
  {
    raised := None;
    match erase {
      case EraseConfirmed =>
        var e := EraseBoth(ui.mogs, ref, merging);
        ui.mogs := e.rest;
        if e.raised.Some? {
          raised := Some(ValueError);
        } else {
          ui.mogs := ui.mogs + [newMog];
        }
      case EraseCancelled =>
      case Keep =>
        ui.mogs := ui.mogs + [newMog];
    }
  }

  /** Without erase the list grows by exactly the merged gather, at the end. */
  lemma KeepAppendsOne(mogs: seq<Mog>, ref: Mog, merging: Mog, newMog: Mog)
    requires ref in mogs
    ensures var after := MergedList(mogs, ref, merging, newMog, Keep);
      |after| == |mogs| + 1 && after[|mogs|] == newMog && after[..|mogs|] == mogs
  {
  }

  /**
   * A confirmed erase of two different gathers, each in the list once,
   * removes both and adds the merged gather: the list shrinks by one.
   */
  lemma EraseRemovesBoth(mogs: seq<Mog>, ref: Mog, merging: Mog, newMog: Mog)
    requires ref in mogs && merging in mogs && ref != merging
    ensures EraseBoth(mogs, ref, merging).raised.None?
    ensures var after := MergedList(mogs, ref, merging, newMog, EraseConfirmed);
      |after| == |mogs| - 1 && after[|after| - 1] == newMog &&
      multiset(after) == multiset(mogs) - multiset{ref, merging} + multiset{newMog}
  {
    var e := EraseBoth(mogs, ref, merging);
    assert multiset(mogs)[merging] > 0;
    var after := e.rest + [newMog];
    assert multiset(after) == multiset(e.rest) + multiset{newMog};
    assert |after| == |multiset(after)|;
    assert |mogs| == |multiset(mogs)|;
  }

  /**
   * Merging a gather with itself and erasing: the single copy is removed,
   * then the second removal raises ValueError and the merged gather is never
   * added.
   */
  lemma EraseSelfMergeRaises(mogs: seq<Mog>, ref: Mog)
    requires multiset(mogs)[ref] == 1
    ensures var e := EraseBoth(mogs, ref, ref);
      e.raised == Some(ValueError) && ref !in e.rest &&
      multiset(e.rest) == multiset(mogs) - multiset{ref}
  {
    var e := EraseBoth(mogs, ref, ref);
    assert ref in multiset(mogs);
    assert multiset(e.rest)[ref] == 0;
  }
}

=== FILE: coords.dfy ===
/**
 * `MOGUI.updateCoords` for one selected gather: attach the transmitter and
 * receiver boreholes, reset the horizontal station coordinates, and, for a
 * crosshole survey between vertical boreholes, place every station on its
 * borehole.
 */
module Coords {
  import opened Wrappers
  import opened BoreholeModel
  import opened Mogs

  /** `v * np.ones(n)`, and `np.matlib.repmat(row, n, 1)`: `n` copies of `v`. */
  function Fill<T>(v: T, n: nat): (r: seq<T>)
    ensures |r| == n && forall k :: 0 <= k < n ==> r[k] == v
  {
    seq(n, _ => v)
  }

  /** The horizontal tolerance of the vertical-borehole test. */
  const Tolerance: real := 0.00001

  /**
   * Lines 404-405 and 412-413: a trajectory of exactly two vertices whose
   * x and y agree within the tolerance.
   */
  predicate Vertical(fdata: seq<Point3>)
  {
    |fdata| == 2 && Abs(fdata[0].x - fdata[1].x) < Tolerance && Abs(fdata[0].y - fdata[1].y) < Tolerance
  }

  /** The station coordinates and direction cosines of one side (Tx or Rx) of a gather. */
  datatype Stations = Stations(x: seq<real>, y: seq<real>, z: seq<real>, cosDir: seq<Point3>)

  /** The vertical direction cosines (0, 0, 1). */
  const Down := Point3(0.0, 0.0, 1.0)

  /** `Z - Offset - z_orig`: the station depths, as elevations below the collar `bz`. */
  function Depths(bz: real, offset: real, zOrig: seq<real>): (r: seq<real>)
    ensures |r| == |zOrig| && forall k :: 0 <= k < |r| ==> r[k] + offset + zOrig[k] == bz
  {
    seq(|zOrig|, k requires 0 <= k < |zOrig| => bz - offset - zOrig[k])
  }

  /** Lines 406-409 and 414-417: the stations of one side placed on a vertical borehole. */
  function OnHole(fdata: seq<Point3>, bz: real, offset: real, zOrig: seq<real>, n: nat): Stations
    requires |fdata| > 0
  {
    Stations(Fill(fdata[0].x, n), Fill(fdata[0].y, n), Depths(bz, offset, zOrig), Fill(Down, n))
  }

  /**
   * One side after `updateCoords`, for a gather of `n` traces, a borehole with
   * trajectory `fdata` and collar elevation `bz`, the antenna `offset` and
   * the original depths `zOrig`. Outside the vertical crosshole case x and y
   * are reset to ones and z and the cosines are kept.
   */
  function Reposition(s: Stations, fdata: seq<Point3>, bz: real, offset: real,
                      zOrig: seq<real>, n: nat, crosshole: bool): (r: Stations)
    ensures |r.x| == n && |r.y| == n
    ensures crosshole && Vertical(fdata) ==>
      |r.z| == |zOrig| && |r.cosDir| == n &&
      forall k :: 0 <= k < n ==> r.x[k] == fdata[0].x && r.y[k] == fdata[0].y && r.cosDir[k] == Down
    ensures !(crosshole && Vertical(fdata)) ==>
      r.z == s.z && r.cosDir == s.cosDir && forall k :: 0 <= k < n ==> r.x[k] == 1.0 && r.y[k] == 1.0
  {
    if crosshole && Vertical(fdata) then
      OnHole(fdata, bz, offset, zOrig, n)
    else
      Stations(Fill(1.0, n), Fill(1.0, n), s.z, s.cosDir)
  }

  /**
   * Placed on a vertical borehole, every station is within the tolerance, in
   * x and in y, of both of its vertices, and sits `zOrig[k] + offset` below its collar.
   */
  lemma RepositionOnHole(s: Stations, fdata: seq<Point3>, bz: real, offset: real,
                         zOrig: seq<real>, n: nat, k: nat)
    requires Vertical(fdata) && k < n
    ensures var r := Reposition(s, fdata, bz, offset, zOrig, n, true);
      Abs(r.x[k] - fdata[0].x) < Tolerance && Abs(r.x[k] - fdata[1].x) < Tolerance &&
      Abs(r.y[k] - fdata[0].y) < Tolerance && Abs(r.y[k] - fdata[1].y) < Tolerance &&
      (k < |zOrig| ==> r.z[k] + offset + zOrig[k] == bz)
  {
  }

  /**
   * The new coordinates do not depend on the ones they replace, except z and
   * the cosines where they are kept: applying `updateCoords` twice gives what
   * applying it once gives.
   */
  lemma RepositionIdempotent(s: Stations, fdata: seq<Point3>, bz: real, offset: real,
                             zOrig: seq<real>, n: nat, crosshole: bool)
    ensures var r := Reposition(s, fdata, bz, offset, zOrig, n, crosshole);
      Reposition(r, fdata, bz, offset, zOrig, n, crosshole) == r
  {
  }

  const CrossholeMode: string := "SURVEY MODE       = Trans. -MOG"
  const VrpMode: string := "SURVEY MODE       = Trans. -VRP"

  /** Lines 400-401 and 422-423: the survey-mode line for the type chosen in the type combo. */
  function SurveyMode(surveyType: string, current: string): (r: string)
    ensures surveyType == "Crosshole" ==> r == CrossholeMode
    ensures surveyType == "VSP/VRP" ==> r == VrpMode
    ensures surveyType != "Crosshole" && surveyType != "VSP/VRP" ==> r == current
  {
    if surveyType == "Crosshole" then CrossholeMode
    else if surveyType == "VSP/VRP" then VrpMode
    else current
  }

  function TxStations(m: Mog): Stations
    reads m, m.data
  {
    Stations(m.data.txX, m.data.txY, m.data.txZ, m.txCosDir)
  }

  function RxStations(m: Mog): Stations
    reads m, m.data
  {
    Stations(m.data.rxX, m.data.rxY, m.data.rxZ, m.rxCosDir)
  }

  /**
   * `updateCoords` on one selected gather, with the borehole list, the
   * indices of the Tx and Rx combos and the text of the type combo.
   * A combo index outside the list raises IndexError before anything changes.
   */
  method UpdateCoords(mog: Mog, boreholes: seq<Borehole>, iTx: int, iRx: int, surveyType: string)
    returns (r: Result<(), PyError>)
    requires mog.txZOrig.One? && mog.rxZOrig.One?
    modifies mog`tx, mog`rx, mog`txCosDir, mog`rxCosDir
    modifies mog.data`txX, mog.data`txY, mog.data`txZ, mog.data`rxX, mog.data`rxY, mog.data`rxZ, mog.data`csurvmod
    ensures var bTx, bRx := PyIndex(boreholes, iTx), PyIndex(boreholes, iRx);
      if bTx.Err? || bRx.Err? then
        r == Err(IndexError) && mog.tx == old(mog.tx) && mog.rx == old(mog.rx) &&
        TxStations(mog) == old(TxStations(mog)) && RxStations(mog) == old(RxStations(mog)) &&
        mog.data.csurvmod == old(mog.data.csurvmod)
      else
        var tx, rx, n := bTx.value, bRx.value, mog.data.ntrace;
        var crosshole := surveyType == "Crosshole";
        r == Ok(()) && mog.tx == Some(tx) && mog.rx == Some(rx) &&
        TxStations(mog) == Reposition(old(TxStations(mog)), tx.fdata, tx.z, mog.data.txOffset, mog.txZOrig.v, n, crosshole) &&
        RxStations(mog) == Reposition(old(RxStations(mog)), rx.fdata, rx.z, mog.data.rxOffset, mog.rxZOrig.v, n, crosshole) &&
        mog.data.csurvmod == SurveyMode(surveyType, old(mog.data.csurvmod))
  {
    var bTx, bRx := PyIndex(boreholes, iTx), PyIndex(boreholes, iRx);
    if bTx.Err? || bRx.Err? {
      return Err(IndexError);
    }
    var tx, rx := bTx.value, bRx.value;
    mog.tx := Some(tx);
    mog.rx := Some(rx);
    var crosshole := surveyType == "Crosshole";
    PlaceTx(mog, tx, crosshole);
    PlaceRx(mog, rx, crosshole);
    if crosshole {
      mog.data.csurvmod := CrossholeMode;
    } else if surveyType == "VSP/VRP" {
      mog.data.csurvmod := VrpMode;
    }
    r := Ok(());
  }

  /**
   * Lines 395-396 and 404-409: the transmitter side, reset to ones, then, in a
   * crosshole survey along a vertical borehole, placed on it.
   */
  method PlaceTx(mog: Mog, tx: Borehole, crosshole: bool)
    requires mog.txZOrig.One?
    modifies mog`txCosDir, mog.data`txX, mog.data`txY, mog.data`txZ
    ensures TxStations(mog) == Reposition(old(TxStations(mog)), tx.fdata, tx.z, mog.data.txOffset,
                                          mog.txZOrig.v, mog.data.ntrace, crosshole)
  {
    var d := mog.data;
    d.txX := Fill(1.0, d.ntrace);
    d.txY := Fill(1.0, d.ntrace);
    if crosshole && Vertical(tx.fdata) {
      d.txX := Fill(tx.fdata[0].x, d.ntrace);
      d.txY := Fill(tx.fdata[0].y, d.ntrace);
      d.txZ := Depths(tx.z, d.txOffset, mog.txZOrig.v);
      mog.txCosDir := Fill(Down, d.ntrace);
    }
  }

  /** Lines 397-398 and 412-417: the receiver side, likewise. */
  method PlaceRx(mog: Mog, rx: Borehole, crosshole: bool)
    requires mog.rxZOrig.One?
    modifies mog`rxCosDir, mog.data`rxX, mog.data`rxY, mog.data`rxZ
    ensures RxStations(mog) == Reposition(old(RxStations(mog)), rx.fdata, rx.z, mog.data.rxOffset,
                                          mog.rxZOrig.v, mog.data.ntrace, crosshole)
  {
    var d := mog.data;
    d.rxX := Fill(1.0, d.ntrace);
    d.rxY := Fill(1.0, d.ntrace);
    if crosshole && Vertical(rx.fdata) {
      d.rxX := Fill(rx.fdata[0].x, d.ntrace);
      d.rxY := Fill(rx.fdata[0].y, d.ntrace);
      d.rxZ := Depths(rx.z, d.rxOffset, mog.rxZOrig.v);
      mog.rxCosDir := Fill(Down, d.ntrace);
    }
  }
}

=== FILE: database.dfy ===
/**
 * The relationship bookkeeping of the project database: the boreholes a
 * model's gathers use, the removal of air shots no gather uses, and the
 * `modified` flag that `delete` raises.
 *
 * The session is abstracted to the sets of objects it holds: the persistent
 * ones (loaded or flushed), the pending ones (added, never flushed) and, among
 * the persistent ones, those marked for deletion at the next flush.
 */
module Database {
  import opened Wrappers
  import opened Mogs
  import opened BoreholeModel

  // ---------------------------------------------------------------------
  // Order-preserving removal of duplicates

  /** `s` without repeats, each value kept at its first occurrence: the append-if-absent loops. */
  function Dedup<T(==)>(s: seq<T>): seq<T>
  {
    if s == [] then []
    else
      var d := Dedup(s[..|s| - 1]);
      if s[|s| - 1] in d then d else d + [s[|s| - 1]]
  }

  /** No value occurs twice in `s`. */
  predicate Distinct<T(==)>(s: seq<T>)
  {
    forall i, j :: 0 <= i < j < |s| ==> s[i] != s[j]
  }

  /** The position of the first occurrence of `x` in `s`. */
  function FirstIndex<T(==)>(s: seq<T>, x: T): (r: nat)
    requires x in s
    ensures r < |s| && s[r] == x && forall k :: 0 <= k < r ==> s[k] != x
  {
    if s[0] == x then 0 else 1 + FirstIndex(s[1..], x)
  }

  /** The result holds each value of `s` once. */
  lemma {:induction false} DedupDistinct<T>(s: seq<T>)
    ensures Distinct(Dedup(s))
    decreases |s|
  {
    if s != [] {
      DedupDistinct(s[..|s| - 1]);
    }
  }

  /** The result holds exactly the values of `s`. */
  lemma {:induction false} DedupSameValues<T>(s: seq<T>, x: T)
    ensures x in Dedup(s) <==> x in s
    decreases |s|
  {
    if s != [] {
      var s' := s[..|s| - 1];
      DedupSameValues(s', x);
      assert s == s' + [s[|s| - 1]];
    }
  }

  /** Adding a value at the end does not move the first occurrence of a value already there. */
  lemma FirstIndexAppend<T>(s: seq<T>, y: T, x: T)
    requires x in s
    ensures FirstIndex(s + [y], x) == FirstIndex(s, x)
  {
    var i, j := FirstIndex(s + [y], x), FirstIndex(s, x);
    assert (s + [y])[j] == x;
    assert s[i] == x;
  }

  /** `a` and `b` occur in `s`, and `a` first occurs before `b` does. */
  predicate FirstBefore<T(==)>(s: seq<T>, a: T, b: T)
  {
    a in s && b in s && FirstIndex(s, a) < FirstIndex(s, b)
  }

  /** The result lists the values in the order of their first occurrences in `s`. */
  lemma {:induction false} DedupFirstOccurrenceOrder<T>(s: seq<T>)
    ensures forall i, j :: 0 <= i < j < |Dedup(s)| ==> FirstBefore(s, Dedup(s)[i], Dedup(s)[j])
    decreases |s|
  {
    if s != [] {
      var s', y := s[..|s| - 1], s[|s| - 1];
      assert s == s' + [y];
      var d := Dedup(s');
      DedupFirstOccurrenceOrder(s');
      forall i, j | 0 <= i < j < |Dedup(s)|
        ensures FirstBefore(s, Dedup(s)[i], Dedup(s)[j])
      {
        var r := Dedup(s);
        assert i < |d| && r[i] == d[i];
        DedupSameValues(s', d[i]);
        FirstIndexAppend(s', y, r[i]);
        if j < |d| {
          DedupSameValues(s', d[j]);
          FirstIndexAppend(s', y, r[j]);
          assert FirstBefore(s', d[i], d[j]);
        } else {
          DedupSameValues(s', y);
          assert r[j] == y && y !in s';
          assert FirstIndex(s, y) == |s'|;
        }
      }
    }
  }

  // ---------------------------------------------------------------------
  // model_boreholes

  /** The values of the `Some` entries of `s`, in order: the `is not None` filter. */
  function Present<T>(s: seq<Option<T>>): seq<T>
  {
    if s == [] then []
    else Present(s[..|s| - 1]) + (if s[|s| - 1].Some? then [s[|s| - 1].value] else [])
  }

  /** `x` is among the present values exactly when `Some(x)` is an entry. */
  lemma {:induction false} PresentValues<T>(s: seq<Option<T>>, x: T)
    ensures x in Present(s) <==> Some(x) in s
    decreases |s|
  {
    if s != [] {
      var s' := s[..|s| - 1];
      PresentValues(s', x);
      assert s == s' + [s[|s| - 1]];
    }
  }

  /** The Tx and the Rx of each gather, in order: the pairs `mog.Tx, mog.Rx` visited by `model_boreholes`. */
  function TxRx(mogs: seq<Mog>): (r: seq<Option<Borehole>>)
    reads mogs
    ensures |r| == 2 * |mogs|
  {
    if mogs == [] then [] else TxRx(mogs[..|mogs| - 1]) + [mogs[|mogs| - 1].tx, mogs[|mogs| - 1].rx]
  }

  /** The visit of gather `i` extends the visits of the gathers before it by its Tx and its Rx. */
  lemma TxRxStep(mogs: seq<Mog>, i: nat)
    requires i < |mogs|
    ensures TxRx(mogs[..i + 1]) == TxRx(mogs[..i]) + [mogs[i].tx, mogs[i].rx]
  {
    assert mogs[..i + 1][..i] == mogs[..i];
  }

  /** A borehole is visited exactly when it is the Tx or the Rx of some gather. */
  lemma {:induction false} TxRxHolds(mogs: seq<Mog>, b: Borehole)
    ensures Some(b) in TxRx(mogs) <==> exists k :: 0 <= k < |mogs| && (mogs[k].tx == Some(b) || mogs[k].rx == Some(b))
    decreases |mogs|
  {
    if mogs != [] {
      var m', last := mogs[..|mogs| - 1], mogs[|mogs| - 1];
      TxRxHolds(m', b);
      assert TxRx(mogs) == TxRx(m') + [last.tx, last.rx];
      assert forall k :: 0 <= k < |m'| ==> m'[k] == mogs[k];
    }
  }

  /** One more entry of `t` after `s`. */
  lemma SliceStep<T>(s: seq<T>, t: seq<T>, j: nat)
    requires j < |t|
    ensures s + t[..j + 1] == s + t[..j] + [t[j]]
  {
    assert t[..j + 1] == t[..j] + [t[j]];
  }

  /** One step of the append-if-absent loop over a list of optional values. */
  lemma DedupPresentStep<T>(s: seq<Option<T>>, x: Option<T>)
    ensures Dedup(Present(s + [x])) ==
      if x.Some? && x.value !in Dedup(Present(s)) then Dedup(Present(s)) + [x.value] else Dedup(Present(s))
  {
    assert (s + [x])[..|s|] == s;
    var p := Present(s);
    if x.Some? {
      assert Present(s + [x]) == p + [x.value];
      assert (p + [x.value])[..|p|] == p;
    } else {
      assert Present(s + [x]) == p;
    }
  }

  /**
   * `model_boreholes`: the boreholes of a model's gathers, Tx before Rx and
   * gather after gather, each once. The result holds exactly the boreholes
   * that are the Tx or the Rx of some gather, without duplicates, in the order
   * of their first appearance.
   */
  method ModelBoreholes(mogs: seq<Mog>) returns (boreholes: seq<Borehole>)
    ensures boreholes == Dedup(Present(TxRx(mogs)))
    ensures Distinct(boreholes)
    ensures forall b :: b in boreholes <==>
      exists k :: 0 <= k < |mogs| && (mogs[k].tx == Some(b) || mogs[k].rx == Some(b))
  {
    boreholes := [];
    ghost var visited := [];
    for i := 0 to |mogs|
      invariant visited == TxRx(mogs[..i])
      invariant boreholes == Dedup(Present(visited))
    {
      var mog := mogs[i];
      var pair := [mog.tx, mog.rx];
      TxRxStep(mogs, i);
      ghost var before := visited;
      for j := 0 to 2
        invariant visited == before + pair[..j]
        invariant boreholes == Dedup(Present(visited))
      {
        var b := pair[j];
        DedupPresentStep(visited, b);
        if b.Some? && b.value !in boreholes {
          boreholes := boreholes + [b.value];
        }
        SliceStep(before, pair, j);
        visited := visited + [b];
      }
      assert pair[..2] == pair;
    }
    assert mogs[..|mogs|] == mogs;
    BoreholesOfModel(mogs);
  }

  /** The deduplicated Tx/Rx list holds each borehole of a gather once, and nothing else. */
  lemma BoreholesOfModel(mogs: seq<Mog>)
    ensures var r := Dedup(Present(TxRx(mogs)));
      Distinct(r) &&
      forall b :: b in r <==> exists k :: 0 <= k < |mogs| && (mogs[k].tx == Some(b) || mogs[k].rx == Some(b))
  {
    DedupDistinct(Present(TxRx(mogs)));
    forall b
      ensures b in Dedup(Present(TxRx(mogs))) <==>
        exists k :: 0 <= k < |mogs| && (mogs[k].tx == Some(b) || mogs[k].rx == Some(b))
    {
      DedupSameValues(Present(TxRx(mogs)), b);
      PresentValues(TxRx(mogs), b);
      TxRxHolds(mogs, b);
    }
  }

  // ---------------------------------------------------------------------
  // The session, and delete

  /** The module object of the database layer: its session's objects and its `modified` flag. */
  class Store {
    var persistent: set<object>
    var pending: set<object>
    var marked: set<object>     // persistent objects marked for deletion at the next flush
    var modified: bool

    /** No object is both persistent and pending, and only persistent objects are marked. */
    predicate Valid()
      reads this
    {
      persistent !! pending && marked <= persistent
    }

    /** A fresh session with nothing in it and nothing modified. */
    constructor ()
      ensures Valid() && persistent == {} && pending == {} && marked == {} && !modified
    {
      persistent, pending, marked := {}, {}, {};
      modified := false;
    }

    /**
     * `delete`: a persistent object is marked for deletion, a pending one is
     * expunged, and `modified` is raised. Expunging an object the session
     * does not hold raises InvalidRequestError before the flag is set.
     */
    method Delete(item: object) returns (r: Result<(), PyError>)
      requires Valid()
      modifies this
      ensures Valid()
      ensures item in old(persistent) ==>
        r == Ok(()) && marked == old(marked) + {item} && persistent == old(persistent) && pending == old(pending)
      ensures item in old(pending) ==>
        r == Ok(()) && pending == old(pending) - {item} && persistent == old(persistent) && marked == old(marked)
      ensures item !in old(persistent) && item !in old(pending) ==>
        r == Err(InvalidRequestError) && persistent == old(persistent) && pending == old(pending) &&
        marked == old(marked)
      ensures modified == (r.Ok? || old(modified))
    {
      if item in persistent {
        marked := marked + {item};
      } else if item in pending {
        pending := pending - {item};
      } else {
        return Err(InvalidRequestError);
      }
      modified := true;
      r := Ok(());
    }
  }

  // ---------------------------------------------------------------------
  // airshots_cleanup

  /** The air-shot relationships `mog.av` and `mog.ap` of a stored gather (None when unset). */
  datatype AirLinks = AirLinks(av: Option<AirShots>, ap: Option<AirShots>)

  /** The `av` and the `ap` of each gather, in order. */
  function AvAp(links: seq<AirLinks>): (r: seq<Option<AirShots>>)
    ensures |r| == 2 * |links|
  {
    if links == [] then [] else AvAp(links[..|links| - 1]) + [links[|links| - 1].av, links[|links| - 1].ap]
  }

  /** The visit of gather `i` extends the visits of the gathers before it by its `av` and its `ap`. */
  lemma AvApStep(links: seq<AirLinks>, i: nat)
    requires i < |links|
    ensures AvAp(links[..i + 1]) == AvAp(links[..i]) + [links[i].av, links[i].ap]
  {
    assert links[..i + 1][..i] == links[..i];
  }

  /** An air shot is listed exactly when it is the `av` or the `ap` of some gather. */
  lemma {:induction false} AvApHolds(links: seq<AirLinks>, a: AirShots)
    ensures Some(a) in AvAp(links) <==> exists k :: 0 <= k < |links| && (links[k].av == Some(a) || links[k].ap == Some(a))
    decreases |links|
  {
    if links != [] {
      var l', last := links[..|links| - 1], links[|links| - 1];
      AvApHolds(l', a);
      assert AvAp(links) == AvAp(l') + [last.av, last.ap];
      assert forall k :: 0 <= k < |l'| ==> l'[k] == links[k];
    }
  }

  /**
   * The first loop of `airshots_cleanup`: the air shots some gather uses,
   * each once, None left out.
   */
  method UsedAirShots(links: seq<AirLinks>) returns (used: seq<AirShots>)
    ensures used == Dedup(Present(AvAp(links)))
    ensures Distinct(used)
    ensures forall a :: a in used <==>
      exists k :: 0 <= k < |links| && (links[k].av == Some(a) || links[k].ap == Some(a))
  {
    used := [];
    ghost var visited := [];
    for i := 0 to |links|
      invariant visited == AvAp(links[..i])
      invariant used == Dedup(Present(visited))
    {
      var link := links[i];
      var pair := [link.av, link.ap];
      AvApStep(links, i);
      ghost var before := visited;
      for j := 0 to 2
        invariant visited == before + pair[..j]
        invariant used == Dedup(Present(visited))
      {
        var a := pair[j];
        DedupPresentStep(visited, a);
        if a.Some? && a.value !in used {
          used := used + [a.value];
        }
        SliceStep(before, pair, j);
        visited := visited + [a];
      }
      assert pair[..2] == pair;
    }
    assert links[..|links|] == links;
    AirShotsInUse(links);
  }

  /** The deduplicated av/ap list holds each air shot some gather uses once, and nothing else. */
  lemma AirShotsInUse(links: seq<AirLinks>)
    ensures var r := Dedup(Present(AvAp(links)));
      Distinct(r) &&
      forall a :: a in r <==> exists k :: 0 <= k < |links| && (links[k].av == Some(a) || links[k].ap == Some(a))
  {
    DedupDistinct(Present(AvAp(links)));
    forall a
      ensures a in Dedup(Present(AvAp(links))) <==>
        exists k :: 0 <= k < |links| && (links[k].av == Some(a) || links[k].ap == Some(a))
    {
      DedupSameValues(Present(AvAp(links)), a);
      PresentValues(AvAp(links), a);
      AvApHolds(links, a);
    }
  }

  /** The air shots of `airShots` that no gather uses. */
  function Unused(links: seq<AirLinks>, airShots: seq<AirShots>): set<object>
  {
    set a: AirShots | a in airShots && Some(a) !in AvAp(links)
  }

  /** An air shot is unused exactly when it is neither the `av` nor the `ap` of any gather. */
  lemma UnusedExactly(links: seq<AirLinks>, airShots: seq<AirShots>, a: AirShots)
    ensures a in Unused(links, airShots) <==>
      a in airShots && forall k :: 0 <= k < |links| ==> links[k].av != Some(a) && links[k].ap != Some(a)
  {
    AvApHolds(links, a);
  }

  /**
   * `airshots_cleanup`, given the gathers and the air shots its two queries
   * return (objects of the session, each once): every air shot that no
   * gather uses is deleted, the others are left alone, and `modified` is
   * raised when anything was deleted.
   */
  method AirshotsCleanup(store: Store, links: seq<AirLinks>, airShots: seq<AirShots>)
    requires store.Valid()
    requires forall k :: 0 <= k < |airShots| ==> airShots[k] in store.persistent || airShots[k] in store.pending
    requires Distinct(airShots)
    modifies store
    ensures store.Valid()
    ensures var unused := Unused(links, airShots);
      store.persistent == old(store.persistent) &&
      store.marked == old(store.marked) + unused * old(store.persistent) &&
      store.pending == old(store.pending) - unused &&
      store.modified == (old(store.modified) || unused != {})
  {
    var used := UsedAirShots(links);
    for i := 0 to |airShots|
      invariant store.Valid()
      invariant var unused := Unused(links, airShots[..i]);
        store.persistent == old(store.persistent) &&
        store.marked == old(store.marked) + unused * old(store.persistent) &&
        store.pending == old(store.pending) - unused &&
        store.modified == (old(store.modified) || unused != {})
    {
      var a := airShots[i];
      assert airShots[..i + 1] == airShots[..i] + [a];
      PresentValues(AvAp(links), a);
      DedupSameValues(Present(AvAp(links)), a);
      assert a !in airShots[..i];
      if a !in used {
        assert Unused(links, airShots[..i + 1]) == Unused(links, airShots[..i]) + {a};
        var _ := store.Delete(a);
      } else {
        assert Unused(links, airShots[..i + 1]) == Unused(links, airShots[..i]);
      }
    }
    assert airShots[..|airShots|] == airShots;
  }
}

=== FILE: masks.dfy ===
/**
 * The numpy vector idioms the MOG code is written in, stated once:
 * `np.where(mask)[0]`, `sum(mask)`, `np.unique(v)` and the slice `v[::step]`.
 */
module Masks {

  /** `np.where(mask)[0]`: the indices at which `mask` holds, in ascending order. */
  function Where(mask: seq<bool>): (r: seq<nat>)
    ensures forall k :: 0 <= k < |r| ==> r[k] < |mask| && mask[r[k]]
    ensures forall i :: 0 <= i < |mask| && mask[i] ==> i in r
    ensures forall j, k :: 0 <= j < k < |r| ==> r[j] < r[k]
  {
    if mask == [] then []
    else
      var init := Where(mask[..|mask| - 1]);
      if mask[|mask| - 1] then init + [|mask| - 1] else init
  }

  /** Extending the mask by one entry adds its index when it holds. */
  lemma WhereStep(mask: seq<bool>, i: nat)
    requires i < |mask|
    ensures Where(mask[..i + 1]) == Where(mask[..i]) + (if mask[i] then [i] else [])
  {
    assert mask[..i + 1][..i] == mask[..i];
  }

  /** `sum(mask)` over a boolean vector: the number of entries that hold. */
  function CountTrue(mask: seq<bool>): nat
  {
    if mask == [] then 0
    else CountTrue(mask[..|mask| - 1]) + (if mask[|mask| - 1] then 1 else 0)
  }

  lemma {:induction false} CountTrueBound(mask: seq<bool>)
    ensures CountTrue(mask) <= |mask|
    ensures CountTrue(mask) == |mask| <==> forall i :: 0 <= i < |mask| ==> mask[i]
  {
    if mask != [] {
      var init := mask[..|mask| - 1];
      CountTrueBound(init);
      assert forall i :: 0 <= i < |init| ==> init[i] == mask[i];
    }
  }

  lemma {:induction false} WhereCounts(mask: seq<bool>)
    ensures |Where(mask)| == CountTrue(mask)
  {
    if mask != [] {
      WhereCounts(mask[..|mask| - 1]);
    }
  }

  /** Two masks of one length, the first implying the second entry by entry. */
  lemma {:induction false} CountTrueMonotone(a: seq<bool>, b: seq<bool>)
    requires |a| == |b|
    requires forall i :: 0 <= i < |a| && a[i] ==> b[i]
    ensures CountTrue(a) <= CountTrue(b)
  {
    if a != [] {
      CountTrueMonotone(a[..|a| - 1], b[..|b| - 1]);
    }
  }

  /** The entry-by-entry conjunction of two masks. */
  function And(a: seq<bool>, b: seq<bool>): (r: seq<bool>)
    requires |a| == |b|
    ensures |r| == |a|
  {
    seq(|a|, i requires 0 <= i < |a| => a[i] && b[i])
  }

  ghost predicate StrictlyIncreasing(u: seq<real>)
  {
    forall i, j :: 0 <= i < j < |u| ==> u[i] < u[j]
  }

  /** Inserts `x` into a sorted sequence of distinct values, unless it is there already. */
  function InsertSorted(u: seq<real>, x: real): (r: seq<real>)
    requires StrictlyIncreasing(u)
    ensures StrictlyIncreasing(r)
    ensures forall y :: y in r <==> y in u || y == x
    ensures |r| <= |u| + 1
  {
    if u == [] then [x]
    else if x < u[0] then [x] + u
    else if x == u[0] then u
    else
      var rest := InsertSorted(u[1..], x);
      assert forall y :: y in rest ==> u[0] < y;
      [u[0]] + rest
  }

  /** `np.unique(v)`: the distinct values of `v`, sorted in ascending order. */
  function Unique(v: seq<real>): (r: seq<real>)
    ensures StrictlyIncreasing(r)
    ensures forall y :: y in r <==> y in v
    ensures |r| <= |v|
  {
    if v == [] then [] else InsertSorted(Unique(v[..|v| - 1]), v[|v| - 1])
  }

  /** In a strictly increasing sequence the head is below every other value. */
  lemma HeadOfSorted(a: seq<real>, y: real)
    requires StrictlyIncreasing(a) && a != []
    ensures y in a[1..] <==> y in a && y != a[0]
    ensures y in a ==> a[0] <= y
  {
    if y in a {
      var i :| 0 <= i < |a| && a[i] == y;
      if i > 0 { assert a[1..][i - 1] == y; }
    }
    if y in a[1..] {
      var i :| 0 <= i < |a[1..]| && a[1..][i] == y;
      assert a[i + 1] == y;
    }
  }

  lemma SameValuesSameEmptiness(a: seq<real>, b: seq<real>)
    requires forall y :: y in a <==> y in b
    ensures a == [] <==> b == []
  {
    if a != [] {
      var y := a[0];
      assert y in a;
      assert y in b;
    }
    if b != [] {
      var y := b[0];
      assert y in b;
      assert y in a;
    }
  }

  /** Two sorted sequences of distinct values holding the same values are equal. */
  lemma {:induction false} SortedDistinctDeterminedBySet(a: seq<real>, b: seq<real>)
    requires StrictlyIncreasing(a) && StrictlyIncreasing(b)
    requires forall y :: y in a <==> y in b
    ensures a == b
    decreases |a|
  {
    SameValuesSameEmptiness(a, b);
    if a != [] {
      HeadOfSorted(a, b[0]);
      HeadOfSorted(b, a[0]);
      assert a[0] in a && b[0] in b;
      assert a[0] == b[0];
      forall y ensures y in a[1..] <==> y in b[1..] {
        HeadOfSorted(a, y);
        HeadOfSorted(b, y);
      }
      assert StrictlyIncreasing(a[1..]) && StrictlyIncreasing(b[1..]);
      SortedDistinctDeterminedBySet(a[1..], b[1..]);
      assert a == [a[0]] + a[1..] && b == [b[0]] + b[1..];
    }
  }

  /**
   * `np.unique` depends on the values only, not on their order: in particular
   * `np.unique(np.sort(v)) == np.unique(v)`.
   */
  lemma UniqueIgnoresOrder(v: seq<real>, w: seq<real>)
    requires forall y :: y in v <==> y in w
    ensures Unique(v) == Unique(w)
  {
    SortedDistinctDeterminedBySet(Unique(v), Unique(w));
  }

  /** Python's `s[::step]` for a non-zero step. */
  function Stride(s: seq<real>, step: int): (r: seq<real>)
    requires step != 0
    decreases |s|, if step < 0 then 1 else 0
  {
    if step < 0 then Stride(Reverse(s), -step)
    else if s == [] then []
    else if step < |s| then [s[0]] + Stride(s[step..], step)
    else [s[0]]
  }

  function Reverse(s: seq<real>): (r: seq<real>)
    ensures |r| == |s|
    ensures forall i :: 0 <= i < |s| ==> r[i] == s[|s| - 1 - i]
  {
    if s == [] then [] else Reverse(s[1..]) + [s[0]]
  }

  /** Does the slice `[::step]` of a sequence of length `n` keep the entry at index `i`? */
  predicate SliceKeeps(i: nat, step: int, n: nat)
    requires step != 0
  {
    if step > 0 then i % step == 0 else (n - 1 - i) % (-step) == 0
  }

  lemma MulAtLeastOne(a: int, k: int)
    requires a >= 1 && k > 0
    ensures a * k >= k
  {
    assert a * k == (a - 1) * k + k;
    assert (a - 1) * k >= 0;
  }

  /** Euclidean division is determined by quotient and remainder. */
  lemma DivUnique(x: int, k: int, q: int, r: int)
    requires k > 0 && 0 <= r < k && x == q * k + r
    ensures x / k == q && x % k == r
  {
    var q', r' := x / k, x % k;
    assert x == q' * k + r';
    assert (q - q') * k == r' - r;
    if q > q' {
      MulAtLeastOne(q - q', k);
      assert false;
    } else if q < q' {
      MulAtLeastOne(q' - q, k);
      assert false;
    }
  }

  lemma ModShift(i: int, k: int)
    requires k > 0 && i >= k
    ensures (i - k) % k == i % k
  {
    var q, r := i / k, i % k;
    assert i - k == (q - 1) * k + r;
    DivUnique(i - k, k, q - 1, r);
  }

  /** Every value a slice keeps comes from the sliced sequence. */
  lemma {:induction false} StrideSubset(s: seq<real>, step: int)
    requires step > 0
    ensures forall y :: y in Stride(s, step) ==> y in s
    decreases |s|
  {
    if s != [] && step < |s| {
      StrideSubset(s[step..], step);
    }
  }

  ghost predicate Distinct(u: seq<real>)
  {
    forall i, j :: 0 <= i < j < |u| ==> u[i] != u[j]
  }

  /**
   * For distinct values, the value at index `i` survives `[::step]` (step > 0)
   * exactly when `i` is a multiple of the step.
   */
  lemma {:induction false} StrideKeepsMultiples(s: seq<real>, step: int, i: nat)
    requires Distinct(s)
    requires step > 0 && i < |s|
    ensures s[i] in Stride(s, step) <==> i % step == 0
    decreases |s|
  {
    if i == 0 {
    } else if step < |s| {
      var t := s[step..];
      assert Distinct(t);
      if i >= step {
        assert s[i] == t[i - step];
        StrideKeepsMultiples(t, step, i - step);
        ModShift(i, step);
        assert s[i] != s[0];
      } else {
        assert i % step == i;
        StrideSubset(t, step);
        forall j | 0 <= j < |t| ensures t[j] != s[i] {
          assert t[j] == s[j + step];
        }
        assert s[i] !in t;
      }
    } else {
      assert i % step == i;
    }
  }

  /**
   * For the sorted distinct values `np.unique` returns, the value at index `i`
   * survives `[::step]` exactly when the slice keeps index `i`, for either sign of step.
   */
  lemma StrideKeepsUnique(s: seq<real>, step: int, i: nat)
    requires StrictlyIncreasing(s)
    requires step != 0 && i < |s|
    ensures s[i] in Stride(s, step) <==> SliceKeeps(i, step, |s|)
  {
    if step > 0 {
      StrideKeepsMultiples(s, step, i);
    } else {
      var r := Reverse(s);
      assert r[|s| - 1 - i] == s[i];
      StrideKeepsMultiples(r, -step, |s| - 1 - i);
    }
  }

  /** ceil((m + step) / step) is one more than ceil(m / step). */
  lemma CeilStep(m: nat, step: int)
    requires step > 0
    ensures (m + step + step - 1) / step == (m + step - 1) / step + 1
  {
    var a := m + step - 1;
    DivUnique(a + step, step, a / step + 1, a % step);
  }

  /** The slice `[::step]` of `n` values keeps ceil(n / step) of them. */
  lemma {:induction false} StrideLength(s: seq<real>, step: int)
    requires step > 0
    ensures |Stride(s, step)| == (|s| + step - 1) / step
    decreases |s|
  {
    if s == [] {
      DivUnique(step - 1, step, 0, step - 1);
    } else if step < |s| {
      StrideLength(s[step..], step);
      CeilStep(|s| - step, step);
    } else {
      DivUnique(|s| + step - 1, step, 1, |s| - 1);
    }
  }
}

=== FILE: mogfiles.dfy ===
/**
 * The file handling of the MOG window: the gather name and data directory
 * that `load_file_MOG` derives from a path, and the air shots that
 * `airBefore` / `airAfter` attach to the selected gathers.
 *
 * Reading the instrument files is done by a reader that is not part of this
 * model: its outcome is a parameter (`None` when it raises). So is the answer
 * to the Tx-Rx distance dialog (`None` for Cancel), already parsed into numbers.
 */
module MogFiles {
  import opened Wrappers
  import opened Mogs
  import opened Paths
  import Coords

  // ---------------------------------------------------------------------
  // load_file_MOG

  /** Lines 55-60: the gather name, the file name stripped of its last four characters when it holds an extension. */
  function MogName(filename: string): (r: string)
    ensures '/' !in r
  {
    var rname := BaseName(filename);
    if HasRadarExtension(rname) then DropLast(rname, 4) else rname
  }

  /** A path `dir/stem.ext` with a radar extension, in any letter case, names the gather `stem`. */
  lemma MogNameOfRadarFile(dir: string, stem: string, ext: string)
    requires '/' !in stem && |ext| == 4 && Lower(ext) in {".rad", ".rd3", ".tlf"}
    ensures MogName(dir + "/" + stem + ext) == stem
  {
    assert '/' !in ext;
    var name := stem + ext;
    assert dir + "/" + stem + ext == dir + "/" + name;
    BaseNameOfPath(dir, name);
    assert Lower(name)[|stem|..|stem| + 4] == Lower(ext);
    assert OccursAt(Lower(name), Lower(ext), |stem|);
    assert name[..|name| - 4] == stem;
  }

  /** The directory parts of `basename`, each followed by a slash (the loop of lines 70-71). */
  function DirPrefix(basename: string): string
  {
    var parts := Split(basename);
    JoinDirs(parts[..|parts| - 1])
  }

  /** Lines 70-72 as written: the directory of `basename` is appended to the previous `data_rep`. */
  function DataRepAfter(previous: string, basename: string): string
  {
    DropLast(previous + DirPrefix(basename), 1)
  }

  /** The directory of `basename`: what `data_rep` is evidently meant to hold. */
  function DataRepIntended(basename: string): string
  {
    DropLast(DirPrefix(basename), 1)
  }

  /** A path with a directory has a non-empty directory prefix ending in a slash, and it is the path minus its file name. */
  lemma DirPrefixOfPath(basename: string)
    requires '/' in basename
    ensures var p := DirPrefix(basename);
      |p| > 0 && p[|p| - 1] == '/' && p + BaseName(basename) == basename
  {
    SplitJoin(basename);
  }

  /** As written, each load appends the new directory to the one before. */
  lemma DataRepAccumulates(previous: string, basename: string)
    requires '/' in basename
    ensures DataRepAfter(previous, basename) == previous + DataRepIntended(basename)
  {
    DirPrefixOfPath(basename);
    var p := DirPrefix(basename);
    assert (previous + p)[..|previous + p| - 1] == previous + p[..|p| - 1];
  }

  /** Loading two files of one directory, starting from "", leaves that directory written twice. */
  lemma SecondLoadDoublesDirectory(basename: string)
    requires '/' in basename
    ensures DataRepAfter(DataRepAfter("", basename), basename) == DataRepIntended(basename) + DataRepIntended(basename)
  {
    DataRepAccumulates("", basename);
    DataRepAccumulates(DataRepIntended(basename), basename);
    assert "" + DataRepIntended(basename) == DataRepIntended(basename);
  }

  /** The intended directory, a slash and the file name give the path back. */
  lemma DataRepIntendedRoundTrip(basename: string)
    requires '/' in basename
    ensures DataRepIntended(basename) + "/" + BaseName(basename) == basename
  {
    DirPrefixOfPath(basename);
    var p := DirPrefix(basename);
    assert p == p[..|p| - 1] + "/";
  }

  /** How `load_file_MOG` ends without an exception. */
  datatype LoadEnd = Loaded(mog: Mog) | WrongExtension

  /**
   * `load_file_MOG` up to the list update: a path without a radar extension
   * is refused (logged) with nothing changed; otherwise `data_rep` is
   * updated, the file is read from the path minus its last four characters,
   * and a new gather named `MogName(filename)` is appended.
   */
  method LoadFileMog(ui: MogUI, filename: string, read: Option<MogData>) returns (r: Result<LoadEnd, PyError>)
    modifies ui
    ensures ui.air == old(ui.air)
    ensures !HasRadarExtension(filename) ==>
      r == Ok(WrongExtension) && ui.mogs == old(ui.mogs) && ui.dataRep == old(ui.dataRep)
    ensures HasRadarExtension(filename) ==> ui.dataRep == DataRepAfter(old(ui.dataRep), DropLast(filename, 4))
    ensures HasRadarExtension(filename) && read.None? ==> r == Err(ReadError) && ui.mogs == old(ui.mogs)
    ensures HasRadarExtension(filename) && read.Some? ==>
      r.Ok? && r.value.Loaded? && fresh(r.value.mog) && r.value.mog.name == MogName(filename) &&
      r.value.mog.data == read.value && ui.mogs == old(ui.mogs) + [r.value.mog]
  {
    var rname := BaseName(filename);
    if HasRadarExtension(rname) {
      rname := DropLast(rname, 4);
    }
    if !HasRadarExtension(filename) {
      return Ok(WrongExtension);
    }
    UpdateDataRep(ui, DropLast(filename, 4));
    if read.None? {
      return Err(ReadError);
    }
    var mog := new Mog(rname, read.value);
    ui.mogs := ui.mogs + [mog];
    r := Ok(Loaded(mog));
  }

  /** Lines 70-72: the loop over the directory parts of `basename`, then the last character dropped. */
  method UpdateDataRep(ui: MogUI, basename: string)
    modifies ui`dataRep
    ensures ui.dataRep == DataRepAfter(old(ui.dataRep), basename)
  {
    var parts := Split(basename);
    var dirs := parts[..|parts| - 1];
    var i := 0;
    while i < |dirs|
      invariant 0 <= i <= |dirs|
      invariant ui.dataRep == old(ui.dataRep) + JoinDirs(dirs[..i])
    {
      assert dirs[..i + 1][..i] == dirs[..i];
      ui.dataRep := ui.dataRep + dirs[i] + "/";
      i := i + 1;
    }
    assert dirs[..i] == dirs;
    ui.dataRep := DropLast(ui.dataRep, 1);
  }

  // ---------------------------------------------------------------------
  // airBefore / airAfter

  /** `airBefore` sets the `av` of the selected gathers, `airAfter` their `ap`. */
  datatype AirSide = Before | After

  function RefOf(m: Mog, side: AirSide): Cell<AirRef>
    reads m
  {
    if side == Before then m.av else m.ap
  }

  function Other(side: AirSide): AirSide
  {
    if side == Before then After else Before
  }

  /** Lines 221-224 and 272-275: several distances must be one per trace of the air shot. */
  predicate DistancesConsistent(distances: seq<real>, ntrace: nat)
  {
    |distances| <= 1 || |distances| == ntrace
  }

  /** Lines 236-239 and 286-289: one distance is a fixed antenna, anything else a walkaway. */
  function AirMethodFor(distances: seq<real>): AirMethod
  {
    if |distances| == 1 then FixedAntenna else Walkaway
  }

  /**
   * A recorded air shot is fixed-antenna exactly when it has one distance;
   * a walkaway has one distance per trace, or none at all.
   */
  lemma AirMethodClassifies(distances: seq<real>, ntrace: nat)
    requires DistancesConsistent(distances, ntrace)
    ensures AirMethodFor(distances) == FixedAntenna <==> |distances| == 1
    ensures AirMethodFor(distances) == Walkaway ==> |distances| == ntrace || distances == []
  {
  }

  /** The index of the first air shot whose name contains `pattern`: the search of lines 193-198. */
  function FirstAirWith(air: seq<AirShots>, pattern: string): (r: Option<nat>)
    reads air
    ensures r.Some? ==> r.value < |air| && Contains(air[r.value].name, pattern) &&
                        forall j :: 0 <= j < r.value ==> !Contains(air[j].name, pattern)
    ensures r.None? ==> forall j :: 0 <= j < |air| ==> !Contains(air[j].name, pattern)
  {
    if air == [] then None
    else
      var head := FirstAirWith(air[..|air| - 1], pattern);
      if head.Some? then head
      else if Contains(air[|air| - 1].name, pattern) then Some(|air| - 1)
      else None
  }

  /** The fields an air shot read from `filename` gets (lines 225-239 and 277-289). */
  predicate FromFile(a: AirShots, filename: string, ntrace: nat, distances: seq<real>, side: AirSide)
    reads a
  {
    a.name == BaseName(filename) && a.ntrace == ntrace &&
    a.tt == Coords.Fill(-1.0, ntrace) && a.et == Coords.Fill(-1.0, ntrace) &&
    a.ttDone == Coords.Fill(false, ntrace) && a.dTxRx == distances && a.facDt == 1.0 &&
    a.inVect == (if side == Before then Some(Coords.Fill(true, ntrace)) else None) &&
    a.airMethod == AirMethodFor(distances)
  }

  /** `a` was recorded by a call whose reader and dialog answered `read` and `answer`. */
  predicate RecordedFrom(a: AirShots, filename: string, read: Option<nat>, answer: Option<seq<real>>, side: AirSide)
    reads a
  {
    Records(read, answer) && FromFile(a, filename, read.value, answer.value, side)
  }

  /** A new air shot is recorded: the file was read, the dialog accepted and the distances consistent. */
  predicate Records(read: Option<nat>, answer: Option<seq<real>>)
  {
    read.Some? && answer.Some? && DistancesConsistent(answer.value, read.value)
  }

  /** How one selected gather ends when no air shot matches and none is recorded. */
  function Halt(read: Option<nat>, answer: Option<seq<real>>, side: AirSide): Result<AirEnd, PyError>
  {
    if read.None? then (if side == Before then Ok(WrongFileType) else Err(ReadError))
    else if answer.None? then Ok(Completed)
    else Ok(InconsistentPositions)
  }

  /** The ends of the per-gather step: go on, or one of the two logged errors that stop the call. */
  datatype AirEnd = Completed | WrongFileType | InconsistentPositions

  /** Lines 225-239 and 277-289: a new air shot read from `filename`. */
  method NewAirShot(filename: string, ntrace: nat, distances: seq<real>, side: AirSide) returns (a: AirShots)
    ensures fresh(a) && FromFile(a, filename, ntrace, distances, side)
  {
    a := new AirShots(BaseName(filename));
    a.ntrace := ntrace;
    a.tt := Coords.Fill(-1.0, ntrace);
    a.et := Coords.Fill(-1.0, ntrace);
    a.ttDone := Coords.Fill(false, ntrace);
    a.dTxRx := distances;
    a.facDt := 1.0;
    if side == Before {
      a.inVect := Some(Coords.Fill(true, ntrace));
    }
    a.airMethod := AirMethodFor(distances);
  }

  /**
   * One selected gather `mog` of `airBefore` / `airAfter`: reuse the first air shot
   * whose name contains the path minus its last four characters, or read the
   * file, ask for the distances and record a new air shot at the end of the
   * list. `read` is the trace count of the file, or None when reading fails
   * (logged by `airBefore`, raised by `airAfter`).
   */
  method AirForRow(ui: MogUI, mog: Mog, filename: string, read: Option<nat>,
                   answer: Option<seq<real>>, side: AirSide) returns (r: Result<AirEnd, PyError>)
    modifies ui`air, mog`av, mog`ap
    ensures RefOf(mog, Other(side)) == old(RefOf(mog, Other(side)))
    ensures Grown(ui, filename, read, answer, side)
    ensures RefOf(mog, side) == old(RefOf(mog, side)) || PointsInto(RefOf(mog, side), |ui.air|)
    ensures r.Ok? || r == Err(ReadError)
    ensures Records(read, answer) ==>
      r == Ok(Completed) && Attached(ui, mog, side, DropLast(filename, 4), |old(ui.air)|)
    ensures RowOutcome(ui, mog, filename, read, answer, side, r)
    ensures var found := FirstAirWith(old(ui.air), DropLast(filename, 4));
      (found.Some? ==>
        r == Ok(Completed) && ui.air == old(ui.air) && RefOf(mog, side) == One(AirShotAt(found.value))) &&
      (found.None? && !Records(read, answer) ==>
        r == Halt(read, answer, side) && ui.air == old(ui.air) &&
        RefOf(mog, side) == old(RefOf(mog, side))) &&
      (found.None? && Records(read, answer) ==>
        var n := |old(ui.air)|;
        r == Ok(Completed) && |ui.air| == n + 1 && ui.air[..n] == old(ui.air) && fresh(ui.air[n]) &&
        FromFile(ui.air[n], filename, read.value, answer.value, side) &&
        RefOf(mog, side) == One(AirShotAt(n)))
  {
    var found := FindAir(ui.air, DropLast(filename, 4));
    if found.Some? {
      SetRef(mog, side, found.value);
      return Ok(Completed);
    }
    if !Records(read, answer) {
      return Halt(read, answer, side);
    }
    var shot := NewAirShot(filename, read.value, answer.value, side);
    ui.air := ui.air + [shot];
    SetRef(mog, side, |ui.air| - 1);
    r := Ok(Completed);
  }

  /** The search of lines 193-198 (and 257-260), written as the loop it is. */
  method FindAir(air: seq<AirShots>, pattern: string) returns (found: Option<nat>)
    ensures found == FirstAirWith(air, pattern)
  {
    var n := 0;
    while n < |air|
      invariant 0 <= n <= |air|
      invariant FirstAirWith(air[..n], pattern) == None
    {
      assert air[..n + 1][..n] == air[..n];
      if Contains(air[n].name, pattern) {
        assert FirstAirWith(air[..n + 1], pattern) == Some(n);
        FirstAirPrefix(air, pattern, n + 1);
        return Some(n);
      }
      n := n + 1;
    }
    assert air[..n] == air;
    return None;
  }

  /** `self.MOGs[n].av = i` (side Before) or `self.MOGs[n].ap = i` (side After). */
  method SetRef(mog: Mog, side: AirSide, index: nat)
    modifies mog`av, mog`ap
    ensures RefOf(mog, side) == One(AirShotAt(index))
    ensures RefOf(mog, Other(side)) == old(RefOf(mog, Other(side)))
  {
    if side == Before { mog.av := One(AirShotAt(index)); } else { mog.ap := One(AirShotAt(index)); }
  }

  /**
   * How one selected gather ends, by the search in the list as it was before
   * its step: the first match is referenced; with no match and nothing
   * recorded the gather halts unchanged; otherwise one air shot is appended
   * and referenced.
   */
  twostate predicate RowOutcome(ui: MogUI, mog: Mog, filename: string, read: Option<nat>,
                                answer: Option<seq<real>>, side: AirSide, r: Result<AirEnd, PyError>)
    reads ui, mog
  {
    var found := old(FirstAirWith(ui.air, DropLast(filename, 4)));
    var n := |old(ui.air)|;
    (found.Some? ==>
      r == Ok(Completed) && ui.air == old(ui.air) && RefOf(mog, side) == One(AirShotAt(found.value))) &&
    (found.None? && !Records(read, answer) ==>
      r == Halt(read, answer, side) && ui.air == old(ui.air) && RefOf(mog, side) == old(RefOf(mog, side))) &&
    (found.None? && Records(read, answer) ==>
      r == Ok(Completed) && |ui.air| == n + 1 && ui.air[..n] == old(ui.air) && RefOf(mog, side) == One(AirShotAt(n)))
  }

  /** `ref` holds the index of an air shot of a list of `n`. */
  predicate PointsInto(ref: Cell<AirRef>, n: nat)
  {
    ref.One? && ref.v.AirShotAt? && ref.v.index < n
  }

  /**
   * The air-shot list only grew, by at most one air shot, and a new one is
   * fresh and read from `filename`.
   */
  twostate predicate Grown(ui: MogUI, filename: string, read: Option<nat>, answer: Option<seq<real>>, side: AirSide)
    reads ui, ui.air
  {
    var n := |old(ui.air)|;
    n <= |ui.air| <= n + 1 && ui.air[..n] == old(ui.air) &&
    (|ui.air| > n ==> fresh(ui.air[n]) && RecordedFrom(ui.air[n], filename, read, answer, side))
  }

  /** A match found in a prefix is the first match of the whole list. */
  lemma FirstAirPrefix(air: seq<AirShots>, pattern: string, k: nat)
    requires k <= |air| && FirstAirWith(air[..k], pattern).Some?
    ensures FirstAirWith(air, pattern) == FirstAirWith(air[..k], pattern)
  {
  }

  /**
   * The gather's reference points at an air shot that either was in the list
   * before the call and has `pattern` in its name, or was recorded by the call.
   */
  predicate Attached(ui: MogUI, m: Mog, side: AirSide, pattern: string, before: nat)
    reads ui, m, ui.air
  {
    match RefOf(m, side)
    case One(AirShotAt(k)) => k < |ui.air| && (k < before ==> Contains(ui.air[k].name, pattern))
    case _ => false
  }

  /** Every air shot from index `from` on was read from `filename` with the dialog's distances. */
  predicate ShotsFromFile(ui: MogUI, from: nat, filename: string, read: Option<nat>,
                          answer: Option<seq<real>>, side: AirSide)
    reads ui, ui.air
  {
    forall k :: from <= k < |ui.air| ==> RecordedFrom(ui.air[k], filename, read, answer, side)
  }

  /** `AirForRow`, keeping the air shots recorded from `before` on as they were. */
  method RowKeepsShots(ui: MogUI, mog: Mog, filename: string, read: Option<nat>,
                       answer: Option<seq<real>>, side: AirSide, ghost before: nat) returns (r: Result<AirEnd, PyError>)
    requires before <= |ui.air| && ShotsFromFile(ui, before, filename, read, answer, side)
    modifies ui`air, mog`av, mog`ap
    ensures RefOf(mog, Other(side)) == old(RefOf(mog, Other(side)))
    ensures |old(ui.air)| <= |ui.air| && ui.air[..|old(ui.air)|] == old(ui.air)
    ensures ShotsFromFile(ui, before, filename, read, answer, side)
    ensures r.Ok? || r == Err(ReadError)
    ensures Records(read, answer) ==>
      r == Ok(Completed) && Attached(ui, mog, side, DropLast(filename, 4), |old(ui.air)|)
    ensures RowOutcome(ui, mog, filename, read, answer, side, r)
  {
    r := AirForRow(ui, mog, filename, read, answer, side);
    ghost var n := |old(ui.air)|;
    forall k | before <= k < n
      ensures RecordedFrom(ui.air[k], filename, read, answer, side)
    {
      var a := old(ui.air)[k];
      assert ui.air[k] == ui.air[..n][k] == a;
      assert old(RecordedFrom(a, filename, read, answer, side));
    }
  }

  /** The last of the first `i` selected rows that holds the same gather as row `k`. */
  function LastSame(mogs: seq<Mog>, rows: seq<nat>, i: nat, k: nat): (r: nat)
    requires k < i <= |rows| && forall j :: 0 <= j < |rows| ==> rows[j] < |mogs|
    ensures k <= r < i && mogs[rows[r]] == mogs[rows[k]]
    ensures forall j :: r < j < i ==> mogs[rows[j]] != mogs[rows[k]]
    decreases i
  {
    if mogs[rows[i - 1]] == mogs[rows[k]] then i - 1 else LastSame(mogs, rows, i - 1, k)
  }

  /**
   * The air shot a selected gather ends up referencing, when `j` is the last
   * row that handled it, in a call that began with `n` air shots and whose
   * first search found `found`: that match; else, when the recorded air
   * shot's name holds the pattern, the one air shot recorded at `n`; else the
   * air shot that row `j` recorded, at `n + j`.
   */
  function Target(found: Option<nat>, again: bool, n: nat, j: nat): nat
  {
    if found.Some? then found.value else if again then n else n + j
  }

  /** How many air shots the first `i` selected gathers have recorded, in the same cases. */
  function Added(found: Option<nat>, again: bool, i: nat): nat
  {
    if found.Some? || i == 0 then 0 else if again then 1 else i
  }

  /** The search pattern occurs in the name an air shot read from `filename` gets. */
  predicate Again(filename: string)
  {
    Contains(BaseName(filename), DropLast(filename, 4))
  }

  /** Each of the first `i` selected gathers references its `Target`. */
  predicate RefsTo(ui: MogUI, rows: seq<nat>, i: nat, side: AirSide, found: Option<nat>, again: bool, n: nat)
    requires i <= |rows| && forall k :: 0 <= k < |rows| ==> rows[k] < |ui.mogs|
    reads ui, ui.mogs
  {
    forall k {:trigger LastSame(ui.mogs, rows, i, k)} :: 0 <= k < i ==>
      RefOf(ui.mogs[rows[k]], side) == One(AirShotAt(Target(found, again, n, LastSame(ui.mogs, rows, i, k))))
  }

  /**
   * How long the air-shot list is after the first `i` selected gathers, in a
   * call that began with the list `air0` and whose first search found `found`.
   */
  predicate Counted(ui: MogUI, i: nat, filename: string, read: Option<nat>, answer: Option<seq<real>>,
                    side: AirSide, air0: seq<AirShots>, found: Option<nat>)
    reads ui
  {
    (found.Some? || Records(read, answer) ==> |ui.air| == |air0| + Added(found, Again(filename), i)) &&
    (found.None? && !Records(read, answer) ==> ui.air == air0 && (i > 0 ==> Halt(read, answer, side) == Ok(Completed)))
  }

  /**
   * Where the call stands after its first `i` selected gathers: the list's
   * length and, when anything is referenced, each gather's `Target`.
   */
  predicate Phase(ui: MogUI, rows: seq<nat>, i: nat, side: AirSide, filename: string, read: Option<nat>,
                  answer: Option<seq<real>>, air0: seq<AirShots>, found: Option<nat>)
    requires i <= |rows| && forall k :: 0 <= k < |rows| ==> rows[k] < |ui.mogs|
    reads ui, ui.mogs
  {
    Counted(ui, i, filename, read, answer, side, air0, found) &&
    (found.Some? || Records(read, answer) ==> RefsTo(ui, rows, i, side, found, Again(filename), |air0|))
  }

  /** The gathers selected by `rows`. */
  function Selected(mogs: seq<Mog>, rows: seq<nat>): (r: set<Mog>)
    ensures forall k :: 0 <= k < |rows| && rows[k] < |mogs| ==> mogs[rows[k]] in r
  {
    set k | 0 <= k < |rows| && rows[k] < |mogs| :: mogs[rows[k]]
  }

  /** Every gather of `mogs` outside `selected` has both air-shot references as before. */
  twostate predicate RefsKept(mogs: seq<Mog>, selected: set<Mog>)
    reads mogs
  {
    forall m :: m in mogs && m !in selected ==> m.av == old(m.av) && m.ap == old(m.ap)
  }

  /**
   * Every gather of `mogs` has its reference on the other side as before, and
   * on `side` too unless it is in `selected` and `moved` holds.
   */
  twostate predicate SideKept(mogs: seq<Mog>, selected: set<Mog>, side: AirSide, moved: bool)
    reads mogs
  {
    forall m {:trigger m in mogs} :: m in mogs ==>
      RefOf(m, Other(side)) == old(RefOf(m, Other(side))) &&
      (m !in selected || !moved ==> RefOf(m, side) == old(RefOf(m, side)))
  }

  /**
   * `RowKeepsShots` for row `i`, carrying `Counted` from `i` to `i + 1`: the
   * gather references its `Target` when the first search found a match or a
   * new air shot can be recorded, and is left alone otherwise.
   */
  method RecordStep(ui: MogUI, mog: Mog, i: nat, filename: string, read: Option<nat>,
                    answer: Option<seq<real>>, side: AirSide, ghost air0: seq<AirShots>, ghost found: Option<nat>)
    returns (r: Result<AirEnd, PyError>)
    requires |air0| <= |ui.air| && ui.air[..|air0|] == air0 && found == FirstAirWith(air0, DropLast(filename, 4))
    requires ShotsFromFile(ui, |air0|, filename, read, answer, side)
    requires Counted(ui, i, filename, read, answer, side, air0, found)
    modifies ui`air, mog`av, mog`ap
    ensures |old(ui.air)| <= |ui.air| && ui.air[..|old(ui.air)|] == old(ui.air)
    ensures ShotsFromFile(ui, |air0|, filename, read, answer, side)
    ensures r.Ok? || r == Err(ReadError)
    ensures RefOf(mog, Other(side)) == old(RefOf(mog, Other(side)))
    ensures found.Some? || Records(read, answer) ==>
      r == Ok(Completed) && RefOf(mog, side) == One(AirShotAt(Target(found, Again(filename), |air0|, i)))
    ensures found.None? && !Records(read, answer) ==>
      r == Halt(read, answer, side) && ui.air == old(ui.air) && RefOf(mog, side) == old(RefOf(mog, side))
    ensures r == Ok(Completed) ==> Counted(ui, i + 1, filename, read, answer, side, air0, found)
  {
    var pattern := DropLast(filename, 4);
    if found.None? && Records(read, answer) {
      assert forall k :: |air0| <= k < |ui.air| ==> ui.air[k].name == BaseName(filename);
      SearchAfterRecording(ui.air, air0, pattern, BaseName(filename));
    } else if found.Some? {
      assert ui.air == air0;
    }
    r := RowKeepsShots(ui, mog, filename, read, answer, side, |air0|);
  }

  /**
   * The state of `AirShotsFor` after its first `i` selected gathers, with
   * the result `r` so far: the list still begins with `air0`, every air shot
   * added since was read from the chosen file, and either the call goes on
   * in `Phase`, or its first gather stopped it and nothing was added.
   */
  predicate Stage(ui: MogUI, rows: seq<nat>, i: nat, r: Result<AirEnd, PyError>, filename: string, read: Option<nat>,
                  answer: Option<seq<real>>, side: AirSide, air0: seq<AirShots>, found: Option<nat>)
    requires i <= |rows| && forall k :: 0 <= k < |rows| ==> rows[k] < |ui.mogs|
    reads ui, ui.air, ui.mogs
  {
    |air0| <= |ui.air| && ui.air[..|air0|] == air0 && found == FirstAirWith(air0, DropLast(filename, 4)) &&
    ShotsFromFile(ui, |air0|, filename, read, answer, side) && (r.Ok? || r == Err(ReadError)) &&
    (r == Ok(Completed) ==> Phase(ui, rows, i, side, filename, read, answer, air0, found)) &&
    (r != Ok(Completed) ==> found.None? && !Records(read, answer) && r == Halt(read, answer, side) && ui.air == air0)
  }

  /**
   * `RecordStep`, carrying `Stage` from the first `i` selected gathers to the
   * first `i + 1`; the gather's reference on the other side is kept, and so
   * is the one on `side` when nothing is found or recorded.
   */
  method PhaseStep(ui: MogUI, mog: Mog, rows: seq<nat>, i: nat, filename: string, read: Option<nat>,
                   answer: Option<seq<real>>, side: AirSide, ghost air0: seq<AirShots>, ghost found: Option<nat>)
    returns (r: Result<AirEnd, PyError>)
    requires i < |rows| && (forall k :: 0 <= k < |rows| ==> rows[k] < |ui.mogs|) && mog == ui.mogs[rows[i]]
    requires Stage(ui, rows, i, Ok(Completed), filename, read, answer, side, air0, found)
    modifies ui`air, mog`av, mog`ap
    ensures Stage(ui, rows, i + 1, r, filename, read, answer, side, air0, found)
    ensures RefOf(mog, Other(side)) == old(RefOf(mog, Other(side)))
    ensures found.None? && !Records(read, answer) ==> RefOf(mog, side) == old(RefOf(mog, side))
  {
    ghost var air := ui.air;
    r := RecordStep(ui, mog, i, filename, read, answer, side, air0, found);
    assert ui.air[..|air0|] == ui.air[..|air|][..|air0|];
    if found.Some? || Records(read, answer) {
      var again := Again(filename);
      var n := |air0|;
      forall k | 0 <= k < i + 1
        ensures RefOf(ui.mogs[rows[k]], side) == One(AirShotAt(Target(found, again, n, LastSame(ui.mogs, rows, i + 1, k))))
      {
        var m := ui.mogs[rows[k]];
        if m == mog {
          assert LastSame(ui.mogs, rows, i + 1, k) == i;
        } else {
          assert LastSame(ui.mogs, rows, i + 1, k) == LastSame(ui.mogs, rows, i, k);
          assert RefOf(m, side) == old(RefOf(m, side));
          assert old(RefOf(ui.mogs[rows[k]], side)) == One(AirShotAt(Target(found, again, n, LastSame(ui.mogs, rows, i, k))));
        }
      }
    }
  }

  /**
   * `airBefore` (side Before) and `airAfter` (side After) with the selected
   * rows, the chosen file ("" when the file dialog is cancelled) and the
   * reader's and the distance dialog's outcomes. The gathers are handled in
   * order until one of them stops the call. Air shots are only ever appended,
   * each new one read from the chosen file. When the first search finds a
   * match or a new air shot can be recorded, every selected gather ends up
   * referencing its `Target`; otherwise nothing changes and the call ends as
   * its first gather does.
   */
  method AirShotsFor(ui: MogUI, rows: seq<nat>, filename: string, read: Option<nat>,
                     answer: Option<seq<real>>, side: AirSide) returns (r: Result<AirEnd, PyError>)
    requires forall k :: 0 <= k < |rows| ==> rows[k] < |ui.mogs|
    modifies ui`air, ui.mogs`av, ui.mogs`ap
    ensures filename == "" ==> r == Ok(Completed) && ui.air == old(ui.air) && RefsKept(ui.mogs, {})
    ensures forall m :: m in ui.mogs ==> RefOf(m, Other(side)) == old(RefOf(m, Other(side)))
    ensures RefsKept(ui.mogs, Selected(ui.mogs, rows))
    ensures |old(ui.air)| <= |ui.air| && ui.air[..|old(ui.air)|] == old(ui.air)
    ensures ShotsFromFile(ui, |old(ui.air)|, filename, read, answer, side)
    ensures r.Ok? || r == Err(ReadError)
    ensures var found := old(FirstAirWith(ui.air, DropLast(filename, 4)));
      filename != "" && (found.Some? || Records(read, answer)) ==>
        r == Ok(Completed) && |ui.air| == |old(ui.air)| + Added(found, Again(filename), |rows|) &&
        RefsTo(ui, rows, |rows|, side, found, Again(filename), |old(ui.air)|)
    ensures var found := old(FirstAirWith(ui.air, DropLast(filename, 4)));
      filename != "" && found.None? && !Records(read, answer) ==>
        r == (if rows == [] then Ok(Completed) else Halt(read, answer, side)) &&
        ui.air == old(ui.air) && RefsKept(ui.mogs, {})
  {
    if filename == "" {
      return Ok(Completed);
    }
    r := AirRows(ui, rows, filename, read, answer, side);
    if r == Ok(Completed) {
      assert Counted(ui, |rows|, filename, read, answer, side, old(ui.air), old(FirstAirWith(ui.air, DropLast(filename, 4))));
    }
  }

  /**
   * The loop of `AirShotsFor` over the selected rows: it ends in `Stage`
   * with every row handled, unless a row stopped it, and only the selected
   * gathers' references on `side` may change.
   */
  method AirRows(ui: MogUI, rows: seq<nat>, filename: string, read: Option<nat>,
                 answer: Option<seq<real>>, side: AirSide) returns (r: Result<AirEnd, PyError>)
    requires forall k :: 0 <= k < |rows| ==> rows[k] < |ui.mogs|
    modifies ui`air, ui.mogs`av, ui.mogs`ap
    ensures r != Ok(Completed) ==> rows != []
    ensures Stage(ui, rows, |rows|, r, filename, read, answer, side, old(ui.air), old(FirstAirWith(ui.air, DropLast(filename, 4))))
    ensures SideKept(ui.mogs, Selected(ui.mogs, rows), side,
                     old(FirstAirWith(ui.air, DropLast(filename, 4))).Some? || Records(read, answer))
  {
    ghost var found := FirstAirWith(ui.air, DropLast(filename, 4));
    ghost var selected := Selected(ui.mogs, rows);
    r := Ok(Completed);
    var i := 0;
    while i < |rows| && r == Ok(Completed)
      invariant 0 <= i <= |rows| && (r != Ok(Completed) ==> i > 0)
      invariant Stage(ui, rows, i, r, filename, read, answer, side, old(ui.air), found)
      invariant SideKept(ui.mogs, selected, side, found.Some? || Records(read, answer))
    {
      var mog := ui.mogs[rows[i]];
      assert mog in selected;
      r := PhaseStep(ui, mog, rows, i, filename, read, answer, side, old(ui.air), found);
      i := i + 1;
    }
  }

  /**
   * The search of a step, when the list is the one the call began with (which
   * holds no match) followed by air shots named `name`: with one such shot
   * whose name matches, the search finds it; when `name` does not match, the
   * search finds nothing.
   */
  lemma SearchAfterRecording(air: seq<AirShots>, air0: seq<AirShots>, pattern: string, name: string)
    requires |air0| <= |air| && air[..|air0|] == air0 && FirstAirWith(air0, pattern).None?
    requires forall k :: |air0| <= k < |air| ==> air[k].name == name
    ensures Contains(name, pattern) && |air| == |air0| + 1 ==> FirstAirWith(air, pattern) == Some(|air0|)
    ensures !Contains(name, pattern) ==> FirstAirWith(air, pattern) == None
  {
    if Contains(name, pattern) && |air| == |air0| + 1 {
      assert air[..|air| - 1] == air0;
    } else if !Contains(name, pattern) {
      forall j | 0 <= j < |air|
        ensures !Contains(air[j].name, pattern)
      {
        if j < |air0| {
          assert air[j] == air0[j];
        }
      }
    }
  }

  // ---------------------------------------------------------------------
  // The search for an existing air shot

  /** A pattern that holds a slash occurs only in strings that hold one. */
  lemma ContainsSlash(s: string, pat: string)
    requires Contains(s, pat) && '/' in pat
    ensures '/' in s
  {
    var i :| 0 <= i <= |s| - |pat| && OccursAt(s, pat, i);
    var j :| 0 <= j < |pat| && pat[j] == '/';
    assert s[i..i + |pat|][j] == s[i + j];
  }

  /**
   * As written, the search pattern is the whole path minus four characters,
   * while air shots are named by the file name alone: when the path has a
   * directory, the air shot just recorded from that very file is not found,
   * and the next call for the same file records it again.
   */
  lemma SearchMissesRecorded(air: seq<AirShots>, shot: AirShots, filename: string)
    requires '/' in DropLast(filename, 4)
    requires forall k :: 0 <= k < |air| ==> '/' !in air[k].name
    requires shot.name == BaseName(filename)
    ensures FirstAirWith(air + [shot], DropLast(filename, 4)) == None
  {
    var all := air + [shot];
    forall k | 0 <= k < |all|
      ensures !Contains(all[k].name, DropLast(filename, 4))
    {
      assert '/' !in all[k].name;
      if Contains(all[k].name, DropLast(filename, 4)) {
        ContainsSlash(all[k].name, DropLast(filename, 4));
      }
    }
  }

  /** The evidently intended pattern: the file name minus its extension. */
  function IntendedPattern(filename: string): (r: string)
    ensures '/' !in r
  {
    DropLast(BaseName(filename), 4)
  }

  /** A file name holds itself minus its last four characters. */
  lemma ContainsStem(name: string)
    ensures Contains(name, DropLast(name, 4))
  {
    assert OccursAt(name, DropLast(name, 4), 0);
  }

  /** With the intended pattern, the air shot recorded from a file is found by the next search for that file. */
  lemma IntendedSearchFindsRecorded(air: seq<AirShots>, shot: AirShots, filename: string)
    requires shot.name == BaseName(filename)
    ensures FirstAirWith(air + [shot], IntendedPattern(filename)).Some?
  {
    var all := air + [shot];
    ContainsStem(shot.name);
    assert all[|all| - 1] == shot;
  }
}

=== FILE: mogs.dfy ===
/**
 * The records the MOG window works on: the raw data of a multi-offset gather
 * (`MogData`), the gather itself (`Mog`), an air shot (`AirShots`) and the
 * window's own lists of gathers and air shots (`MogUI`).
 *
 * A merged gather stores each copied field as the two-element numpy array
 * `[ref.field, merging.field]`; `Cell` is that shape: a single value, or a
 * pair of cells.
 */
module Mogs {
  import opened Wrappers
  import BoreholeModel

  datatype Cell<T> = One(v: T) | Pair(first: Cell<T>, second: Cell<T>)

  /**
   * The air-shot reference `av` / `ap` of a gather: the empty string of a
   * gather without air shot, or the index of an air shot in `MogUI.air`.
   */
  datatype AirRef = NoAirShot | AirShotAt(index: nat)

  /** How the Tx-Rx distances of an air shot were given. */
  datatype AirMethod = FixedAntenna | Walkaway

  /** The instrument data of a gather: trace count, station coordinates, antenna offsets. */
  class MogData {
    var ntrace: nat
    var txX: seq<real>
    var txY: seq<real>
    var txZ: seq<real>
    var rxX: seq<real>
    var rxY: seq<real>
    var rxZ: seq<real>
    var txOffset: real
    var rxOffset: real
    var csurvmod: string

    constructor (ntrace: nat, txZ: seq<real>, rxZ: seq<real>, txOffset: real, rxOffset: real)
      ensures this.ntrace == ntrace && this.txZ == txZ && this.rxZ == rxZ
      ensures this.txOffset == txOffset && this.rxOffset == rxOffset
      ensures txX == [] && txY == [] && rxX == [] && rxY == [] && csurvmod == ""
    {
      this.ntrace := ntrace;
      this.txZ := txZ;
      this.rxZ := rxZ;
      this.txOffset := txOffset;
      this.rxOffset := rxOffset;
      txX, txY, rxX, rxY := [], [], [], [];
      csurvmod := "";
    }
  }

  /** A multi-offset gather: its data, its boreholes, its picks and its selection vectors. */
  class Mog {
    var name: string
    var id: nat
    var data: MogData
    var tx: Option<BoreholeModel.Borehole>
    var rx: Option<BoreholeModel.Borehole>
    var av: Cell<AirRef>
    var ap: Cell<AirRef>
    var kind: Cell<int>                  // the `type` attribute
    var facDt: Cell<real>
    var tt: Cell<seq<real>>              // travel times, -1 where not picked
    var et: Cell<seq<real>>
    var ttDone: Cell<seq<bool>>
    var txZOrig: Cell<seq<real>>
    var rxZOrig: Cell<seq<real>>
    var inVect: Cell<seq<bool>>
    var inTxVect: Cell<seq<bool>>
    var inRxVect: Cell<seq<bool>>
    var txCosDir: seq<BoreholeModel.Point3>
    var rxCosDir: seq<BoreholeModel.Point3>

    /**
     * `Mog(name, data)`: a gather without boreholes, air shots or picks.
     * mog.py, which defines the class, is not part of this model. These
     * defaults are assumed: id 0, type 1, fac_dt 1.0, no air shot before or
     * after, and empty picks, masks and original depths.
     */
    constructor (name: string, data: MogData)
      ensures this.name == name && this.data == data && id == 0
      ensures tx == None && rx == None
      ensures av == One(NoAirShot) && ap == One(NoAirShot) && kind == One(1) && facDt == One(1.0)
      ensures tt == One([]) && et == One([]) && ttDone == One([])
      ensures txZOrig == One([]) && rxZOrig == One([])
      ensures inVect == One([]) && inTxVect == One([]) && inRxVect == One([])
      ensures txCosDir == [] && rxCosDir == []
    {
      this.name := name;
      this.data := data;
      id := 0;
      tx, rx := None, None;
      av, ap := One(NoAirShot), One(NoAirShot);
      kind := One(1);
      facDt := One(1.0);
      tt, et, ttDone := One([]), One([]), One([]);
      txZOrig, rxZOrig := One([]), One([]);
      inVect, inTxVect, inRxVect := One([]), One([]), One([]);
      txCosDir, rxCosDir := [], [];
    }

    /**
     * `Mog(name, ref.data)` followed by the assignments of `doMerge`: every
     * copied field the two-element array of the reference's and the merged
     * gather's values, the boreholes those of the reference.
     */
    constructor Merged(name: string, ref: Mog, merging: Mog)
      ensures this.name == name && data == ref.data && id == 0 && tx == ref.tx && rx == ref.rx
      ensures av == Pair(ref.av, merging.av) && ap == Pair(ref.ap, merging.ap)
      ensures kind == Pair(ref.kind, merging.kind) && facDt == Pair(ref.facDt, merging.facDt)
      ensures tt == Pair(ref.tt, merging.tt) && et == Pair(ref.et, merging.et)
      ensures ttDone == Pair(ref.ttDone, merging.ttDone)
      ensures txZOrig == Pair(ref.txZOrig, merging.txZOrig) && rxZOrig == Pair(ref.rxZOrig, merging.rxZOrig)
      ensures inVect == Pair(ref.inVect, merging.inVect)
      ensures inTxVect == Pair(ref.inTxVect, merging.inTxVect) && inRxVect == Pair(ref.inRxVect, merging.inRxVect)
      ensures txCosDir == [] && rxCosDir == []
    {
      this.name := name;
      data := ref.data;
      id := 0;
      tx, rx := ref.tx, ref.rx;
      av, ap := Pair(ref.av, merging.av), Pair(ref.ap, merging.ap);
      kind := Pair(ref.kind, merging.kind);
      facDt := Pair(ref.facDt, merging.facDt);
      tt, et := Pair(ref.tt, merging.tt), Pair(ref.et, merging.et);
      ttDone := Pair(ref.ttDone, merging.ttDone);
      txZOrig, rxZOrig := Pair(ref.txZOrig, merging.txZOrig), Pair(ref.rxZOrig, merging.rxZOrig);
      inVect := Pair(ref.inVect, merging.inVect);
      inTxVect, inRxVect := Pair(ref.inTxVect, merging.inTxVect), Pair(ref.inRxVect, merging.inRxVect);
      txCosDir, rxCosDir := [], [];
    }
  }

  /** An air shot: a calibration gather recorded in air. */
  class AirShots {
    var name: string
    var ntrace: nat
    var tt: seq<real>
    var et: seq<real>
    var ttDone: seq<bool>
    var dTxRx: seq<real>
    var facDt: real
    var inVect: Option<seq<bool>>   // set by airBefore only
    var airMethod: AirMethod

    constructor (name: string)
      ensures this.name == name && ntrace == 0 && tt == [] && et == [] && ttDone == []
      ensures dTxRx == [] && facDt == 1.0 && inVect == None && airMethod == FixedAntenna
    {
      this.name := name;
      ntrace := 0;
      tt, et, ttDone, dTxRx := [], [], [], [];
      facDt := 1.0;
      inVect := None;
      airMethod := FixedAntenna;
    }
  }

  /** The MOG window's state: its list of gathers, its list of air shots, its data directory. */
  class MogUI {
    var mogs: seq<Mog>
    var air: seq<AirShots>
    var dataRep: string

    constructor ()
      ensures mogs == [] && air == [] && dataRep == ""
    {
      mogs, air, dataRep := [], [], "";
    }
  }

  /** Python's `s[k]` for an int `k`: negative indices count from the end. */
  function PyIndex<T>(s: seq<T>, k: int): (r: Result<T, PyError>)
    ensures r.Ok? <==> -|s| <= k < |s|
    ensures 0 <= k < |s| ==> r == Ok(s[k])
    ensures -|s| <= k < 0 ==> r == Ok(s[|s| + k])
  {
    if 0 <= k < |s| then Ok(s[k])
    else if -|s| <= k < 0 then Ok(s[|s| + k])
    else Err(IndexError)
  }
}

=== FILE: paths.dfy ===
/**
 * The string operations of the MOG window's file handling: `str.split('/')`,
 * `'/'.join`, `str.lower()` on ASCII letters, the substring test `in` and the
 * slice `s[:-k]`.
 */
module Paths {

  /** `s[:-k]` for `k > 0`: all but the last `k` characters, or "" when there are fewer. */
  function DropLast(s: string, k: nat): (r: string)
    ensures |s| >= k ==> r == s[..|s| - k]
    ensures |s| < k ==> r == ""
  {
    if |s| >= k then s[..|s| - k] else ""
  }

  function LowerChar(c: char): char
  {
    if 'A' <= c <= 'Z' then (c as int + 32) as char else c
  }

  /** `s.lower()` for ASCII letters. */
  function Lower(s: string): (r: string)
    ensures |r| == |s| && forall i :: 0 <= i < |s| ==> r[i] == LowerChar(s[i])
  {
    seq(|s|, i requires 0 <= i < |s| => LowerChar(s[i]))
  }

  /** `pat` occurs in `s` at position `i`. */
  predicate OccursAt(s: string, pat: string, i: int)
  {
    0 <= i <= |s| - |pat| && s[i..i + |pat|] == pat
  }

  /** `pat in s` for strings. */
  predicate Contains(s: string, pat: string)
  {
    exists i :: 0 <= i <= |s| - |pat| && OccursAt(s, pat, i)
  }

  /** Lines 59 and 63: `".rad" in s or ".rd3" in s or ".tlf" in s`, after lower-casing. */
  predicate HasRadarExtension(s: string)
  {
    var l := Lower(s);
    Contains(l, ".rad") || Contains(l, ".rd3") || Contains(l, ".tlf")
  }

  /** The parts before the last, each followed by a slash: `''.join(p + '/' for p in parts)`. */
  function JoinDirs(parts: seq<string>): (r: string)
    ensures parts != [] ==> |r| > 0 && r[|r| - 1] == '/'
  {
    if parts == [] then "" else JoinDirs(parts[..|parts| - 1]) + parts[|parts| - 1] + "/"
  }

  /** `'/'.join(parts)`. */
  function Join(parts: seq<string>): string
    requires |parts| >= 1
  {
    JoinDirs(parts[..|parts| - 1]) + parts[|parts| - 1]
  }

  /** `s.split('/')`: at least one part, and no part holds a slash. */
  function Split(s: string): (r: seq<string>)
    ensures |r| >= 1
    ensures forall k :: 0 <= k < |r| ==> '/' !in r[k]
  {
    if s == [] then [""] else Extend(Split(s[..|s| - 1]), s[|s| - 1])
  }

  /** The parts of `s + [c]` from the parts of `s`: a slash starts a new part, any other character extends the last. */
  function Extend(parts: seq<string>, c: char): (r: seq<string>)
    requires |parts| >= 1
    ensures |r| >= 1
    ensures (forall k :: 0 <= k < |parts| ==> '/' !in parts[k]) ==> forall k :: 0 <= k < |r| ==> '/' !in r[k]
  {
    if c == '/' then parts + [""]
    else parts[..|parts| - 1] + [parts[|parts| - 1] + [c]]
  }

  /**
   * Joining the parts of `s` with slashes gives `s` back, and a string with a
   * slash has at least two parts.
   */
  lemma {:induction false} SplitJoin(s: string)
    ensures Join(Split(s)) == s
    ensures '/' in s ==> |Split(s)| >= 2
    decreases |s|
  {
    if s != [] {
      var s', c := s[..|s| - 1], s[|s| - 1];
      assert s == s' + [c];
      SplitJoin(s');
      var t := Split(s');
      var r := Extend(t, c);
      if c == '/' {
        assert r[..|t|] == t;
      } else {
        assert r[..|r| - 1] == t[..|t| - 1];
        assert '/' in s ==> '/' in s';
      }
    }
  }

  function Last(parts: seq<string>): string
    requires |parts| >= 1
  {
    parts[|parts| - 1]
  }

  /** `s.split('/')[-1]`: the part after the last slash. */
  function BaseName(s: string): (r: string)
    ensures '/' !in r
  {
    Last(Split(s))
  }

  /** Appending a slash and a slash-free tail to `d` adds exactly that tail as a last part. */
  lemma {:induction false} SplitAppend(d: string, t: string)
    requires '/' !in t
    ensures Split(d + "/" + t) == Split(d) + [t]
    decreases |t|
  {
    var s := d + "/" + t;
    if t == [] {
      assert s[..|s| - 1] == d;
      assert Split(s) == Extend(Split(d), '/');
    } else {
      var t', c := t[..|t| - 1], t[|t| - 1];
      assert s[..|s| - 1] == d + "/" + t';
      assert s[|s| - 1] == c;
      SplitAppend(d, t');
      var u := Split(d) + [t'];
      assert Split(s) == Extend(u, c);
      assert c != '/';
      assert Extend(u, c) == Split(d) + [t' + [c]];
      assert t' + [c] == t;
    }
  }

  /** The file name of a path `dir/name`, whatever the directory. */
  lemma BaseNameOfPath(dir: string, name: string)
    requires '/' !in name
    ensures BaseName(dir + "/" + name) == name
  {
    SplitAppend(dir, name);
  }
}

=== FILE: prune.dfy ===
/**
 * The prune engine of the MOG window (`MOGUI.update_prune`) and the prune
 * statistics it reports (`MOGUI.update_prune_info`).
 *
 * Three stages build the selection vectors of a gather:
 *   - elevation: indexed by the position of a station among the sorted
 *     distinct station depths, padded with `True` up to the trace count;
 *   - station skip: the slice `[::skip + 1]` of the distinct depths decides
 *     which stations survive;
 *   - ray angle: per trace, clears the receiver vector only.
 * Each stage combines two boolean vectors with the numpy idiom
 * `(a.astype(int) + b.astype(int) - 1).astype(bool)`, whose value -1 is
 * truthy: the idiom holds exactly when `a == b`, not when `a && b`.
 */
module Prune {
  import opened Wrappers
  import Masks
  import opened Mogs
  import BoreholeModel

  /** `(a.astype(int) + b.astype(int) - 1).astype(bool)` on one entry. */
  function SumMinusOne(a: bool, b: bool): (r: bool)
    ensures r <==> a == b
    ensures a && b ==> r
  {
    (if a then 1 else 0) + (if b then 1 else 0) - 1 != 0
  }

  /** The same idiom on two vectors of one length. */
  function Combine(a: seq<bool>, b: seq<bool>): (r: seq<bool>)
    requires |a| == |b|
    ensures |r| == |a|
  {
    seq(|a|, i requires 0 <= i < |a| => SumMinusOne(a[i], b[i]))
  }

  /** The receiver upper bound is widened by 1e-10. */
  const RxMargin: real := 0.0000000001

  /**
   * Lines 619-633: entry j tests the j-th smallest distinct station depth `u[j]`
   * against the bounds, as the elevation `-u[j]`.
   */
  function ElevationMask(z: seq<real>, lo: real, hi: real): (r: seq<bool>)
    ensures |r| == |Masks.Unique(z)|
  {
    var u := Masks.Unique(z);
    seq(|u|, j requires 0 <= j < |u| => SumMinusOne(-u[j] >= lo, -u[j] <= hi))
  }

  /** `np.append(v, np.ones(n - len(v), dtype=bool))`. */
  function Pad(v: seq<bool>, n: nat): (r: seq<bool>)
    requires |v| <= n
    ensures |r| == n
  {
    v + seq(n - |v|, _ => true)
  }

  /** The positions, among the distinct depths `u`, of the stations the slice `[::step]` drops. */
  function SkippedStations(u: seq<real>, step: int): (r: seq<nat>)
    requires step != 0
    ensures forall k :: 0 <= k < |r| ==> r[k] < |u|
  {
    var kept := Masks.Stride(u, step);
    Masks.Where(seq(|u|, i requires 0 <= i < |u| => u[i] !in kept))
  }

  /** `v` after `v[i] = False` for every `i` of `idx` inside `v`. */
  function ClearAt(v: seq<bool>, idx: seq<nat>): (r: seq<bool>)
    ensures |r| == |v|
  {
    seq(|v|, i requires 0 <= i < |v| => v[i] && i !in idx)
  }

  /** Lines 672-675: the angle `t` is outside `[angMin, angMax]` as the idiom decides it. */
  predicate AngleOutside(t: real, angMin: real, angMax: real)
  {
    !SumMinusOne(t >= angMin, t <= angMax)
  }

  /** `np.where(intheta == False)[0]`. */
  function OutsideTraces(theta: seq<real>, angMin: real, angMax: real): (r: seq<nat>)
  {
    Masks.Where(seq(|theta|, i requires 0 <= i < |theta| => AngleOutside(theta[i], angMin, angMax)))
  }

  /** The values of the prune widget. */
  datatype PruneParams = PruneParams(
    newMin: real, newMax: real,
    skipRx: int, skipTx: int,
    angMin: real, angMax: real)

  /** The transmitter vector after the elevation stage, padded (lines 632, 636). */
  function TxElevation(txZ: seq<real>, p: PruneParams, n: nat): seq<bool>
    requires |Masks.Unique(txZ)| <= n
  {
    Pad(ElevationMask(txZ, p.newMin, p.newMax), n)
  }

  /** The receiver vector after the elevation stage, padded (lines 633, 637). */
  function RxElevation(rxZ: seq<real>, p: PruneParams, n: nat): seq<bool>
    requires |Masks.Unique(rxZ)| <= n
  {
    Pad(ElevationMask(rxZ, p.newMin, p.newMax + RxMargin), n)
  }

  /** The transmitter vector as `update_prune` leaves it (lines 632-663). */
  function TxSelection(txZ: seq<real>, p: PruneParams, n: nat): (r: seq<bool>)
    requires |Masks.Unique(txZ)| <= n && p.skipTx + 1 != 0
    ensures |r| == n
  {
    ClearAt(TxElevation(txZ, p, n), SkippedStations(Masks.Unique(txZ), p.skipTx + 1))
  }

  /** The receiver vector after the skip stage (lines 633-657). */
  function RxSkipped(rxZ: seq<real>, p: PruneParams, n: nat): (r: seq<bool>)
    requires |Masks.Unique(rxZ)| <= n && p.skipRx + 1 != 0
    ensures |r| == n
  {
    ClearAt(RxElevation(rxZ, p, n), SkippedStations(Masks.Unique(rxZ), p.skipRx + 1))
  }

  /** The receiver vector as `update_prune` leaves it, after the angle stage (lines 672-683). */
  function RxSelection(rxZ: seq<real>, theta: seq<real>, p: PruneParams, n: nat): (r: seq<bool>)
    requires |Masks.Unique(rxZ)| <= n && p.skipRx + 1 != 0
    ensures |r| == n
  {
    ClearAt(RxSkipped(rxZ, p, n), OutsideTraces(theta, p.angMin, p.angMax))
  }

  /** Some trace at or beyond `n` has its angle outside the bounds: line 683 indexes past the vector. */
  predicate AngleIndexError(theta: seq<real>, p: PruneParams, n: nat)
  {
    exists i :: n <= i < |theta| && AngleOutside(theta[i], p.angMin, p.angMax)
  }

  /** Everything of a gather but its three selection vectors. */
  datatype Unselected = Unselected(
    name: string, id: nat, data: MogData,
    tx: Option<BoreholeModel.Borehole>, rx: Option<BoreholeModel.Borehole>,
    av: Cell<AirRef>, ap: Cell<AirRef>, kind: Cell<int>, facDt: Cell<real>,
    tt: Cell<seq<real>>, et: Cell<seq<real>>, ttDone: Cell<seq<bool>>,
    txZOrig: Cell<seq<real>>, rxZOrig: Cell<seq<real>>,
    txCosDir: seq<BoreholeModel.Point3>, rxCosDir: seq<BoreholeModel.Point3>)

  ghost function Rest(m: Mog): Unselected
    reads m
  {
    Unselected(m.name, m.id, m.data, m.tx, m.rx, m.av, m.ap, m.kind, m.facDt,
      m.tt, m.et, m.ttDone, m.txZOrig, m.rxZOrig, m.txCosDir, m.rxCosDir)
  }

  /** The selection fields of a gather are the only ones `update_prune` touches. */
  twostate predicate OnlySelectionChanged(m: Mog)
    reads m
  {
    Rest(m) == old(Rest(m))
  }

  /**
   * `update_prune` on the gather `mog`, with the widget values `p` and the ray
   * angle `theta` of each trace. The vectors are reset, then rebuilt stage by
   * stage; an exception leaves them as far as the stages before it got.
   * Errors: ValueError when there are more distinct depths than traces
   * (`np.ones` of a negative size), ValueError when a skip of -1 gives the slice
   * step 0, IndexError when a trace beyond the vectors has its angle outside.
   */
  method UpdatePrune(mog: Mog, p: PruneParams, theta: seq<real>) returns (r: Result<(), PyError>)
    modifies mog
    ensures OnlySelectionChanged(mog)
    ensures var d := mog.data; var n := d.ntrace;
      var uTx, uRx := Masks.Unique(d.txZ), Masks.Unique(d.rxZ);
      if |uTx| > n then
        r == Err(ValueError) && mog.inVect == old(mog.inVect) &&
        mog.inTxVect == One(ElevationMask(d.txZ, p.newMin, p.newMax)) &&
        mog.inRxVect == One(ElevationMask(d.rxZ, p.newMin, p.newMax + RxMargin))
      else if |uRx| > n then
        r == Err(ValueError) && mog.inVect == old(mog.inVect) &&
        mog.inTxVect == One(TxElevation(d.txZ, p, n)) &&
        mog.inRxVect == One(ElevationMask(d.rxZ, p.newMin, p.newMax + RxMargin))
      else if p.skipRx + 1 == 0 || p.skipTx + 1 == 0 then
        r == Err(ValueError) && mog.inVect == old(mog.inVect) &&
        mog.inTxVect == One(TxElevation(d.txZ, p, n)) &&
        mog.inRxVect == One(RxElevation(d.rxZ, p, n))
      else if AngleIndexError(theta, p, n) then
        r == Err(IndexError) && mog.inVect == old(mog.inVect) &&
        mog.inTxVect == One(TxSelection(d.txZ, p, n)) &&
        mog.inRxVect == One(RxSelection(d.rxZ, theta, p, n))
      else
        r == Ok(()) &&
        mog.inTxVect == One(TxSelection(d.txZ, p, n)) &&
        mog.inRxVect == One(RxSelection(d.rxZ, theta, p, n)) &&
        mog.inVect == One(Combine(RxSelection(d.rxZ, theta, p, n), TxSelection(d.txZ, p, n)))
  {
    var n := mog.data.ntrace;
    mog.inRxVect := One(seq(n, _ => true));
    mog.inTxVect := One(seq(n, _ => true));
    r := PruneElevation(mog, p);
    if r.Err? {
      return;
    }
    r := PruneSelect(mog, p, theta);
  }

  /** Lines 642-687: the skip and angle stages after the elevation stage, and the combination. */
  method PruneSelect(mog: Mog, p: PruneParams, theta: seq<real>) returns (r: Result<(), PyError>)
    requires var d := mog.data; var n := d.ntrace;
      |Masks.Unique(d.txZ)| <= n && |Masks.Unique(d.rxZ)| <= n &&
      mog.inTxVect == One(TxElevation(d.txZ, p, n)) &&
      mog.inRxVect == One(RxElevation(d.rxZ, p, n))
    modifies mog
    ensures OnlySelectionChanged(mog)
    ensures var d := mog.data; var n := d.ntrace;
      if p.skipRx + 1 == 0 || p.skipTx + 1 == 0 then
        r == Err(ValueError) && mog.inVect == old(mog.inVect) &&
        mog.inTxVect == One(TxElevation(d.txZ, p, n)) &&
        mog.inRxVect == One(RxElevation(d.rxZ, p, n))
      else if AngleIndexError(theta, p, n) then
        r == Err(IndexError) && mog.inVect == old(mog.inVect) &&
        mog.inTxVect == One(TxSelection(d.txZ, p, n)) &&
        mog.inRxVect == One(RxSelection(d.rxZ, theta, p, n))
      else
        r == Ok(()) &&
        mog.inTxVect == One(TxSelection(d.txZ, p, n)) &&
        mog.inRxVect == One(RxSelection(d.rxZ, theta, p, n)) &&
        mog.inVect == One(Combine(RxSelection(d.rxZ, theta, p, n), TxSelection(d.txZ, p, n)))
  {
    r := PruneSkip(mog, p);
    if r.Err? {
      return;
    }
    r := PruneAngle(mog, p, theta);
    if r.Err? {
      return;
    }
    var rx, tx := mog.inRxVect.v, mog.inTxVect.v;
    mog.inVect := One(Combine(rx, tx));
  }

  /** Lines 619-637: the elevation stage and the padding to `ntrace` entries. */
  method PruneElevation(mog: Mog, p: PruneParams) returns (r: Result<(), PyError>)
    modifies mog
    ensures OnlySelectionChanged(mog) && mog.inVect == old(mog.inVect)
    ensures var d := mog.data; var n := d.ntrace;
      var uTx, uRx := Masks.Unique(d.txZ), Masks.Unique(d.rxZ);
      if |uTx| > n then
        r == Err(ValueError) &&
        mog.inTxVect == One(ElevationMask(d.txZ, p.newMin, p.newMax)) &&
        mog.inRxVect == One(ElevationMask(d.rxZ, p.newMin, p.newMax + RxMargin))
      else if |uRx| > n then
        r == Err(ValueError) &&
        mog.inTxVect == One(TxElevation(d.txZ, p, n)) &&
        mog.inRxVect == One(ElevationMask(d.rxZ, p.newMin, p.newMax + RxMargin))
      else
        r == Ok(()) &&
        mog.inTxVect == One(TxElevation(d.txZ, p, n)) &&
        mog.inRxVect == One(RxElevation(d.rxZ, p, n))
  {
    var d := mog.data;
    var n := d.ntrace;
    var txElev := ElevationMask(d.txZ, p.newMin, p.newMax);
    var rxElev := ElevationMask(d.rxZ, p.newMin, p.newMax + RxMargin);
    mog.inTxVect := One(txElev);
    mog.inRxVect := One(rxElev);
    if |txElev| > n {
      return Err(ValueError);
    }
    mog.inTxVect := One(Pad(txElev, n));
    if |rxElev| > n {
      return Err(ValueError);
    }
    mog.inRxVect := One(Pad(rxElev, n));
    return Ok(());
  }

  /** Lines 642-663: the station-skip stage. */
  method PruneSkip(mog: Mog, p: PruneParams) returns (r: Result<(), PyError>)
    requires var d := mog.data; var n := d.ntrace;
      |Masks.Unique(d.txZ)| <= n && |Masks.Unique(d.rxZ)| <= n &&
      mog.inTxVect == One(TxElevation(d.txZ, p, n)) &&
      mog.inRxVect == One(RxElevation(d.rxZ, p, n))
    modifies mog
    ensures OnlySelectionChanged(mog) && mog.inVect == old(mog.inVect)
    ensures var d := mog.data; var n := d.ntrace;
      if p.skipRx + 1 == 0 || p.skipTx + 1 == 0 then
        r == Err(ValueError) && mog.inTxVect == old(mog.inTxVect) && mog.inRxVect == old(mog.inRxVect)
      else
        r == Ok(()) &&
        mog.inTxVect == One(TxSelection(d.txZ, p, n)) &&
        mog.inRxVect == One(RxSkipped(d.rxZ, p, n))
  {
    var d := mog.data;
    var n := d.ntrace;
    var uRx := Masks.Unique(d.rxZ);
    var uTx := Masks.Unique(d.txZ);
    if p.skipRx + 1 == 0 || p.skipTx + 1 == 0 {
      return Err(ValueError);
    }
    var rx := ClearSkipped(mog.inRxVect.v, uRx, p.skipRx + 1);
    RxSkippedUnfold(d.rxZ, p, n, mog.inRxVect.v, rx);
    mog.inRxVect := One(rx);
    var tx := ClearSkipped(mog.inTxVect.v, uTx, p.skipTx + 1);
    TxSelectionUnfold(d.txZ, p, n, mog.inTxVect.v, tx);
    mog.inTxVect := One(tx);
    return Ok(());
  }

  /** Lines 651-663 on one vector: list the dropped stations, then clear them. */
  method ClearSkipped(v: seq<bool>, u: seq<real>, step: int) returns (r: seq<bool>)
    requires step != 0 && |u| <= |v|
    ensures r == ClearAt(v, SkippedStations(u, step))
  {
    var skipped := SkippedIndices(u, step);
    r := ClearEach(v, skipped);
  }

  /** Lines 666-683: the ray-angle stage, which clears receiver entries only. */
  method PruneAngle(mog: Mog, p: PruneParams, theta: seq<real>) returns (r: Result<(), PyError>)
    requires var d := mog.data; var n := d.ntrace;
      |Masks.Unique(d.txZ)| <= n && |Masks.Unique(d.rxZ)| <= n &&
      p.skipRx + 1 != 0 && p.skipTx + 1 != 0 &&
      mog.inTxVect == One(TxSelection(d.txZ, p, n)) &&
      mog.inRxVect == One(RxSkipped(d.rxZ, p, n))
    modifies mog
    ensures OnlySelectionChanged(mog) && mog.inVect == old(mog.inVect) && mog.inTxVect == old(mog.inTxVect)
    ensures var d := mog.data; var n := d.ntrace;
      mog.inRxVect == One(RxSelection(d.rxZ, theta, p, n)) &&
      r == (if AngleIndexError(theta, p, n) then Err(IndexError) else Ok(()))
  {
    var d := mog.data;
    var n := d.ntrace;
    var outside := OutsideTraces(theta, p.angMin, p.angMax);
    var rx := mog.inRxVect.v;
    assert ClearAt(rx, outside[..0]) == rx;
    var k := 0;
    while k < |outside|
      invariant 0 <= k <= |outside|
      invariant |rx| == n
      invariant rx == ClearAt(RxSkipped(d.rxZ, p, n), outside[..k])
      invariant mog.inRxVect == One(rx) && mog.inTxVect == old(mog.inTxVect)
      invariant mog.data == d && mog.inVect == old(mog.inVect) && OnlySelectionChanged(mog)
      invariant forall j :: 0 <= j < k ==> outside[j] < n
    {
      var i := outside[k];
      if i >= n {
        OutsideTracesPast(theta, p, n, k);
        return Err(IndexError);
      }
      ClearAtStep(RxSkipped(d.rxZ, p, n), outside, k);
      rx := rx[i := false];
      mog.inRxVect := One(rx);
      k := k + 1;
    }
    assert outside[..k] == outside;
    OutsideTracesInside(theta, p, n);
    return Ok(());
  }

  lemma RxSkippedUnfold(rxZ: seq<real>, p: PruneParams, n: nat, v: seq<bool>, w: seq<bool>)
    requires |Masks.Unique(rxZ)| <= n && p.skipRx + 1 != 0
    requires v == RxElevation(rxZ, p, n)
    requires w == ClearAt(v, SkippedStations(Masks.Unique(rxZ), p.skipRx + 1))
    ensures w == RxSkipped(rxZ, p, n)
  {
  }

  lemma TxSelectionUnfold(txZ: seq<real>, p: PruneParams, n: nat, v: seq<bool>, w: seq<bool>)
    requires |Masks.Unique(txZ)| <= n && p.skipTx + 1 != 0
    requires v == TxElevation(txZ, p, n)
    requires w == ClearAt(v, SkippedStations(Masks.Unique(txZ), p.skipTx + 1))
    ensures w == TxSelection(txZ, p, n)
  {
  }

  /** Lines 651-653 and 659-661: the loop that lists the positions of the dropped stations. */
  method SkippedIndices(u: seq<real>, step: int) returns (r: seq<nat>)
    requires step != 0
    ensures r == SkippedStations(u, step)
  {
    var kept := Masks.Stride(u, step);
    ghost var mask := seq(|u|, i requires 0 <= i < |u| => u[i] !in kept);
    r := [];
    var i := 0;
    while i < |u|
      invariant 0 <= i <= |u|
      invariant r == Masks.Where(mask[..i])
    {
      Masks.WhereStep(mask, i);
      if u[i] !in kept {
        r := r + [i];
      }
      i := i + 1;
    }
    assert mask[..i] == mask;
  }

  /** Lines 655-656 and 662-663: `v[value] = False` for each listed position. */
  method ClearEach(v: seq<bool>, idx: seq<nat>) returns (r: seq<bool>)
    requires forall k :: 0 <= k < |idx| ==> idx[k] < |v|
    ensures r == ClearAt(v, idx)
  {
    r := v;
    var k := 0;
    while k < |idx|
      invariant 0 <= k <= |idx|
      invariant r == ClearAt(v, idx[..k])
    {
      ClearAtStep(v, idx, k);
      r := r[idx[k] := false];
      k := k + 1;
    }
    assert idx[..k] == idx;
  }

  /** Clearing one more listed position is one more `v[i] = False`. */
  lemma ClearAtStep(v: seq<bool>, idx: seq<nat>, k: nat)
    requires k < |idx| && idx[k] < |v|
    ensures ClearAt(v, idx[..k + 1]) == ClearAt(v, idx[..k])[idx[k] := false]
  {
    assert idx[..k + 1] == idx[..k] + [idx[k]];
  }

  /**
   * The angle loop stops at the first listed trace past the vector: every trace
   * listed after it is past the vector too, so the traces it cleared are all
   * those inside the vector.
   */
  lemma OutsideTracesPast(theta: seq<real>, p: PruneParams, n: nat, k: nat)
    requires k < |OutsideTraces(theta, p.angMin, p.angMax)|
    requires OutsideTraces(theta, p.angMin, p.angMax)[k] >= n
    requires forall j :: 0 <= j < k ==> OutsideTraces(theta, p.angMin, p.angMax)[j] < n
    ensures AngleIndexError(theta, p, n)
    ensures forall v: seq<bool> :: |v| == n ==>
      ClearAt(v, OutsideTraces(theta, p.angMin, p.angMax)[..k]) == ClearAt(v, OutsideTraces(theta, p.angMin, p.angMax))
  {
    var out := OutsideTraces(theta, p.angMin, p.angMax);
    var m := seq(|theta|, i requires 0 <= i < |theta| => AngleOutside(theta[i], p.angMin, p.angMax));
    assert m[out[k]];
    forall v: seq<bool> | |v| == n
      ensures ClearAt(v, out[..k]) == ClearAt(v, out)
    {
      forall i | 0 <= i < n
        ensures i in out[..k] <==> i in out
      {
        if i in out {
          var j :| 0 <= j < |out| && out[j] == i;
          assert j < k;
          assert out[..k][j] == i;
        }
      }
    }
  }

  /** When every listed trace lies inside the vectors, there is no angle index error. */
  lemma OutsideTracesInside(theta: seq<real>, p: PruneParams, n: nat)
    requires forall j :: 0 <= j < |OutsideTraces(theta, p.angMin, p.angMax)| ==> OutsideTraces(theta, p.angMin, p.angMax)[j] < n
    ensures !AngleIndexError(theta, p, n)
  {
    var out := OutsideTraces(theta, p.angMin, p.angMax);
    var m := seq(|theta|, i requires 0 <= i < |theta| => AngleOutside(theta[i], p.angMin, p.angMax));
    forall i | n <= i < |theta| ensures !AngleOutside(theta[i], p.angMin, p.angMax) {
      assert !m[i];
    }
  }

  // ---------------------------------------------------------------------
  // What the stages select

  /**
   * With `lo <= hi`, the idiom on an elevation keeps exactly the elevations in
   * the band. With `lo > hi` it keeps exactly those strictly between `hi` and
   * `lo`: the two tests can no longer both hold, and both failing reads as true.
   */
  lemma ElevationMaskBand(z: seq<real>, lo: real, hi: real, j: nat)
    requires j < |Masks.Unique(z)|
    ensures var x := -Masks.Unique(z)[j];
      (lo <= hi ==> (ElevationMask(z, lo, hi)[j] <==> lo <= x <= hi)) &&
      (lo > hi ==> (ElevationMask(z, lo, hi)[j] <==> hi < x < lo))
  {
  }

  /** With `angMin <= angMax` a trace is outside exactly when its angle leaves the band. */
  lemma AngleOutsideBand(t: real, angMin: real, angMax: real)
    requires angMin <= angMax
    ensures AngleOutside(t, angMin, angMax) <==> t < angMin || t > angMax
  {
  }

  /** The padding keeps every traces past the distinct depths. */
  lemma PadEntries(v: seq<bool>, n: nat, i: nat)
    requires |v| <= n && i < n
    ensures Pad(v, n)[i] == (if i < |v| then v[i] else true)
  {
  }

  /**
   * The skip stage clears exactly the positions, among the distinct depths,
   * that the slice `[::step]` does not keep, and nothing past them.
   */
  lemma {:induction false} SkipClearsExactly(v: seq<bool>, u: seq<real>, step: int, i: nat)
    requires Masks.StrictlyIncreasing(u) && step != 0 && |u| <= |v| && i < |v|
    ensures ClearAt(v, SkippedStations(u, step))[i] <==> v[i] && (i >= |u| || Masks.SliceKeeps(i, step, |u|))
  {
    var kept := Masks.Stride(u, step);
    var mask := seq(|u|, k requires 0 <= k < |u| => u[k] !in kept);
    var idx := SkippedStations(u, step);
    assert idx == Masks.Where(mask);
    if i < |u| {
      Masks.StrideKeepsUnique(u, step, i);
      if !Masks.SliceKeeps(i, step, |u|) {
        assert mask[i];
        assert i in idx;
      }
    }
  }

  /** A skip of 0 (slice step 1) clears nothing. */
  lemma {:induction false} NoSkipClearsNothing(v: seq<bool>, u: seq<real>)
    requires Masks.StrictlyIncreasing(u) && |u| <= |v|
    ensures ClearAt(v, SkippedStations(u, 1)) == v
  {
    forall i | 0 <= i < |v| ensures ClearAt(v, SkippedStations(u, 1))[i] == v[i] {
      SkipClearsExactly(v, u, 1, i);
    }
  }

  /** The angle stage clears exactly the traces whose angle is outside, and nothing else. */
  lemma {:induction false} AngleClearsExactly(v: seq<bool>, theta: seq<real>, angMin: real, angMax: real, i: nat)
    requires i < |v|
    ensures ClearAt(v, OutsideTraces(theta, angMin, angMax))[i] <==>
      v[i] && (i >= |theta| || !AngleOutside(theta[i], angMin, angMax))
  {
    var m := seq(|theta|, k requires 0 <= k < |theta| => AngleOutside(theta[k], angMin, angMax));
    var out := OutsideTraces(theta, angMin, angMax);
    assert out == Masks.Where(m);
    if i < |theta| && AngleOutside(theta[i], angMin, angMax) {
      assert m[i];
    }
  }

  /**
   * The transmitter entry of a station the elevation band and the skip both
   * keep, and of a trace past the distinct depths, is true; every other one is false.
   */
  lemma {:induction false} TxSelectionEntries(txZ: seq<real>, p: PruneParams, n: nat, i: nat)
    requires |Masks.Unique(txZ)| <= n && p.skipTx + 1 != 0 && i < n && p.newMin <= p.newMax
    ensures var u := Masks.Unique(txZ);
      TxSelection(txZ, p, n)[i] <==>
        i >= |u| || (p.newMin <= -u[i] <= p.newMax && Masks.SliceKeeps(i, p.skipTx + 1, |u|))
  {
    var u := Masks.Unique(txZ);
    assert TxSelection(txZ, p, n) == ClearAt(TxElevation(txZ, p, n), SkippedStations(u, p.skipTx + 1));
    SkipClearsExactly(TxElevation(txZ, p, n), u, p.skipTx + 1, i);
    PadEntries(ElevationMask(txZ, p.newMin, p.newMax), n, i);
    if i < |u| {
      ElevationMaskBand(txZ, p.newMin, p.newMax, i);
    }
  }

  /**
   * The receiver entry of trace `i` is true exactly when its station passes
   * the elevation band (widened by 1e-10) and the skip, and its ray angle the
   * angle band.
   */
  lemma {:induction false} RxSelectionEntries(rxZ: seq<real>, theta: seq<real>, p: PruneParams, n: nat, i: nat)
    requires |Masks.Unique(rxZ)| <= n && p.skipRx + 1 != 0 && i < n
    requires p.newMin <= p.newMax && p.angMin <= p.angMax
    ensures var u := Masks.Unique(rxZ);
      RxSelection(rxZ, theta, p, n)[i] <==>
        (i >= |u| || (p.newMin <= -u[i] <= p.newMax + RxMargin && Masks.SliceKeeps(i, p.skipRx + 1, |u|))) &&
        (i >= |theta| || p.angMin <= theta[i] <= p.angMax)
  {
    var u := Masks.Unique(rxZ);
    AngleClearsExactly(RxSkipped(rxZ, p, n), theta, p.angMin, p.angMax, i);
    if i < |theta| {
      AngleOutsideBand(theta[i], p.angMin, p.angMax);
    }
    SkipClearsExactly(RxElevation(rxZ, p, n), u, p.skipRx + 1, i);
    PadEntries(ElevationMask(rxZ, p.newMin, p.newMax + RxMargin), n, i);
    if i < |u| {
      ElevationMaskBand(rxZ, p.newMin, p.newMax + RxMargin, i);
    }
  }

  // ---------------------------------------------------------------------
  // The combined vector: the idiom is not a conjunction

  /**
   * The combined vector `in_vect` (line 689) is the conjunction of the two
   * vectors only when no trace is dropped by both: a trace both vectors drop
   * is kept.
   */
  lemma CombineIsAndOnlyWithoutDoubleDrop(rx: seq<bool>, tx: seq<bool>)
    requires |rx| == |tx|
    ensures Combine(rx, tx) == Masks.And(rx, tx) <==> forall i :: 0 <= i < |rx| ==> rx[i] || tx[i]
  {
    if Combine(rx, tx) == Masks.And(rx, tx) {
      forall i | 0 <= i < |rx| ensures rx[i] || tx[i] {
        assert Combine(rx, tx)[i] == Masks.And(rx, tx)[i];
      }
    }
  }

  /** One trace dropped by both vectors: `in_vect` keeps it. */
  lemma DoublyDroppedTraceKept()
    ensures Combine([false], [false]) == [true]
    ensures Masks.And([false], [false]) == [false]
  {
    assert Combine([false], [false])[0];
  }

  /** The intended `in_vect`: a trace is kept when both of its stations are. */
  function IntendedInVect(rx: seq<bool>, tx: seq<bool>): (r: seq<bool>)
    requires |rx| == |tx|
    ensures |r| == |rx|
    ensures forall i :: 0 <= i < |r| ==> (r[i] <==> rx[i] && tx[i])
    ensures Masks.CountTrue(r) <= Masks.CountTrue(rx) && Masks.CountTrue(r) <= Masks.CountTrue(tx)
  {
    var r := Masks.And(rx, tx);
    Masks.CountTrueMonotone(r, rx);
    Masks.CountTrueMonotone(r, tx);
    r
  }
}

=== FILE: prune_info.dfy ===
/**
 * The prune statistics of the MOG window (`MOGUI.update_prune_info`): the
 * station counts, the share of removed stations, the share of the ray-angle
 * range removed and the share of traces kept.
 *
 * Python's builtin `sum` over an empty numpy vector is the Python int 0,
 * and over a non-empty one a numpy integer. A division by a zero trace count
 * therefore raises ZeroDivisionError when only Python ints are involved, and
 * gives numpy's inf or nan otherwise.
 */
module PruneStats {
  import opened Wrappers
  import Masks
  import opened BoreholeModel

  /** `sum(v)` for a boolean vector: its value, and whether it is a numpy integer. */
  datatype Sum = Sum(value: nat, numpy: bool)

  function SumOf(v: seq<bool>): (s: Sum)
    ensures s.value == Masks.CountTrue(v) && s.value <= |v|
    ensures s.numpy <==> v != []
  {
    Masks.CountTrueBound(v);
    Sum(Masks.CountTrue(v), v != [])
  }

  /**
   * `num / den * 100` where `num` is a numpy integer when `numpy` holds and a
   * Python int otherwise, and `den` a Python int.
   */
  function Percent(num: int, den: nat, numpy: bool): (r: Result<Float, PyError>)
    ensures r.Err? <==> den == 0 && !numpy
    ensures r.Err? ==> r.error == ZeroDivisionError
    ensures den == 0 && numpy ==> r == Ok(NonFinite)
    ensures den > 0 ==> r.Ok? && r.value.Finite? && r.value.v * (den as real) == 100.0 * (num as real)
  {
    if den == 0 then
      if numpy then Ok(NonFinite) else Err(ZeroDivisionError)
    else
      Ok(Finite(num as real / den as real * 100.0))
  }

  /** The five values the prune info labels show, before rounding. */
  datatype PruneInfo = PruneInfo(
    txStations: nat,
    rxStations: nat,
    removedPercent: Float,
    angleRemovedPercent: real,
    keptPercent: Float)

  /**
   * `update_prune_info` for a gather with station depths `txZ`, `rxZ`, trace
   * count `n`, selection vectors `inTx`, `inRx`, `inVect`, and the angle
   * bounds of the prune widget.
   */
  function UpdatePruneInfo(txZ: seq<real>, rxZ: seq<real>, n: nat,
                           inTx: seq<bool>, inRx: seq<bool>, inVect: seq<bool>,
                           angMin: real, angMax: real): (r: Result<PruneInfo, PyError>)
    ensures r.Err? <==> n == 0 && ((inTx == [] && inRx == []) || inVect == [])
    ensures r.Err? ==> r.error == ZeroDivisionError
    ensures r.Ok? ==>
      r.value.txStations == |Masks.Unique(txZ)| && r.value.rxStations == |Masks.Unique(rxZ)|
  {
    var selectedAngle := angMax - angMin;
    var sTx, sRx := SumOf(inTx), SumOf(inRx);
    var removedTx := n - sTx.value;
    var removedRx := n - sRx.value;
    var removed :- Percent(removedTx + removedRx, n, sTx.numpy || sRx.numpy);
    var selected := SumOf(inVect);
    var kept :- Percent(selected.value, n, selected.numpy);
    Ok(PruneInfo(
      |Masks.Unique(txZ)|, |Masks.Unique(rxZ)|,
      removed,
      (180.0 - selectedAngle) / 180.0 * 100.0,
      kept))
  }

  /**
   * For vectors of `n > 0` entries: the removed share lies in [0, 200] (each
   * vector contributes up to 100) and is 0 exactly when both vectors keep every
   * entry; the kept share lies in [0, 100] and is 100 exactly when every trace
   * is kept; the angle share is 0 for the full range of 180 degrees.
   */
  lemma {:induction false} PruneInfoBounds(txZ: seq<real>, rxZ: seq<real>, n: nat,
                                           inTx: seq<bool>, inRx: seq<bool>, inVect: seq<bool>,
                                           angMin: real, angMax: real)
    requires n > 0 && |inTx| == n && |inRx| == n && |inVect| == n
    ensures var r := UpdatePruneInfo(txZ, rxZ, n, inTx, inRx, inVect, angMin, angMax);
      r.Ok? && r.value.removedPercent.Finite? && r.value.keptPercent.Finite? &&
      0.0 <= r.value.removedPercent.v <= 200.0 &&
      (r.value.removedPercent.v == 0.0 <==>
        forall i :: 0 <= i < n ==> inTx[i] && inRx[i]) &&
      0.0 <= r.value.keptPercent.v <= 100.0 &&
      (r.value.keptPercent.v == 100.0 <==> forall i :: 0 <= i < n ==> inVect[i]) &&
      (angMax - angMin == 180.0 ==> r.value.angleRemovedPercent == 0.0)
  {
    var sTx, sRx, sV := SumOf(inTx), SumOf(inRx), SumOf(inVect);
    Masks.CountTrueBound(inTx);
    Masks.CountTrueBound(inRx);
    Masks.CountTrueBound(inVect);
    var rem := (n - sTx.value) + (n - sRx.value);
    PercentBounds(rem, n, 2);
    PercentBounds(sV.value, n, 1);
    assert rem == 0 <==> sTx.value == n && sRx.value == n;
  }

  /** For `0 <= num <= k * den` and `den > 0`, the share lies in [0, 100 k], at its ends exactly at the ends. */
  lemma PercentBounds(num: int, den: nat, k: nat)
    requires den > 0 && 0 <= num <= k * den
    ensures var r := Percent(num, den, true);
      r.Ok? && r.value.Finite? && 0.0 <= r.value.v <= 100.0 * (k as real) &&
      (r.value.v == 0.0 <==> num == 0) &&
      (r.value.v == 100.0 * (k as real) <==> num == k * den)
  {
    var p := Percent(num, den, true).value.v;
    var N, x, K := den as real, num as real, k as real;
    assert p * N == 100.0 * x;
    assert (k * den) as real == K * N;
    ScaledBounds(p, N, x, K);
  }

  /** `p * N == 100 * x` with `0 <= x <= k * N` puts `p` in [0, 100 k], at its ends exactly at the ends. */
  lemma ScaledBounds(p: real, N: real, x: real, k: real)
    requires N > 0.0 && k >= 0.0 && p * N == 100.0 * x && 0.0 <= x <= k * N
    ensures 0.0 <= p <= 100.0 * k
    ensures p == 0.0 <==> x == 0.0
    ensures p == 100.0 * k <==> x == k * N
  {
    assert p == 100.0 * x / N;
  }
}

=== FILE: selection.dfy ===
/**
 * Trace selections of the MOG window that are plain vector expressions: the
 * rows `export_tt` writes, and the zero-offset traces `plot_zop` uses.
 *
 * Element-wise numpy operations on two vectors broadcast a vector of length 1
 * against the other and raise ValueError for any other length mismatch.
 */
module Selection {
  import opened Wrappers
  import Masks

  /** The length of the result of an element-wise operation on vectors of lengths `a` and `b`. */
  function BroadcastLen(a: nat, b: nat): (r: Option<nat>)
    ensures r.Some? <==> a == b || a == 1 || b == 1
    ensures r.Some? ==> (a == r.value || a == 1) && (b == r.value || b == 1)
    ensures a == b ==> r == Some(a)
  {
    if a == b then Some(a)
    else if a == 1 then Some(b)
    else if b == 1 then Some(a)
    else None
  }

  /** Entry `i` of `s` broadcast to length `n`. */
  function At<T>(s: seq<T>, n: nat, i: nat): (r: T)
    requires i < n && (|s| == n || |s| == 1)
    ensures |s| == n ==> r == s[i]
  {
    if |s| == n then s[i] else s[0]
  }

  // ---------------------------------------------------------------------
  // export_tt

  /** One row of the exported file: trace index, travel time, its error. */
  datatype ExportRow = ExportRow(index: nat, tt: real, et: real)

  /** `np.not_equal(tt, -1).astype(int) + np.equal(in_vect, 1) == 2`: picked and selected. */
  function ExportMask(tt: seq<real>, inVect: seq<bool>): (r: Result<seq<bool>, PyError>)
    ensures r.Ok? <==> BroadcastLen(|tt|, |inVect|).Some?
    ensures r.Err? ==> r.error == ValueError
    ensures |tt| == |inVect| ==>
      r.Ok? && |r.value| == |tt| && forall i :: 0 <= i < |tt| ==> (r.value[i] <==> tt[i] != -1.0 && inVect[i])
  {
    match BroadcastLen(|tt|, |inVect|)
    case None => Err(ValueError)
    case Some(n) =>
      Ok(seq(n, i requires 0 <= i < n => At(tt, n, i) != -1.0 && At(inVect, n, i)))
  }

  /**
   * `export_tt` on the chosen gather, up to the file written: the rows
   * `(i, tt[i], et[i])` of the selected indices, in ascending order. Indexing
   * `tt` or `et` past its end raises IndexError.
   */
  function ExportTT(tt: seq<real>, et: seq<real>, inVect: seq<bool>): (r: Result<seq<ExportRow>, PyError>)
    ensures ExportMask(tt, inVect).Err? ==> r == Err(ValueError)
    ensures r.Ok? ==>
      (forall k :: 0 <= k < |r.value| ==>
        r.value[k].index < |tt| && r.value[k].index < |et| &&
        r.value[k].tt == tt[r.value[k].index] && r.value[k].et == et[r.value[k].index]) &&
      (forall j, k :: 0 <= j < k < |r.value| ==> r.value[j].index < r.value[k].index)
  {
    var mask :- ExportMask(tt, inVect);
    var ind := Masks.Where(mask);
    if forall k :: 0 <= k < |ind| ==> ind[k] < |tt| && ind[k] < |et| then
      Ok(seq(|ind|, k requires 0 <= k < |ind| => ExportRow(ind[k], tt[ind[k]], et[ind[k]])))
    else
      Err(IndexError)
  }

  /**
   * With `tt` and `in_vect` of one length: the export succeeds exactly when
   * `et` covers every selected trace, and then lists exactly the traces that
   * are picked (`tt != -1`) and selected, each once, in ascending order.
   */
  lemma {:induction false} ExportTTSelectsExactly(tt: seq<real>, et: seq<real>, inVect: seq<bool>)
    requires |tt| == |inVect|
    ensures var r := ExportTT(tt, et, inVect);
      (r.Ok? <==> forall i :: 0 <= i < |tt| && tt[i] != -1.0 && inVect[i] ==> i < |et|) &&
      (r.Err? ==> r.error == IndexError) &&
      (r.Ok? ==> forall i :: 0 <= i < |tt| ==>
        ((tt[i] != -1.0 && inVect[i]) <==> exists k :: 0 <= k < |r.value| && r.value[k].index == i))
  {
    var mask := ExportMask(tt, inVect).value;
    var ind := Masks.Where(mask);
    var r := ExportTT(tt, et, inVect);
    if forall i :: 0 <= i < |tt| && tt[i] != -1.0 && inVect[i] ==> i < |et| {
      assert r.Ok?;
      forall i | 0 <= i < |tt| && tt[i] != -1.0 && inVect[i]
        ensures exists k :: 0 <= k < |r.value| && r.value[k].index == i
      {
        assert mask[i];
        var k :| 0 <= k < |ind| && ind[k] == i;
        assert r.value[k].index == i;
      }
    } else {
      var i :| 0 <= i < |tt| && tt[i] != -1.0 && inVect[i] && i >= |et|;
      assert mask[i];
      var k :| 0 <= k < |ind| && ind[k] == i;
      assert r.Err?;
    }
  }

  // ---------------------------------------------------------------------
  // plot_zop

  function AbsDiff(a: real, b: real): real
  {
    if a >= b then a - b else b - a
  }

  /** `np.abs(Tx_z - Rx_z) <= tol`, entry by entry. */
  function ZeroOffsetMask(txZ: seq<real>, rxZ: seq<real>, tol: real): (r: Result<seq<bool>, PyError>)
    ensures r.Ok? <==> BroadcastLen(|txZ|, |rxZ|).Some?
    ensures r.Err? ==> r.error == ValueError
    ensures |txZ| == |rxZ| ==>
      r.Ok? && |r.value| == |txZ| && forall i :: 0 <= i < |txZ| ==> (r.value[i] <==> AbsDiff(txZ[i], rxZ[i]) <= tol)
  {
    match BroadcastLen(|txZ|, |rxZ|)
    case None => Err(ValueError)
    case Some(n) =>
      Ok(seq(n, i requires 0 <= i < n => AbsDiff(At(txZ, n, i), At(rxZ, n, i)) <= tol))
  }

  /** The two index lists of `plot_zop`: zero-offset traces, and those of them that are picked. */
  datatype ZeroOffset = ZeroOffset(zop: seq<nat>, picked: seq<nat>)

  /**
   * Lines 1713-1717 of `plot_zop`: the traces whose transmitter and receiver
   * depths differ by at most `tol`, and those of them with a travel time.
   */
  function ZeroOffsetTraces(txZ: seq<real>, rxZ: seq<real>, tt: seq<real>, tol: real): (r: Result<ZeroOffset, PyError>)
    ensures r.Err? ==> r.error == ValueError
    ensures |txZ| == |rxZ| == |tt| ==> r.Ok?
  {
    var near :- ZeroOffsetMask(txZ, rxZ, tol);
    match BroadcastLen(|near|, |tt|)
    case None => Err(ValueError)
    case Some(n) =>
      var picked := seq(n, i requires 0 <= i < n => At(near, n, i) && At(tt, n, i) != -1.0);
      var zop := Masks.Where(near);
      var pickedInd := Masks.Where(picked);
      Ok(ZeroOffset(zop, pickedInd))
  }

  /**
   * With vectors of one length: `zop` lists exactly the zero-offset traces and
   * `picked` exactly the zero-offset traces with `tt != -1`, both ascending.
   */
  lemma {:induction false} ZeroOffsetExactly(txZ: seq<real>, rxZ: seq<real>, tt: seq<real>, tol: real)
    requires |txZ| == |rxZ| == |tt|
    ensures var r := ZeroOffsetTraces(txZ, rxZ, tt, tol);
      r.Ok? &&
      (forall i :: 0 <= i < |txZ| ==> (i in r.value.zop <==> AbsDiff(txZ[i], rxZ[i]) <= tol)) &&
      (forall i :: 0 <= i < |txZ| ==> (i in r.value.picked <==> AbsDiff(txZ[i], rxZ[i]) <= tol && tt[i] != -1.0)) &&
      (forall k :: 0 <= k < |r.value.zop| ==> r.value.zop[k] < |txZ|) &&
      (forall k :: 0 <= k < |r.value.picked| ==> r.value.picked[k] < |txZ|) &&
      (forall k :: 0 <= k < |r.value.picked| ==> r.value.picked[k] in r.value.zop)
  {
  }
}

=== FILE: wrappers.dfy ===
/** Option and Result values, and the Python exceptions the modelled code can raise. */
module Wrappers {

  datatype Option<+T> = None | Some(value: T)

  datatype Result<+T, +E> = Ok(value: T) | Err(error: E) {
    predicate IsFailure() { Err? }

    function PropagateFailure<U>(): Result<U, E>
      requires Err?
    {
      Err(error)
    }

    function Extract(): T
      requires Ok?
    {
      value
    }
  }

  /** The Python exception classes raised on the modelled paths. */
  datatype PyError =
    | TypeError          // wrong type of value, or len() of an int
    | ValueError         // bad value, or the truth value of a numpy array with several elements
    | AttributeError     // attribute missing on the object (e.g. `.shape` of a str, `.text()` of None)
    | IndexError         // list index out of range
    | ZeroDivisionError  // Python int or float division by zero
    | UnboundLocalError  // a local variable read before any assignment
    | ReadError          // whatever the instrument reader raises on a file it cannot read
    | InvalidRequestError // SQLAlchemy: an instance that is not present in the session
}
